=== FILE: README.md ===
# skratch, modelled in Dafny

skratch is a small side-scrolling platformer written in C++ on SDL. The
player's character, Skratch, runs and jumps through a tile world read from
a collision map, alongside other entities (a blue-collar suit and a
blaster). Menus select video and audio options, and a frame loop moves
everything under gravity and friction. This project models the core of
that program as pure Dafny functions over immutable data, and proves what
the code promises about it.

The modules follow the program's files:

- `CArith`: C's truncating `/` and `%`, `(int)` casts of reals, signed
  `char` and 32-bit wrap-around, written out.
- `Options`: `Option` and `Result`.
- `Vectors`: the three-component `Vector` of `Vector.h`.
- `World`: the block grid, the conversions between screen, grid and linear
  positions, the camera clamp, and `World::collision`. The collision
  resolver is written once, parameterised by how a block is read.
  `Unchecked` is the program's indexing of `m_blocks`. `Checked` treats a
  cell outside the grid as empty. `Collide` is the call `Entity::animate`
  makes: the program's own reads wherever they stay inside `m_blocks`.
- `WorldExamples`: worked examples of the resolver on small concrete
  worlds.
- `WorldLoader`: `load_collision_map` and `load_entity_map` over the file's
  bytes, with the `istream`'s end-of-file behaviour written out.
- `Entities`: the `Entity` record, its setters, overlap tests and pointer
  ordering.
- `Animation`: the pose and frame bookkeeping of `Entity::animate`.
- `Skratch`, `BlueCollarSuit`, `Blaster`: each variant's `think` and
  `animate` hooks.
- `Physics`: gravity, friction and the collision step, for one entity and
  for all of them.
- `Session`: the game state record, `new_game`, `restart` and `exit_game`.
- `Menus`: the menus, their layout, and the clicks and keys they react to.
- `Game`: `handle_state`, the event handler and the event loop.
- `CommandLine`: the argument loop of `main.cc`, including `atoi`.
- `Editor`: the map editor's blank-map and verify modes.
- `Callstack`: the function-entry stack behind `ENTER_FUNCTION`.
- `Utilities`: path splitting and the bit macros.
- `Timer`: ticks, elapsed time and the frame counter.
- `Font`: the bitmap font and `render_text`'s layout of glyphs.
- `Assets`: the name-keyed registries behind `Video` and `Audio`.
- `Video`: surface registry, pixel reads and writes in either byte order,
  and the flips.
- `Audio`: the sound and music registries.

SDL, SDL_image and SDL_mixer never appear. Their answers are parameters:
- whether a file loads;
- whether a surface can be created;
- what `SDL_DisplayFormat` returns;
- what the mixer reports.

The same goes for the clock reading, the pointer order `std::sort` sees,
the frame's `dt`, and the sizes of sprite images.

## Model

| member | source | states |
|---|---|---|
| Vectors.Snap | include/Vector.h:102-106 | `snap()` yields whole components, and leaves a vector of whole components unchanged |
| Vectors.SnapTruncatesTowardZero | include/Vector.h:102-106 | each component of `snap()` is its input truncated toward zero: on the same side of zero, no further from zero, less than one away |
| World.BitOf | include/World.h:61-72 | each of the six collision flags has a bit below `CollisionSize` |
| World.CollisionAt | include/World.h:61-72 | a bit position holds a flag exactly when it is below `CollisionSize`, and that flag's bit is the position |
| World.CollisionBitsDistinct | include/World.h:61-72 | the six flags occupy six distinct bits, and each bit maps back to its flag |
| World.CellsLieInsidePixelExtent | include/World.h:111-112 | every grid cell lies inside the world's pixel width and height |
| World.ScreenToGrid | src/World.cc:43-52 | the cell of a pixel coordinate, by division truncated toward zero: the pixel lies in the cell for a non-negative coordinate, and the cell is never positive for a negative one |
| World.GridRoundTrip | src/World.cc:55-70 | the row and column are recovered from the linear index they produce |
| World.LocationRoundTrip | src/World.cc:55-70 | a non-negative linear index is rebuilt from its row and column, and the column lies in `[0, width)` |
| World.GridCellsHaveBlocks | src/World.cc:55-58 | in a world with `width * height` blocks, every grid cell's linear index is a valid block index |
| World.LookupsAgreeInGrid | src/World.cc:261-267 | inside the grid, the unchecked block read and the checked one agree |
| World.LandOnTileTop | src/World.cc:263-264 | a box placed to end at the top of cell `c` no longer reaches into cell `c` |
| World.LandOnTileBottom | src/World.cc:266-267 | a box placed to start at the bottom of cell `c` starts in cell `c + 1` |
| World.VerticalStep | src/World.cc:256-270 | one column of the vertical pass leaves x alone and adds only Bottom or Top flags |
| World.VerticalStepOutcome | src/World.cc:256-270 | a solid bottom tile adds exactly BottomCollision and lands the box on that tile; otherwise a solid top tile sets TopCollision and moves the box below it; with neither tile solid nothing changes |
| World.VerticalPass | src/World.cc:256-270 | the vertical pass over columns leaves x alone and adds only Bottom or Top flags |
| World.HorizontalStep | src/World.cc:278-292 | one row of the horizontal pass leaves y alone and adds only Left or Right flags |
| World.HorizontalStepOutcome | src/World.cc:278-292 | a solid left tile sets LeftCollision and moves the box right of it; otherwise a solid right tile sets RightCollision and lands the box on its left edge; with neither solid nothing changes |
| World.HorizontalPass | src/World.cc:278-292 | the horizontal pass over rows leaves y alone and adds only Left or Right flags |
| World.Resolve | src/World.cc:225-299 | `World::collision`: no position or a negative size gives no flags and an unchanged position; otherwise the position comes back whole, only wall flags besides EndWorld and FellOffWorld are set, and those two are set exactly when the resolved box passes the world's right or bottom pixel edge |
| World.ResolveInOpenWorld | src/World.cc:225-299 | in a world with no collidable block, the resolver only snaps the candidate and raises no wall flag |
| World.VerticalPassClear | src/World.cc:256-270 | without collidable blocks the vertical pass changes nothing |
| World.HorizontalPassClear | src/World.cc:278-292 | without collidable blocks the horizontal pass changes nothing |
| World.VerticalStepAgrees | src/World.cc:256-270 | a vertical step whose reads are in the grid is the same under both lookups |
| World.HorizontalStepAgrees | src/World.cc:278-292 | a horizontal step whose reads are in the grid is the same under both lookups |
| World.VerticalPassAgrees | src/World.cc:256-270 | a vertical pass whose reads are in the grid is the same under both lookups |
| World.HorizontalPassAgrees | src/World.cc:278-292 | a horizontal pass whose reads are in the grid is the same under both lookups |
| World.LookupsAgreeWithinGrid | src/World.cc:225-299 | when every read of a call falls inside the grid, the source's unchecked lookup and the checked lookup resolve identically |
| World.LastRowReadInGrid | src/World.cc:278-292 | when the horizontal pass reads only grid cells, its last row lies above the grid's bottom |
| World.FallNeedsReadOutsideGrid | src/World.cc:225-299 | as written, a call whose reads all stay inside the grid never reports FellOffWorld |
| World.FallReadsOutsideBlocks | src/World.cc:256-265 | as written, a box that starts below the grid reads past the end of the block vector |
| World.VerticalPassBelowGrid | src/World.cc:256-270 | with the checked lookup, a box below the grid passes the vertical pass unchanged |
| World.HorizontalPassBelowGrid | src/World.cc:278-292 | with the checked lookup, rows below the grid leave the horizontal pass unchanged |
| World.CheckedReportsFall | src/World.cc:294-295 | with the checked lookup, a box that starts below the grid is reported as FellOffWorld and stays where it is |
| World.ScrollAxis | src/World.cc:203-221 | one axis of the scroll: the camera ends at the target minus half the window (a floor halving), clamped to the world |
| World.Scroll | src/World.cc:199-222 | each camera coordinate is the player's truncated coordinate minus half the window, clamped; nothing else in the world changes |
| World.ScrollStaysInWorld | src/World.cc:217-221 | when the world is at least as large as the window, the camera shows only the world |
| World.ScrollCentredIsStable | src/World.cc:211-215 | a player at the window's centre, in a world that fits, leaves the camera where it was |
| World.Collide | src/World.cc:225-299 | `World::collision` as the program runs it: the unchecked reads whenever they all stay inside `m_blocks` (equal to the checked lookup inside the grid); no position or a negative size gives no flags; otherwise a whole-pixel position, at most one flag per pass, and EndWorld and FellOffWorld exactly when the resolved box passes the world's right or bottom edge |
| WorldExamples.FloorWorld | src/World.cc:302-365 | worked example: a 10 x 5 world of 32-pixel blocks with a solid bottom row is a loaded world |
| WorldExamples.LandingOnFloor | src/World.cc:256-297 | worked example: a 16 x 16 box asked to move into the floor row at (40, 120) is lifted to (40, 112) with only BottomCollision set |
| WorldExamples.LedgeWorld | src/World.cc:302-365 | worked example: a 2 x 2 world of 1-pixel blocks whose bottom row is solid is a loaded world |
| WorldExamples.RightEdgeReadsNextRow | src/World.cc:263-265 | worked example: a 1 x 1 box at (2, 0), just past the right edge of that world, reads column 2 of row 0, which is cell 0 of the solid row below; all its reads stay inside `m_blocks`, and the program reports BottomCollision |
| WorldExamples.CheckedMissesNextRow | src/World.cc:263-265 | worked example: for the same box the checked lookup sees an empty cell and reports no BottomCollision, so the two lookups differ past a row's end |
| WorldLoader.Get | src/World.cc:315-316 | `infile.get(c)`: the next byte read as a signed `char`, advancing one byte; at the end nothing is read, `c` keeps its value and `eof()` becomes set |
| WorldLoader.ReadRow | src/World.cc:343-362 | one row of the grid loop: a complete row yields one cell per column, all in that row; a strict read consumes the row's cells and its '\n' exactly |
| WorldLoader.ReadRows | src/World.cc:343-363 | the grid loop: a complete read yields `width * height` cells, each inside the grid; a strict read consumes `(width + 1) * height` bytes exactly |
| WorldLoader.BlockOf | src/World.cc:354-355 | a cell is collidable exactly when its `char` is not '0', and has no surface |
| WorldLoader.Blocks | src/World.cc:343-363 | one block per cell read, in order |
| WorldLoader.CollisionMapWorld | src/World.cc:302-365 | the world `load_collision_map` leaves behind: the loaded world on success; unchanged when the header is short or too small; with the header's size and the bottom-edge scroll, but no new blocks, when the '\n' is missing; and always the old blocks followed by those read so far |
| WorldLoader.LoadCollisionMap | src/World.cc:302-365 | the header's two signed bytes below the viewport's block counts fail as not wide or not high enough; a load that succeeds had '\n' after the header, takes the header's size, scrolls to the world's bottom edge, and appends exactly `width * height` blocks after the old ones, changing nothing else |
| WorldLoader.StrictLoadReadsWholeFile | src/World.cc:343-363 | with the failed `get` treated as a failure, a loaded map had its header and every row's cells and '\n' in the file |
| WorldLoader.StaleCharAcceptsMissingRow | src/World.cc:343-363 | as written, a header with no rows loads a one-block map: the stale '\n' left in `c` becomes a collidable cell and then passes as the row end; the strict reading rejects the same bytes |
| WorldLoader.ReadRowOfBytes | src/World.cc:344-362 | a row written as its bytes and '\n' reads back as its cells and stops just past the '\n', under either reading |
| WorldLoader.ReadRowsOfBytes | src/World.cc:343-363 | rows written in the map format read back as all their cells |
| WorldLoader.CollisionMapRoundTrip | src/World.cc:302-365 | a map written in the format (size header, '\n', rows) loads back with its size and one block per cell, under either reading |
| WorldLoader.Spawned | src/World.cc:429-438 | a 'B' cell becomes a blaster and an 'S' cell a suit, with its media, at the cell's top-left pixel, registered at the next address |
| WorldLoader.Spawn | src/World.cc:426-442 | the registry keeps its entries and gains one new, non-removable entry per 'B' or 'S' cell, in the cells' order: the j-th is the j-th spawning cell's blaster or suit at address `nextAddress + j` |
| WorldLoader.SpawningCells | src/World.cc:426-442 | the cells that spawn, one per 'B' or 'S' cell, each taken from the input |
| WorldLoader.LoadEntityMap | src/World.cc:410-458 | `load_entity_map`: it succeeds exactly when every row is read and ends in '\n'; the registry keeps its old entries and gains, in reading order, one placed blaster or suit per 'B' or 'S' cell read, also when a later row fails |
| WorldLoader.EntityMapBadRowEndFails | src/World.cc:449-453 | a row whose cells are followed by anything but '\n' makes the load fail |
| WorldLoader.EmptyEntityMapSpawnsNothing | src/World.cc:410-458 | a map whose rows hold no 'B' or 'S' loads and leaves the registry unchanged |
| WorldLoader.SpawnNothing | src/World.cc:426-442 | cells with no 'B' or 'S' spawn nothing |
| WorldLoader.Viewport | src/World.cc:101-104 | the block size comes from the video state, and as many whole blocks across and down as the window holds |
| WorldLoader.LoadLevel | src/World.cc:96-116 | `World::load`: the collision, texture and entity maps load in order, stopping at the first failure; the level is loaded exactly when all three succeed; the world is whatever the collision map left, loaded or partial; then the player moves to x = 0 at the camera's height |
| WorldLoader.LoadedLevelIsValid | src/World.cc:96-116 | a level that loaded, under either reading, holds exactly `width * height` blocks |
| Entities.NewEntity | src/Entity.cc:181-187 | a new entity has no sprite, a zero animation clock and mass, is not removable, and rests at the origin |
| Entities.PushBack | src/Entity.cc:48-53 | `push_back` appends the entity and keeps every earlier entry in order |
| Entities.Back | src/Entity.cc:56-63 | `back` is null exactly for an empty registry, and otherwise the last entry |
| Entities.Register | src/Entity.cc:181-187 | the constructor registers the entity, as the new last entry, exactly when `add` is true |
| Entities.BackAfterPushBack | src/Entity.cc:48-63 | `back` after `push_back` returns the entity just pushed |
| Entities.SetPosition | include/Entity.h:172-175 | the position becomes the argument; every other field stays |
| Entities.SetVelocity | include/Entity.h:181-184 | the velocity becomes the argument; every other field stays |
| Entities.SetAcceleration | include/Entity.h:190-193 | the acceleration becomes the argument; every other field stays |
| Entities.Accelerate | include/Entity.h:199-202 | the argument is added to the acceleration component by component; every other field stays |
| Entities.SetRemovable | include/Entity.h:223-226 | the entity becomes removable; every other field stays |
| Entities.SetRemovableIdempotent | include/Entity.h:223-235 | flagging twice is flagging once, and flagging a removable entity changes nothing |
| Entities.Width | src/Entity.cc:268-273 | -1 without a sprite, otherwise the sprite's width |
| Entities.Height | src/Entity.cc:276-281 | -1 without a sprite, otherwise the sprite's height |
| Entities.CollidesWithSelf | src/Entity.cc:157-172 | an entity whose sprite has a non-negative size collides with itself |
| Entities.CollidesImpliesMeet | src/Entity.cc:157-172 | when `b` is no wider than it is high, a hit of `collision` means the two sprite boxes really meet |
| Entities.CollidesMissesOverlap | src/Entity.cc:157-172 | `collision` misses two 10 x 10 boxes at (0, 5) and (5, 0) that overlap |
| Entities.CollidesIsNotSymmetric | src/Entity.cc:157-172 | because the second clause uses `b.width()` for the vertical extent, `collision(a, b)` and `collision(b, a)` can differ |
| Entities.PositionLessIsStrictOrder | src/Entity.cc:298-310 | `operator<` is the lexicographic order on (z, x, y): irreflexive, asymmetric, transitive, and false both ways for equal positions |
| Entities.InsertByAddress | src/Entity.cc:106-111 | inserting into an address-sorted list keeps it sorted and adds exactly the one entity |
| Entities.SortByAddress | src/Entity.cc:106-111 | `entities.sort()` on a list of pointers orders by address and is a permutation of the registry |
| Entities.SortIgnoresPosition | src/Entity.cc:106-111 | the sort orders by address, not by `operator<`: an entity in front can stay behind one it is less than |
| Entities.Cleanup | src/Entity.cc:90-103 | `cleanup` keeps exactly the entries that are not removable, and never grows the list |
| Entities.CleanupKeepsOrder | src/Entity.cc:90-103 | cleaning a concatenation cleans each part in place, so the kept entries keep their order |
| Entities.CleanupKeepsClean | src/Entity.cc:90-103 | a registry with no removable entry is left unchanged |
| Entities.CleanupIdempotent | src/Entity.cc:90-103 | a second `cleanup` changes nothing |
| Entities.FreeEntities | src/Entity.cc:126-135 | `free_entities` leaves the registry empty |
| Animation.PoseFromId | include/Skratch.h:38-44 | exactly the ids 0 to 3 name a pose, and each names the pose whose id it is |
| Animation.PoseIdRoundTrip | include/Skratch.h:38-44 | every pose's id names that pose again |
| Animation.SetState | src/Skratch.cc:211-235 | `set_state`: an id outside the four poses changes nothing; otherwise the pose becomes that id, the sprite its first frame, and the animation clock restarts exactly when the pose changes |
| Animation.SetStateIdempotent | src/Skratch.cc:211-235 | setting the same state twice is setting it once |
| Animation.Advance | src/Skratch.cc:162-190 | the clock advances by `dt`; a running pose shows run 1, idle, run 2, idle for the four quarter seconds, and past the cycle the clock restarts with the sprite unchanged; an idle pose keeps its sprite |
| Skratch.NewSkratch | src/Skratch.cc:57-64 | the player starts unregistered, unable to jump, idle facing right, with no sprites, no jump sound, no blaster and mass 1 |
| Skratch.SkratchIsUnregistered | src/Skratch.cc:57 | constructing the player leaves the entity registry unchanged |
| Skratch.SetState | src/Skratch.cc:211-235 | the player's frame changes as the shared pose machine says, and nothing else about the player does |
| Skratch.Steer | src/Skratch.cc:81-92 | right wins over left and sets the horizontal acceleration to +525 and the pose to running right; left sets -525 and running left; neither clears it and turns a running pose idle the same way |
| Skratch.Jump | src/Skratch.cc:105-109 | with space held and ground contact the player jumps: space is released and the vertical speed drops by 650; otherwise the vertical acceleration is cleared and the keys stay |
| Skratch.Fire | src/Skratch.cc:111-112 | with a control key and a blaster that has cooled down, one shot is appended to the registry and the blaster's cool-down restarts; otherwise nothing changes |
| Skratch.Think | src/Skratch.cc:77-113 | `think` steers, jumps and shoots as the three halves say, leaving position and mass alone and changing no key but space |
| Skratch.ThinkIdleIsStable | src/Skratch.cc:77-113 | with no key held, a second `think` changes nothing further |
| Skratch.NoJumpInMidAir | src/Skratch.cc:105-109 | without ground contact the vertical speed and the keys are untouched |
| Skratch.Clamp | src/Skratch.cc:153-157 | the value limited to the band, unchanged inside it |
| Skratch.OnAnimate | src/Skratch.cc:142-193 | negative coordinates are cleared, `can_jump` is exactly whether the step landed, the horizontal speed is limited to 325 either way, a carried blaster cools down and the animation advances |
| Skratch.OnAnimateClampsSettle | src/Skratch.cc:146-157 | a second `on_animate` with the same flags changes neither position, speed nor jump state |
| Skratch.OnCollision | src/Skratch.cc:196-208 | touching a blaster pick-up removes it and arms the player with a fresh blaster; touching a suit makes the player removable; anything else changes nothing |
| Skratch.PickUpArmsPlayer | src/Skratch.cc:200-205 | after picking up a blaster the player can shoot at once and the pick-up is removable |
| BlueCollarSuit.NewSuit | src/BlueCollarSuit.cc:53-60 | constructing a suit registers it as the new last entry, idle facing right, with mass 1, no sprites and not removable |
| BlueCollarSuit.Think | src/BlueCollarSuit.cc:63-66 | a suit's `think` leaves it as it is |
| BlueCollarSuit.SetState | src/BlueCollarSuit.cc:155-179 | the suit's frame changes as the shared pose machine says, and nothing else about the suit does |
| BlueCollarSuit.KeepInside | src/BlueCollarSuit.cc:97-104 | a coordinate ends with its far edge inside the extent, and not below 0 when the sprite fits; one already inside stays |
| BlueCollarSuit.OnAnimate | src/BlueCollarSuit.cc:93-141 | the position is pulled back inside the world's pixel extent on both axes, the horizontal speed is limited to 75 either way, and the animation advances |
| BlueCollarSuit.SuitStaysInWorld | src/BlueCollarSuit.cc:97-104 | a suit no larger than the world ends every frame wholly inside it |
| BlueCollarSuit.OnCollision | src/BlueCollarSuit.cc:144-152 | a blaster shot and the suit both become removable; any other entity has no effect |
| Blaster.NewBlaster | src/Blaster.cc:120-123 | a new blaster has cool-down zero and no sound, and is registered exactly when `add` is true |
| Blaster.LowerCoolTime | src/Blaster.cc:141-147 | the cool-down drops by `dt` only while it is positive; a ready blaster stays as it is |
| Blaster.CoolDownReaches | src/Blaster.cc:141-147 | lowering by at least the remaining cool-down makes the blaster ready, and lowering a ready one again changes nothing |
| Blaster.NewShot | src/Blaster.cc:51-71 | a shot is massless, starts at the shooter's snapped position one block lower, one block further right when facing right, and flies at 650 the way the shooter faces |
| Blaster.ShotLeavesForward | src/Blaster.cc:51-71 | a shot moves away on the side the shooter faces and starts no further back than the shooter |
| Blaster.Shoot | src/Blaster.cc:126-138 | a blaster still cooling does nothing; a ready one appends exactly one new shot and restarts its 0.5 s cool-down |
| Blaster.ShootTwiceFiresOnce | src/Blaster.cc:126-138 | a second `shoot` without cooling down changes nothing, so at most one shot is added |
| Blaster.ShotThink | src/Blaster.cc:74-82 | a shot becomes removable exactly when its snapped x is left of the camera or more than a window width right of it; nothing else changes |
| Blaster.ShotOnAnimate | src/Blaster.cc:94-100 | a shot becomes removable exactly when it hit anything or has a negative coordinate; nothing else changes |
| Blaster.HitShotIsCleanedUp | src/Blaster.cc:94-100 | a shot that hit a tile is gone after the next `cleanup`, and the other entries survive as before |
| Physics.Think | src/Entity.cc:66-75 | the `think` one entry gets: only the removable flag can change, a removable entry is left alone, and only a shot does anything |
| Physics.OnCollision | src/Entity.cc:233-237 | the `on_collision` dispatched on the reacting entity's kind keeps its body and at most flags either side removable; a blaster pick-up or a shot reacts to nothing |
| Physics.SelfContactIsInert | src/Entity.cc:233-237 | the registry loop also meets the entity itself, and that contact has no effect whatever the kind |
| Physics.OnAnimate | src/Entity.cc:240 | the `on_animate` dispatched on kind keeps address, acceleration and mass, only a shot can become removable, and a blaster pick-up is unchanged |
| Physics.FrictionDirection | src/Entity.cc:225-226 | the friction term opposes a speed above 1 and any leftward speed, but pushes a speed in (0, 1] further right; zero speed gets none |
| Physics.Candidate | src/Entity.cc:212-213 | the candidate position is s + v t + a t² / 2 on every axis |
| Physics.WithGravity | src/Entity.cc:209-210 | gravity adds 1550 times the mass to the vertical acceleration and changes nothing else |
| Physics.Respond | src/Entity.cc:216-230 | a side flag stops horizontal motion; a floor or ceiling flag stops vertical motion and applies friction; otherwise the velocity integrates the acceleration; position and everything else stay |
| Physics.Move | src/Entity.cc:209-230 | the resolved position and flags are `World::collision`'s answer for the candidate position with the program's unchecked block reads whenever they stay inside `m_blocks`, and the entity responds to those flags |
| Physics.GravityAccumulates | src/Entity.cc:209-230 | a step with no floor or ceiling contact keeps the added weight in the acceleration; a massless entity gets none, and with no vertical acceleration keeps its vertical speed |
| Physics.Interact | src/Entity.cc:233-237 | the registry loop keeps the registry's length and order, at most flags entries removable, and leaves the entity's own slot alone |
| Physics.InteractWithoutContact | src/Entity.cc:233-237 | with nothing overlapping the entity, the loop changes nothing |
| Physics.InteractKeepsUntouched | src/Entity.cc:233-237 | an entry the entity does not overlap is left exactly as it was |
| Physics.CollidesDependsOnBody | src/Entity.cc:157-172 | the overlap test looks only at positions and sprites, so a reaction that keeps the body does not change later tests |
| Physics.Animate | src/Entity.cc:199-242 | without a sprite of non-negative size only `on_animate` runs, with no flags; otherwise the flags and acceleration are those of the move, and every entry the entity did not overlap is unchanged |
| Physics.AnimateAt | src/Entity.cc:82-86 | one entry's step written back into its own slot keeps its address, and other entries at most become removable |
| Physics.AllAnimate | src/Entity.cc:78-87 | `all_animate` keeps every entry's address, and skips removable entries |
| Physics.AllAnimateSkipsRemovable | src/Entity.cc:78-87 | a registry of removable entries is left exactly as it is |
| Physics.AllThink | src/Entity.cc:66-75 | `all_think` lets each entry that is not removable think, independently, and leaves removable ones alone |
| Physics.PlayerAnimate | src/Skratch.cc:67-74 | the player's step is the entity step against the registry (the player is not in it), and the camera then follows the position the step reached |
| Session.InitialState | include/state.h:80-142 | the state starts quitting, unpaused, showing the frame rate, windowed, with no menu, world or player, sound and music on and nothing pressed |
| Session.ExitGame | src/game.cc:157-162 | `exit_game` sets the game state to `Quit` and changes nothing else |
| Session.NewPlayer | src/Skratch.cc:57-131 | a new player with its media loaded shows its idle-right sprite, is idle facing right at rest, unarmed and not removable |
| Session.RestartGame | src/game.cc:192-208 | `restart_game` puts a new player and a freshly loaded world in place over an emptied entity list holding only spawned, non-removable blasters and suits; the level is read byte for byte as the program reads it, stale characters included; the game quits exactly when it fails to load; lives, score and the rest stay |
| Session.NewGame | src/game.cc:166-189 | `new_game` starts nine lives and no score, and is running exactly when the level, read as the program reads it, loads (quitting otherwise), with a world and player in place |
| Session.NewGameIsFreshRestart | src/game.cc:166-208 | a new game is a restart of a running game with nine lives and no score |
| Menus.EnterMainMenu | src/menu.cc:119-129 | `main_menu` enters the menu state on the main menu's title screen and changes nothing else |
| Menus.EnterGameMenu | src/menu.cc:132-142 | `game_menu` enters the menu state on the in-game menu's title screen and changes nothing else; nothing in the program calls it, so it is modelled but unused |
| Menus.Exec | src/menu.cc:145-166 | `exec` runs the entry's function: none for a title, `new_game`, `exit_game`, or a `to_*` function that changes only the menu screen |
| Menus.Entry | src/menu.cc:179-180 | an entry is as wide as its text in font cells and one font cell high |
| Menus.OptionY | src/menu.cc:178-195 | option `i` of a list lies at 10 + 15 + h + (i - 1)(5 + h) for font height h |
| Menus.OptionsDoNotOverlap | src/menu.cc:178-195 | with a non-negative font height, each option starts below the bottom edge of the one before |
| Menus.TitleOptions | src/menu.cc:169-196 | the title list is the window title, then New Game, Options and Exit, laid out top-down |
| Menus.OptionsOptions | src/menu.cc:199-226 | the options list is Options, then Video, Audio and Back (to the title), laid out top-down |
| Menus.BackOptions | src/menu.cc:229-266 | the video and audio lists are their title, then Back to the options screen |
| Menus.FirstHit | src/menu.cc:56-59 | the index of the first entry whose rectangle, edges included, holds the mouse, or the list's length if none does |
| Menus.Release | src/menu.cc:334 | the left button is released and nothing else changes |
| Menus.ClickRunsFirstHit | src/menu.cc:331-336 | a click runs only the first entry under the mouse and releases the button, even for a title; with the button up or no entry hit, nothing changes |
| Menus.ReleasedClickChangesNothing | src/menu.cc:331-336 | once the button is up the rest of the loop does nothing, whatever an earlier entry changed |
| Menus.HandleMainMenu | src/menu.cc:288-337 | Escape quits from the title and climbs one screen elsewhere; Return on the title starts a new game; otherwise the screen's list takes the click |
| Menus.HandleGameMenu | src/menu.cc:340-361 | Escape resumes the game from the title and climbs one screen elsewhere; without Escape nothing changes |
| Menus.GameMenuEscapesToGame | src/menu.cc:340-361 | from the video screen it takes three Escapes to get back into the game |
| Menus.HandleMenu | src/menu.cc:364-373 | only in the menu state, and dispatched on the menu type; no menu type changes nothing |
| Game.PlayerKeys | src/Skratch.cc:81-111 | the player reads right, left, space, and either control key from `keystate` |
| Game.ThinkPhase | src/game.cc:277-280 | sorting, every entry's `think` and the player's `think` keep a world and a player, change only the registry, the player and at most the space key, and add at most one shot |
| Game.PlayerThinks | src/game.cc:280 | the player's `think` keeps its address and removable flag and adds at most one entry |
| Game.AnimatePhase | src/game.cc:282-284 | animating every entry and then the player keeps the registry's length and the player's address, can only scroll the world, and never revives a removable player |
| Game.Simulate | src/game.cc:276-284 | a simulated frame changes only the registry, the player, the camera and at most the space key, and adds at most one entry |
| Game.Finish | src/game.cc:308-313 | the end of a drawn frame releases F11 and keeps exactly the entries that are not removable |
| Game.HandleState | src/game.cc:260-321 | the menu state runs the menus; a paused game only finishes the frame; a simulated frame that loses the player costs a life and restarts the level, or on the last life quits; reaching the world's end quits; other states do nothing; the state stays consistent |
| Game.MenuKeepsConsistent | src/menu.cc:288-373 | the menus leave a world and player in place whenever the game runs or can be resumed |
| Game.ClickKeepsConsistent | src/menu.cc:331-336 | a click in the main menu keeps the state consistent and stays in the main menu |
| Game.RunningFrameLeavesNoRemovable | src/game.cc:275-315 | after a running frame, paused or not, no entry is marked removable |
| Game.AtMostOneLifePerFrame | src/game.cc:285-293 | a running frame loses at most one life and never goes below zero from zero; elsewhere lives change only by a new game's reset to nine |
| Game.RunningLives | src/game.cc:285-293 | a running frame keeps the lives or loses exactly one, and never makes them negative |
| Game.MenuLives | src/menu.cc:288-373 | the menus keep the lives or set them to nine by starting a new game |
| Game.ClickLives | src/menu.cc:331-336 | a click keeps the lives or sets them to nine |
| Game.Press | src/game.cc:343-354 | a mouse event sets exactly the left, middle or right button's state, and other buttons change nothing |
| Game.Keys | src/game.cc:374-405 | `keystate` becomes the given set and nothing else changes |
| Game.HandleEvent | src/game.cc:331-412 | the event switch: motion and buttons move the mouse; 'f' toggles the frame rate, 'p' toggles the pause only while running, 'a', 'e' and 's' only print; other key-downs set `keystate`; Escape and 'q' key-ups quit a running game; an Escape key-up starts a new game from the story and quits from the end screen, and does nothing else in other states, nor does 'q' outside a running game; each of these also clears the key when key-ups clear it; other key-ups clear the key and leave the end screen for the main menu; closing the window quits |
| Game.HandleEvents | src/game.cc:331-413 | the queued events in order keep the state consistent, and a quit, or a window close among them, ends in `Quit` |
| Game.EventLoop | src/game.cc:324-415 | `event_loop` does nothing when quitting; otherwise it handles the queue and then one frame, keeping the state consistent |
| Game.PauseTogglesBack | src/game.cc:395-396 | two presses of 'p' restore the state, and outside a running game 'p' does nothing |
| Game.KeyPressIsUndone | src/game.cc:372-405 | a plain key pressed and released leaves the state as it was |
| Game.SingleEvent | src/game.cc:331-413 | a queue of one event is that event |
| Game.KeyUpReleases | src/game.cc:356-375 | with every key-up clearing its key, no released key stays in `keystate` |
| Game.EscapeStaysPressed | src/game.cc:359-368 | as written, releasing Escape in a menu leaves `keystate` unchanged, so Escape stays set |
| Game.EscapeFromOptionsQuits | src/game.cc:359-368 | as written, one press of Escape on the options screen returns to the title and, the next frame, quits from there |
| Game.EscapeClimbsOneLevel | src/game.cc:359-368 | with key-ups releasing Escape, the same press climbs exactly one screen and leaves nothing held |
| CommandLine.DefaultState | src/main.cc:119-128 | `default_state` enters the menu with a 640 x 480 window of 16 bits a pixel and changes nothing else |
| CommandLine.Atoi | src/main.cc:94 | `atoi`: an empty string, or one starting with anything but white space, a sign or a digit, reads as 0 |
| CommandLine.AtoiReadsDecimal | src/main.cc:94 | `atoi` reads back every natural number written in decimal, with or without a leading minus |
| CommandLine.Apply | src/main.cc:89-114 | one option's effect: `-width`, `-height` and `-bpp` set that field to the `atoi` of their value, `-nomusic` and `-nosound` turn music and sounds off, `-fullscreen` and `-window` turn full screen on and off, and any other argument leaves the state alone |
| CommandLine.ProcessFromStep | src/main.cc:88-115 | one pass of the loop: a numeric option with a value after it applies both and moves on two places; any other argument except `--help` applies itself and moves on one |
| CommandLine.ValueOption | src/main.cc:89-106 | a numeric option followed by a number written in decimal, with or without a minus, sets that one field of the video state to the number, changes nothing else, and the loop carries on after the value |
| CommandLine.ProcessFrom | src/main.cc:88-115 | the loop ends by carrying on past the last argument; `--help` exits with 0; a numeric option with nothing after it exits with 1; no other exit |
| CommandLine.ProgramNameIgnored | src/main.cc:88 | the loop starts at `argv[1]`, so the program's name changes nothing |
| CommandLine.SameTail | src/main.cc:88-115 | two argument lists that agree after the name give the same outcome from any position |
| CommandLine.LastScreenSwitchWins | src/main.cc:107-110 | switches always carry on, and the last `-fullscreen` or `-window` decides the screen mode |
| CommandLine.SwitchesFrom | src/main.cc:107-110 | from any position, switches carry on and the last screen switch after it decides |
| CommandLine.LastChoiceSplit | src/main.cc:109-110 | the last screen choice over a list is the last choice over its tail, starting from what its head chose |
| CommandLine.UnknownArgumentsIgnored | src/main.cc:114 | unknown arguments are only reported, so the state is as it was |
| CommandLine.UnknownFrom | src/main.cc:114 | from any position, unknown arguments leave the state as it was |
| CommandLine.WidthOption | src/main.cc:89-94 | `-width n` sets the window width to n |
| CommandLine.DecimalValue | src/main.cc:94 | a number's decimal digits have that number as their value |
| Editor.HeaderOf | editor/main.cc:158-163 | each typed size is stored in a signed `char`: the result is a `char` value, and a size that fits is kept exactly |
| Editor.BlankRows | editor/main.cc:71-74 | `height` rows of `width` '0' bytes each, none for a negative count |
| Editor.CollisionMapLayout | editor/main.cc:53-77 | the written collision map is the two header bytes, which read back as the size, then '\n', then one row of `width` cells and '\n' per line |
| Editor.RowsBytesLength | editor/main.cc:71-74 | rows of equal width take `width + 1` bytes each |
| Editor.VerifyCollisionMap | editor/main.cc:80-105 | verification succeeds exactly when the file opens and its first two bytes, read as signed `char`s, equal the header |
| Editor.Main | editor/main.cc:150-171 | the editor exits with 0 exactly when all four file steps succeed and with 1 otherwise; it writes each file only when every earlier step succeeded, and each file is the blank map of the typed size |
| Editor.VerifyAcceptsWrittenMap | editor/main.cc:53-105 | verification accepts every collision map the editor writes |
| Editor.EditorMapsLoad | editor/main.cc:53-147 | a size at least the viewport's, written by the editor, loads into a world of that size with every new block empty, and the blank entity map spawns nothing |
| Editor.BlankCellsAreZero | editor/main.cc:71-74 | every cell of blank rows reads back as '0' |
| Editor.BlankRowIsZero | editor/main.cc:72 | every cell of one blank row reads back as '0' |
| Callstack.Length | include/Callstack.h:65-72 | a chain is empty exactly when it is the null pointer |
| Callstack.Frames | include/Callstack.h:141-149 | a chain holds one frame per node: the head node's frame first, then the rest of the chain's |
| Callstack.EmptyStack | include/Callstack.h:97 | a new stack has no frames and size 0, which is its length |
| Callstack.Push | include/Callstack.h:116-121 | `push` puts the call in front of the old chain and grows the size by one, keeping the size equal to the length |
| Callstack.Pop | include/Callstack.h:126-133 | `pop` does nothing to an empty stack and otherwise drops the most recent frame, shrinking the size by one |
| Callstack.PopUndoesPush | include/Callstack.h:116-133 | a `pop` undoes the `push` before it |
| Callstack.Destroy | include/Callstack.h:102 | popping while the size is positive leaves the empty stack |
| Callstack.Enter | include/Callstack.h:184-188 | entering a traced function pushes its call and counts it |
| Callstack.Leave | include/Callstack.h:193 | leaving pops, and the count stays |
| Callstack.CallCount | include/Callstack.h:184-193 | an activation counts at least its own call |
| Callstack.Run | include/Callstack.h:184-193 | running an activation keeps the stack's size equal to its length |
| Callstack.RunAll | include/Callstack.h:184-193 | running a sequence of activations keeps the stack's size equal to its length |
| Callstack.ScopesBalance | include/Callstack.h:184-193 | balanced scopes leave the stack as they found it and count every call made |
| Callstack.ScopesBalanceAll | include/Callstack.h:184-193 | a sequence of balanced scopes leaves the stack as it was and counts every call |
| Utilities.LastSlash | include/utilities.h:60 | `rfind("/")` is `npos` exactly when there is no '/', and otherwise the position of a '/' with none after it |
| Utilities.StripPath | include/utilities.h:58-62 | `strip_path` holds no '/': the whole name when there is none, otherwise what follows the last '/' |
| Utilities.GetPath | include/utilities.h:68-72 | `get_path` is the whole name when there is no '/', otherwise everything up to and including the last '/' |
| Utilities.PathSplits | include/utilities.h:58-72 | a name with a '/' is its path followed by its file name |
| Utilities.BareNameIsItsOwnPath | include/utilities.h:58-72 | without a '/', both helpers return the whole name, so the name counts twice if they are joined |
| Utilities.GetBit | include/utilities.h:96 | `GETBIT` reads 0 or 1 |
| Utilities.SetBitSets | include/utilities.h:80-96 | `SETBIT` makes bit `i` read 1 and leaves every other bit |
| Utilities.SetBitLongAsWritten | include/utilities.h:88 | `SETBIT_L` as written is a comparison: it leaves `b` unchanged and is false exactly when `b` is the mask of bit `i` alone, in which case bit `i` is set |
| Utilities.GetBitLong | include/utilities.h:104 | `GETBIT_L` reads 0 or 1 |
| Utilities.SetBitLongLeavesBitClear | include/utilities.h:88-104 | as written, `SETBIT_L(0, 0)` leaves bit 0 clear |
| Utilities.SetBitLongSets | include/utilities.h:82-104 | `SETBIT_L` as documented makes bit `i` read 1 and leaves every other bit |
| Timer.NewTimer | src/Timer.cc:32-35 | a new timer has last reading 0 and current reading the first tick count |
| Timer.Update | src/Timer.cc:38-42 | `update` makes the current reading the last and the new tick count the current |
| Timer.ElapsedMs | src/Timer.cc:45-48 | the elapsed count is an `unsigned int`, equal to the plain difference when the readings did not wrap |
| Timer.ElapsedSec | src/Timer.cc:51-54 | the elapsed time in seconds is non-negative and is the millisecond count over 1000 |
| Timer.ElapsedSurvivesWrap | src/Timer.cc:38-48 | across a wrap of the 32-bit tick counter, two readings less than 2^32 ms apart still give their true difference |
| Timer.Fps | src/Timer.cc:57-61 | the rate is 0 when no time passed; for a count that fits a signed `int`, the number of whole frames of that length in a second (0 to 1000); past `INT_MAX` the count reads negative and the rate is not positive |
| Timer.RateBounds | src/Timer.cc:60 | `1000 / ms` for a positive `ms` lies in 0..1000, and that many frames fit in a second but one more does not |
| Timer.NegativeRate | src/Timer.cc:59-60 | a negative count divides 1000 to a non-positive rate |
| Font.NewFont | src/Font.cc:34-37 | a new font is not loaded and has an empty character size |
| Font.Shift4 | src/Font.cc:50-51 | `n >> 4` is the largest r with 16 r <= n |
| Font.Load | src/Font.cc:40-53 | `load` succeeds exactly when scaling the image gave an index, and then the font is loaded with cells of a sixteenth of the image, rounded down; a failed load keeps the old character size |
| Font.CharCode | src/Font.cc:69 | a byte below 128 is its own code, and so is every byte when `char` is unsigned |
| Font.Cell | src/Font.cc:89-90 | a non-negative code lies in column `c % 16`, 0 to 15, of row `c >> 4` |
| Font.GlyphRect | src/Font.cc:86-93 | a glyph's source rectangle is one character cell in size |
| Font.Layout | src/Font.cc:65-97 | the loop issues at most one blit per byte, each one cell in size and wholly inside the destination |
| Font.RenderText | src/Font.cc:56-98 | no destination or an unloaded font draws nothing; otherwise every glyph lies inside the destination |
| Font.Glyphs | src/Font.cc:86-96 | a line of glyphs, one per byte, side by side one cell apart |
| Font.GlyphsSplit | src/Font.cc:86-96 | a line of glyphs is its first glyph, then the rest one cell further right |
| Font.PlainLine | src/Font.cc:65-97 | text without control characters that fits on the line is drawn glyph by glyph, one cell apart |
| Font.NewlineStartsNextLine | src/Font.cc:74-96 | after a plain line that fits, a newline continues at `x` one line down |
| Font.GlyphBeforeNewline | src/Font.cc:74-96 | the line's first glyph, then the rest of the line and the newline from one cell further right |
| Font.NewlineFirst | src/Font.cc:74-77 | a newline whose cell fits draws nothing and moves to `x` one line down |
| Font.DrawsFirst | src/Font.cc:86-96 | a drawable byte whose cell fits is drawn at the cursor, and the cursor moves one cell right |
| Font.HighByteCellOutsideAtlas | src/Font.cc:69-93 | as written, with a signed `char` the byte 0xE9 selects cell (-7, -2), whose rectangle starts above and left of the atlas |
| Font.UnsignedCellInsideAtlas | src/Font.cc:89-93 | read as unsigned, every byte's glyph lies inside the 16 x 16 atlas of cells and gutters |
| Assets.Find | src/Audio.cc:76 | `std::find` by name returns the first entry with that name, and nothing exactly when no entry has it |
| Assets.SetHandle | src/Audio.cc:77-79 | overwriting an entry's handle keeps its name and index and every other entry |
| Assets.Append | src/Audio.cc:83-84 | a new entry goes at the end, indexed by the old size, and the vector stays indexed by position |
| Assets.PushBack | src/Audio.cc:71-102 | a name already present gets the new handle at its own index; a new name is appended and given the old size; no other entry changes |
| Assets.PushBackThenFind | src/Audio.cc:71-102 | after `push_back`, looking the name up finds the returned index, holding the handle given |
| Audio.Load | src/Audio.cc:105-148 | `load_sound` and `load_music`: a name with a handle returns its index unchanged; a name whose handle was freed is loaded again in place; a new name is appended only if it loads, and -1 leaves the registry alone |
| Audio.LoadThenFind | src/Audio.cc:105-148 | a load that returns an index makes the name findable at that index |
| Audio.LoadTwice | src/Audio.cc:105-148 | loading a name a second time changes nothing and returns the same index, whatever the file gives now |
| Audio.Unload | src/Audio.cc:151-184 | unloading by index frees that handle and keeps the entry; an index out of range does nothing |
| Audio.UnloadNamed | src/Audio.cc:162-197 | unloading by name frees the first entry with that name; an unknown name does nothing |
| Audio.UnloadAll | src/Audio.cc:199-232 | `unload_sounds`, `unload_music` and `unload_all` leave both registries empty |
| Audio.ReloadAfterUnloadAll | src/Audio.cc:225-232 | after `unload_all`, the next sound loaded is given index 0 |
| Audio.Play | src/Audio.cc:235-264 | an index in range hands that entry's handle to the mixer; one out of range plays nothing |
| Audio.PlayNamed | src/Audio.cc:245-275 | a known name plays its entry; an unknown one is loaded first, appended and played when it loads, and otherwise nothing happens |
| Audio.SoundVolume | src/Audio.cc:277-296 | -1 for an index out of range, otherwise the mixer's answer |
| Video.Pow256 | src/Video.cc:90-155 | 256 to the power of the bytes per pixel is positive |
| Video.LittleBytes | src/Video.cc:140-149 | the low `n` bytes of a value, least significant first |
| Video.LittleValue | src/Video.cc:100-109 | bytes read least significant first give a value below 256 to the power of their count |
| Video.Reverse | src/Video.cc:100-149 | the byte order flipped: element k is element n-1-k |
| Video.Encode | src/Video.cc:123-155 | a pixel value written as `n` bytes in the machine's order |
| Video.Decode | src/Video.cc:90-113 | bytes read in the machine's order give a value below 256 to the power of their count |
| Video.LittleRoundTrip | src/Video.cc:100-149 | writing a value's low bytes and reading them back gives the value modulo 256^n |
| Video.LittleBytesOfValue | src/Video.cc:100-149 | reading bytes and writing the value back gives the same bytes |
| Video.ReverseTwice | src/Video.cc:100-149 | flipping the byte order twice gives the bytes back |
| Video.DecodeEncode | src/Video.cc:90-155 | in either byte order, encoding then decoding `n` bytes keeps the value modulo 256^n |
| Video.EncodeDecode | src/Video.cc:90-155 | in either byte order, decoding then encoding gives the same bytes |
| Video.ThreeBytePacking | src/Video.cc:140-149 | the three bytes of a 24-bit pixel are the high, middle and low byte in big-endian order and the reverse in little-endian order |
| Video.GetPixel | src/Video.cc:90-113 | a pixel outside the surface reads as 0; any pixel read is below 256 to the power of the bytes per pixel |
| Video.PutPixel | src/Video.cc:123-155 | writing keeps the surface's size and format, and a write outside the surface changes nothing |
| Video.PutThenGet | src/Video.cc:90-155 | a pixel written inside the surface reads back as the value truncated to the pixel width, and every other pixel reads as before |
| Video.ThreeByteRoundTrip | src/Video.cc:105-149 | on a 24-bit surface a pixel reads back as its low 24 bits, in either byte order |
| Video.Mirror | src/Video.cc:342-441 | a mirrored coordinate stays inside the surface |
| Video.MirrorTwice | src/Video.cc:342-441 | mirroring a coordinate twice gives it back |
| Video.Flip | src/Video.cc:342-441 | a flipped surface has the size and format of the original |
| Video.FlipReads | src/Video.cc:342-441 | each pixel of a flipped surface reads as the mirrored pixel of the original |
| Video.FlippedRow | src/Video.cc:342-441 | row `y` of the flipped surface holds the original's mirrored pixels, encoded in the machine's order |
| Video.FlipInvolution | src/Video.cc:342-441 | flipping a surface the same way twice gives it back, and a flip along no axis is the identity |
| Video.LoadImage | src/Video.cc:158-188 | the empty name fails; a loaded name returns its index unchanged; a new name is appended when either picture loads; -1 leaves the registry alone; a returned index is the first entry with that name |
| Video.LoadImageTwice | src/Video.cc:158-188 | loading an image a second time changes nothing and returns the same index |
| Video.AddSurface | src/Video.cc:218-243 | a surface that could not be created gives -1 and no change; otherwise the converted surface is appended at the old size |
| Video.SurfaceAt | src/Video.cc:209-216 | a surface is found only at an index in range whose entry holds one |
| Video.CopySurface | src/Video.cc:209-243 | copying appends the converted source under the new name; a missing source or a failed creation gives -1 and no change |
| Video.ScaleSurface | src/Video.cc:246-298 | a missing source, a non-positive size or a failed creation gives -1 and no change; otherwise one entry with the new name is appended and nothing else changes |
| Video.ScaleInPlace | src/Video.cc:301-321 | in-place scaling keeps the registry's size and changes at most the handle at `index`, returning `index`, or -1 and no change |
| Video.FlipSurface | src/Video.cc:333-441 | the flip functions append the mirrored copy under the new name; a missing source or a failed creation gives -1 and no change |
| Video.RenameSurface | src/Video.cc:324-330 | renaming changes only the name at an index in range |
| Video.At | src/Video.cc:499-517 | a loaded entry is returned unchanged; an unloaded one is reloaded in place; an index out of range gives nothing; only that entry's handle can change |
| Video.UnloadSurface | src/Video.cc:520-533 | unloading frees the surface and keeps the entry, except for names containing "noimage" and indexes out of range |
| Video.UnloadSurfaceNamed | src/Video.cc:536-542 | unloading by name unloads the first entry with that name; an unknown name does nothing |
| Video.UnloadSurfaces | src/Video.cc:545-553 | every surface is freed and every entry keeps its name and index |
| Video.UnloadThenAt | src/Video.cc:499-533 | an unloaded image comes back in the same entry on the next `at` |
| Video.GetPixelAt | src/Video.cc:83-88 | reading through an index gives 0 when there is no surface, and the surface's pixel otherwise |
| Video.PutPixelAt | src/Video.cc:116-121 | writing through an index changes only that entry's surface, and nothing when there is none |

## Left out

- Floating point: the program's `float` positions, velocities and timings are exact `real`s here. Rounding is not modelled, but every `(int)` cast is (`CArith.Trunc`).
- CommandLine.Atoi: reads any run of digits as an unbounded number, because the overflow of `atoi` is undefined behaviour in C.
- Menus.CentredX: computes the menu item's centring in reals, so float rounding of the x position is not modelled.
- Session.CanStart: requires positive block sizes, which is stronger than the source. The source divides by them without checking.
- WorldLoader.LoadCollisionMap: a file shorter than its two header bytes is an error here. The program would read the failed `get`s' unchanged characters.
- Editor.VerifyCollisionMap: a file shorter than two bytes is a failure here. The program would go on with an uninitialised buffer.
- A map file that cannot be opened is not modelled. The map bytes are a parameter.
- WorldLoader.LoadLevel: `load_texture_map` is a single flag saying whether it succeeds. Its image loading, its end-of-file and row-end checks on the texture map file, and the `surface_index` it writes into each block are not modelled, so a level's blocks always have `surface_index` -1.
- Physics.Move: a block read past the end of `m_blocks` is undefined behaviour in C++. There the model reads the missing cell as empty, as the checked lookup does.
- `load_media`, `load_sprites` and `load_background` only ask SDL for files and are not modelled.
- Rendering is not modelled:
  - `render_surface`, `blit_rect`, `Entity::render`, `render_entities`, `render_hud` and the menus' drawing;
  - `create_window`, `clear_window`, `flip`, `show_cursor`, `hide_cursor` and `screenshot`.
  All of it is SDL output.
- `game_init`, `game_shutdown` and the `game_run` loop are not modelled: they are SDL set-up, tear-down and the real-time frame loop. One pass of the loop is modelled (`Game.EventLoop` and `Game.HandleState`).
- The signal handlers, `print_usage` and every `print_*` and `operator<<` dump are not modelled. They write to streams.
- The `Callstack` dump is not modelled either.
- `TrigLookup` is not modelled: its tables are floating-point sine and cosine values that nothing in the core reads.
- The sizes of sprite images (`Video::at(i)->w` and `->h`) are not modelled: they come from an arbitrary total function.
- The entity scale factors are not modelled. They only affect drawing.
- `old_position` is never read by the program and is not modelled.
- `normalize`, `unit`, `length` and `distance` of `Vector.h` are not modelled: they take square roots of floats.
- Vectors: these `Vector.h` operations are not modelled, because nothing in the program calls them: unary and binary `operator-`, `-=`, `dot` as `operator*` of two vectors, `cross`, `==`, `!=`, `length_squared`, and the `z` forms of `set_`, `add_` and `clear_`, and the `snap_x`, `snap_y` and `snap_z` members.
- Font.RenderText: does not model the 16-bit fields of `SDL_Rect`, nor SDL's clipping of each blit.
- Video.GetPixel: does not model the `default` branch for an impossible pixel width, nor the padding at the end of a row. Surfaces have one to four bytes a pixel.
- `swap_color` and `set_color_key` are not modelled: they go through SDL's pixel-format mapping.
- Video.AddSurface: the `SDL_DisplayFormat` conversion is a parameter.
- Video.ScaleSurface: does not compute the float resampling of `scale_surface`. The resampled picture is a parameter.
- Video.At: does not return a null pointer. An index out of range gives `None`.
- Callstack.Push: does not model `size_t` overflow of the stack depth.
- `Audio::start`, `stop`, `stop_music`, `initialize` and `shutdown` only call SDL_mixer and are not modelled.
- Timer.ElapsedSec: gives the exact quotient, not the float division of `elapsed_sec`.
- `GETBIT`'s trailing semicolon is not modelled. Every use in the program is a statement on its own.

## Findings

| source | as written | input that shows it | evidently intended | confidence | as-written member | corrected member |
|---|---|---|---|---|---|---|
| src/World.cc:256-299 | the block reads index `m_blocks` with no bounds check, and FellOffWorld is only decided after them | a box whose top is at or below the bottom pixel row of the grid, at a column inside it, reads rows past the end of `m_blocks` before FellOffWorld can be reported | a box below the world is reported as fallen off without reading outside the grid | high, not executed | World.FallReadsOutsideBlocks, World.FallNeedsReadOutsideGrid | World.CheckedReportsFall |
| src/World.cc:343-363 | a failed `get` leaves the previous character in `c`, and the loop goes on with it | the 3-byte file `1 1 '\n'` with a viewport of one block loads a one-cell map, reading the header's newline as a collidable cell and then as the row's end | a file that ends before its rows is rejected | high, not executed | WorldLoader.StaleCharAcceptsMissingRow | WorldLoader.StrictLoadReadsWholeFile |
| src/game.cc:359-368 | a key-up in a menu does not clear the key from `keystate` | Escape pressed on the options screen and released on the next frame: the first frame climbs to the title, the second sees Escape still held and quits | one press of Escape climbs one menu level | medium, not executed | Game.EscapeFromOptionsQuits, Game.EscapeStaysPressed | Game.EscapeClimbsOneLevel, Game.KeyUpReleases |
| include/utilities.h:88 | `SETBIT_L` is written with `!=`, so it compares instead of setting | from 0, setting bit 0 leaves bit 0 clear | `SETBIT_L` ORs bit `i` into `b`, as `SETBIT` does for `int` | high, not executed | Utilities.SetBitLongLeavesBitClear | Utilities.SetBitLongSets |
| src/Font.cc:69-93 | the glyph index is a plain `char`, signed on most targets | byte 0xE9 is the code -23, which selects cell (-7, -2), above and to the left of the atlas | bytes from 128 up index the atlas as unsigned | low, not executed | Font.HighByteCellOutsideAtlas | Font.UnsignedCellInsideAtlas |

=== FILE: animation.dfy ===
/** The four-state pose machine and running-animation cycle shared, line for
    line, by Skratch and BlueCollarSuit. */
module Animation {
  import opened Options

  /** `SkratchState` / `BlueCollarSuitState`, with ids 0..3 in this order. */
  datatype Pose = IdleRight | IdleLeft | RunningRight | RunningLeft

  function PoseId(p: Pose): (id: int)
    ensures 0 <= id < 4
  {
    match p
    case IdleRight => 0
    case IdleLeft => 1
    case RunningRight => 2
    case RunningLeft => 3
  }

  /** The pose with a given id; ids outside the enumeration have none. */
  function PoseFromId(id: int): (p: Option<Pose>)
    ensures p.Some? <==> 0 <= id < 4
    ensures p.Some? ==> PoseId(p.value) == id
  {
    if id == 0 then Some(IdleRight)
    else if id == 1 then Some(IdleLeft)
    else if id == 2 then Some(RunningRight)
    else if id == 3 then Some(RunningLeft)
    else None
  }

  lemma {:induction false} PoseIdRoundTrip(p: Pose)
    ensures PoseFromId(PoseId(p)) == Some(p)
  {
  }

  // Indexes into the six-entry sprite table.
  const IdleLeftAnimation: nat := 0
  const IdleRightAnimation: nat := 1
  const Run1LeftAnimation: nat := 2
  const Run2LeftAnimation: nat := 3
  const Run1RightAnimation: nat := 4
  const Run2RightAnimation: nat := 5
  const AnimationCount: nat := 6

  /** `m_sprite_indexes[AnimationCount]`: one sprite index per animation
      frame; the constructors fill it with -1. */
  type SpriteTable = s: seq<int> | |s| == AnimationCount witness [-1, -1, -1, -1, -1, -1]

  const NoSprites: SpriteTable := [-1, -1, -1, -1, -1, -1]

  predicate IsRunning(p: Pose) {
    p == RunningRight || p == RunningLeft
  }

  predicate FacesRight(p: Pose) {
    p == IdleRight || p == RunningRight
  }

  /** The sprite `set_state` shows for a pose: the idle frame, or the first
      running frame, facing the pose's way. */
  function FirstFrame(p: Pose): (i: nat)
    ensures i < AnimationCount
  {
    match p
    case IdleLeft => IdleLeftAnimation
    case IdleRight => IdleRightAnimation
    case RunningLeft => Run1LeftAnimation
    case RunningRight => Run1RightAnimation
  }

  /** The current pose, the sprite shown and the seconds into the animation. */
  datatype Frame = Frame(pose: Pose, sprite: int, seconds: real)

  /** `set_state(state)`: an id outside the four poses changes nothing;
      otherwise the sprite becomes the pose's first frame, and the animation
      clock restarts exactly when the pose changes. */
  function SetState(f: Frame, sprites: SpriteTable, state: int): (r: Frame)
    ensures PoseFromId(state).None? ==> r == f
    ensures PoseFromId(state).Some? ==>
      && PoseId(r.pose) == state
      && r.sprite == sprites[FirstFrame(r.pose)]
      && (r.pose != f.pose ==> r.seconds == 0.0)
      && (r.pose == f.pose ==> r.seconds == f.seconds)
  {
    match PoseFromId(state)
    case None => f
    case Some(p) =>
      var seconds := if PoseId(p) != PoseId(f.pose) then 0.0 else f.seconds;
      Frame(p, sprites[FirstFrame(p)], seconds)
  }

  /** Setting the pose that is already current keeps the animation clock,
      so repeating a `set_state` is the same as doing it once. */
  lemma {:induction false} SetStateIdempotent(f: Frame, sprites: SpriteTable, state: int)
    ensures SetState(SetState(f, sprites, state), sprites, state) == SetState(f, sprites, state)
  {
    match PoseFromId(state)
    case None =>
    case Some(p) =>
      assert SetState(f, sprites, state).pose == p;
  }

  /** The reference cycle of a running pose: the quarter second `t` falls
      in picks run frame 1, idle, run frame 2, idle; from one second on (or
      before zero) there is no frame. */
  function RunCycleFrame(p: Pose, t: real): Option<nat>
    requires IsRunning(p)
  {
    if t < 0.0 || 1.0 <= t then None
    else
      var quarter := (t * 4.0).Floor;
      var right := p == RunningRight;
      if quarter == 0 then Some(if right then Run1RightAnimation else Run1LeftAnimation)
      else if quarter == 2 then Some(if right then Run2RightAnimation else Run2LeftAnimation)
      else Some(if right then IdleRightAnimation else IdleLeftAnimation)
  }

  /** The per-frame animation step of `on_animate`: the clock advances by
      `dt`; in a running pose the sprite follows the reference cycle, and at
      the end of the cycle the clock restarts while the sprite stays; an idle
      pose leaves the sprite alone. */
  function Advance(f: Frame, sprites: SpriteTable, dt: real): (r: Frame)
    ensures r.pose == f.pose
    ensures !IsRunning(f.pose) ==> r == f.(seconds := f.seconds + dt)
    ensures IsRunning(f.pose) ==>
      match RunCycleFrame(f.pose, f.seconds + dt)
      case Some(i) => i < AnimationCount && r == f.(sprite := sprites[i], seconds := f.seconds + dt)
      case None => r == f.(seconds := 0.0)
  {
    var t := f.seconds + dt;
    var g := f.(seconds := t);
    match f.pose
    case RunningLeft =>
      if t >= 0.0 && t < 0.25 then g.(sprite := sprites[Run1LeftAnimation])
      else if t >= 0.25 && t < 0.5 then g.(sprite := sprites[IdleLeftAnimation])
      else if t >= 0.5 && t < 0.75 then g.(sprite := sprites[Run2LeftAnimation])
      else if t >= 0.75 && t < 1.0 then g.(sprite := sprites[IdleLeftAnimation])
      else g.(seconds := 0.0)
    case RunningRight =>
      if t >= 0.0 && t < 0.25 then g.(sprite := sprites[Run1RightAnimation])
      else if t >= 0.25 && t < 0.5 then g.(sprite := sprites[IdleRightAnimation])
      else if t >= 0.5 && t < 0.75 then g.(sprite := sprites[Run2RightAnimation])
      else if t >= 0.75 && t < 1.0 then g.(sprite := sprites[IdleRightAnimation])
      else g.(seconds := 0.0)
    case _ => g
  }
}

=== FILE: assets.dfy ===
/** The name-keyed registries behind `Video` and `Audio`: vectors of
    entries, each with a name, a handle that may be null and the index the
    entry was given when it was appended. */
module Assets {
  import opened Options

  /** One entry: the handle is `None` where the program holds a null pointer. */
  datatype Entry<H> = Entry(name: string, handle: Option<H>, index: int)

  type Registry<H> = seq<Entry<H>>

  /** Every entry's stored index is its position in the vector. */
  predicate Indexed<H>(reg: Registry<H>) {
    forall k :: 0 <= k < |reg| ==> reg[k].index == k
  }

  /** `std::find` by name: the first entry with that name. */
  function Find<H>(reg: Registry<H>, name: string): (r: Option<nat>)
    ensures r.None? <==> forall k :: 0 <= k < |reg| ==> reg[k].name != name
    ensures r.Some? ==> r.value < |reg| && reg[r.value].name == name
    ensures r.Some? ==> forall k :: 0 <= k < r.value ==> reg[k].name != name
  {
    FindFrom(reg, name, 0)
  }

  function FindFrom<H>(reg: Registry<H>, name: string, i: nat): (r: Option<nat>)
    requires i <= |reg|
    ensures r.None? <==> forall k :: i <= k < |reg| ==> reg[k].name != name
    ensures r.Some? ==> i <= r.value < |reg| && reg[r.value].name == name
    ensures r.Some? ==> forall k :: i <= k < r.value ==> reg[k].name != name
    decreases |reg| - i
  {
    if i == |reg| then None
    else if reg[i].name == name then Some(i)
    else FindFrom(reg, name, i + 1)
  }

  /** The entry at `k` with a new handle; its name, its index and every
      other entry stay. */
  function SetHandle<H>(reg: Registry<H>, k: nat, handle: Option<H>): (r: Registry<H>)
    requires k < |reg|
    ensures |r| == |reg| && r[k] == Entry(reg[k].name, handle, reg[k].index)
    ensures forall j :: 0 <= j < |reg| && j != k ==> r[j] == reg[j]
  {
    reg[k := reg[k].(handle := handle)]
  }

  /** A new entry for `name` at the end, indexed by the old size. */
  function Append<H>(reg: Registry<H>, name: string, handle: Option<H>): (r: Registry<H>)
    ensures |r| == |reg| + 1 && r[..|reg|] == reg && r[|reg|] == Entry(name, handle, |reg|)
    ensures Indexed(reg) ==> Indexed(r)
  {
    reg + [Entry(name, handle, |reg|)]
  }

  /** `push_back`: a name already present gets the new handle and keeps
      its index; a new name is appended, indexed by the old size. */
  function PushBack<H>(reg: Registry<H>, handle: Option<H>, name: string): (r: (Registry<H>, int))
    requires Indexed(reg)
    ensures Indexed(r.0)
    ensures Find(reg, name).Some? ==> |r.0| == |reg| && r.1 == Find(reg, name).value
    ensures Find(reg, name).None? ==> r.0 == Append(reg, name, handle) && r.1 == |reg|
    ensures 0 <= r.1 < |r.0| && r.0[r.1] == Entry(name, handle, r.1)
    ensures forall k :: 0 <= k < |reg| && k != r.1 ==> r.0[k] == reg[k]
  {
    match Find(reg, name)
    case Some(k) => (SetHandle(reg, k, handle), reg[k].index)
    case None => (Append(reg, name, handle), |reg|)
  }

  /** After a `push_back`, looking the name up finds the entry it returned,
      holding the handle it was given. */
  lemma {:induction false} PushBackThenFind<H>(reg: Registry<H>, handle: Option<H>, name: string)
    requires Indexed(reg)
    ensures var (r, i) := PushBack(reg, handle, name);
      Find(r, name) == Some(i) && r[i].handle == handle
  {
    var (r, i) := PushBack(reg, handle, name);
    match Find(reg, name)
    case Some(k) =>
      assert forall j :: 0 <= j < k ==> r[j] == reg[j];
    case None =>
      assert forall j :: 0 <= j < |reg| ==> r[j] == reg[j];
  }
}

=== FILE: audio.dfy ===
/** The sound and music registries of `Audio.cc`. Chunks and music are
    opaque handles; whether a file loads is a parameter, and what the mixer
    answers about a chunk's volume is one too. */
module Audio {
  import opened Options
  import opened Assets

  /** A loaded `Mix_Chunk`. */
  datatype Chunk = Chunk(id: int)

  /** A loaded `Mix_Music`. */
  datatype Music = Music(id: int)

  /** Both registries, as the class keeps them. */
  datatype Mixer = Mixer(sounds: Registry<Chunk>, music: Registry<Music>)

  /** `load_sound` and `load_music` (the same code for either registry):
      a name with a handle gives its index; a name without one is loaded
      again in place and gives its index, or -1 if that fails; a new name
      is appended if it loads, and otherwise -1 leaves the registry alone.
      `loaded` is what `Mix_LoadWAV` or `Mix_LoadMUS` returns. */
  function Load<H>(reg: Registry<H>, filename: string, loaded: Option<H>): (r: (Registry<H>, int))
    requires Indexed(reg)
    ensures Indexed(r.0) && -1 <= r.1 < |r.0|
    ensures r.1 >= 0 ==> r.0[r.1].name == filename && r.0[r.1].handle.Some?
    ensures Find(reg, filename).Some? ==> |r.0| == |reg|
    ensures Find(reg, filename).Some? && reg[Find(reg, filename).value].handle.Some? ==>
      r == (reg, Find(reg, filename).value)
    ensures Find(reg, filename).Some? && reg[Find(reg, filename).value].handle.None? ==>
      r.0 == SetHandle(reg, Find(reg, filename).value, loaded)
    ensures Find(reg, filename).None? && loaded.None? ==> r == (reg, -1)
    ensures Find(reg, filename).None? && loaded.Some? ==> r == (Append(reg, filename, loaded), |reg|)
  {
    match Find(reg, filename)
    case Some(k) =>
      if reg[k].handle.Some? then (reg, reg[k].index)
      else
        var retried := SetHandle(reg, k, loaded);
        (retried, if loaded.Some? then reg[k].index else -1)
    case None =>
      if loaded.None? then (reg, -1) else (Append(reg, filename, loaded), |reg|)
  }

  /** A successful load makes the name findable at the index returned. */
  lemma {:induction false} LoadThenFind<H>(reg: Registry<H>, filename: string, loaded: Option<H>)
    requires Indexed(reg)
    requires Load(reg, filename, loaded).1 >= 0
    ensures var (r, i) := Load(reg, filename, loaded); Find(r, filename) == Some(i)
  {
    var (r, i) := Load(reg, filename, loaded);
    match Find(reg, filename)
    case Some(k) =>
      assert forall j :: 0 <= j < k ==> r[j] == reg[j];
    case None =>
      assert forall j :: 0 <= j < |reg| ==> r[j] == reg[j];
  }

  /** Loading a name that already has a handle changes nothing, whatever
      the file would give now. */
  lemma {:induction false} LoadTwice<H>(reg: Registry<H>, filename: string, loaded: Option<H>, again: Option<H>)
    requires Indexed(reg)
    requires Load(reg, filename, loaded).1 >= 0
    ensures var (r, i) := Load(reg, filename, loaded); Load(r, filename, again) == (r, i)
  {
    LoadThenFind(reg, filename, loaded);
  }

  /** `unload_sound(index)` and `unload_music(index)`: an index out of range
      does nothing; otherwise the entry stays, with a null handle. */
  function Unload<H>(reg: Registry<H>, index: int): (r: Registry<H>)
    requires Indexed(reg)
    ensures Indexed(r) && |r| == |reg|
    ensures !(0 <= index < |reg|) ==> r == reg
    ensures 0 <= index < |reg| ==> r == SetHandle(reg, index, None)
  {
    if 0 <= index < |reg| then SetHandle(reg, index, None) else reg
  }

  /** `unload_sound(name)` and `unload_music(name)`: the first entry with
      that name keeps its place with a null handle. */
  function UnloadNamed<H>(reg: Registry<H>, name: string): (r: Registry<H>)
    requires Indexed(reg)
    ensures Indexed(r) && |r| == |reg|
    ensures Find(reg, name).None? ==> r == reg
    ensures Find(reg, name).Some? ==> r == SetHandle(reg, Find(reg, name).value, None)
  {
    match Find(reg, name)
    case None => reg
    case Some(k) => SetHandle(reg, k, None)
  }

  /** `unload_sounds`, `unload_music()` and `unload_all`: every handle is
      freed and the registries are cleared, so later indexes start at 0. */
  function UnloadAll(m: Mixer): (r: Mixer)
    ensures r.sounds == [] && r.music == []
  {
    Mixer([], [])
  }

  /** After the registries are cleared, the next load of a new name is
      given index 0. */
  lemma {:induction false} ReloadAfterUnloadAll(m: Mixer, filename: string, c: Chunk)
    ensures Load(UnloadAll(m).sounds, filename, Some(c)) == ([Entry(filename, Some(c), 0)], 0)
  {
  }

  /** `play_sound(index)` and `play_music(index)`: the handle given to the
      mixer, which may be null; nothing for an index out of range. */
  function Play<H>(reg: Registry<H>, index: int): (played: Option<Option<H>>)
    ensures played.None? <==> !(0 <= index < |reg|)
    ensures played.Some? ==> played.value == reg[index].handle
  {
    if 0 <= index < |reg| then Some(reg[index].handle) else None
  }

  /** `play_sound(name)` and `play_music(name)`: a known name plays its
      entry; an unknown one is loaded first and played if that worked. */
  function PlayNamed<H>(reg: Registry<H>, name: string, loaded: Option<H>): (r: (Registry<H>, Option<Option<H>>))
    requires Indexed(reg)
    ensures Indexed(r.0)
    ensures Find(reg, name).Some? ==> r == (reg, Some(reg[Find(reg, name).value].handle))
    ensures Find(reg, name).None? && loaded.None? ==> r == (reg, None)
    ensures Find(reg, name).None? && loaded.Some? ==> r.1 == Some(loaded) && r.0 == Append(reg, name, loaded)
  {
    match Find(reg, name)
    case Some(k) => (reg, Play(reg, reg[k].index))
    case None =>
      var (loadedReg, index) := Load(reg, name, loaded);
      (loadedReg, Play(loadedReg, index))
  }

  /** `set_sound_volume` and `get_sound_volume`: -1 for an index out of
      range; otherwise what the mixer answers for the entry's chunk. */
  function SoundVolume(reg: Registry<Chunk>, index: int, answer: int): (v: int)
    ensures !(0 <= index < |reg|) ==> v == -1
    ensures 0 <= index < |reg| ==> v == answer
  {
    if 0 <= index < |reg| then answer else -1
  }
}

=== FILE: blaster.dfy ===
/** The blaster item (`Blaster`) and its projectile (`Blaster::BlasterShot`):
    the cool-down, shooting, and the shot's self-removal rules. */
module Blaster {
  import opened CArith
  import opened Vectors
  import opened Options
  import opened World
  import opened Entities
  import opened Animation

  /** Seconds a blaster must cool down between two shots. */
  const CoolTime: real := 0.5
  /** Horizontal speed of a shot. */
  const ShotSpeed: real := 650.0

  /** `Blaster(add)`: cool-down zero, no sound loaded yet, registered iff `add`. */
  function NewBlaster(reg: Registry, address: int, add: bool): (r: Registry)
    ensures add ==>
      && |r| == |reg| + 1 && r[..|reg|] == reg
      && r[|reg|].kind == BlasterKind(BlasterGun(0.0, -1)) && !r[|reg|].removable
    ensures !add ==> r == reg
  {
    Register(reg, NewEntity(address, BlasterKind(BlasterGun(0.0, -1))), add)
  }

  /** The blaster is ready once its cool-down is no longer positive. */
  predicate Ready(g: BlasterGun) {
    g.coolTime <= 0.0
  }

  /** `lower_cool_time(dt)`: counts down only while the cool-down is positive. */
  function LowerCoolTime(g: BlasterGun, dt: real): (r: BlasterGun)
    ensures r.shootSound == g.shootSound
    ensures Ready(g) ==> r == g
    ensures !Ready(g) ==> r.coolTime + dt == g.coolTime
  {
    if g.coolTime > 0.0 then g.(coolTime := g.coolTime - dt) else g
  }

  /** Lowering by at least the remaining cool-down makes the blaster ready,
      and once ready it stays ready whatever is subtracted. */
  lemma {:induction false} CoolDownReaches(g: BlasterGun, dt: real)
    requires g.coolTime <= dt
    ensures Ready(LowerCoolTime(g, dt))
    ensures Ready(g) ==> Ready(LowerCoolTime(g, dt)) && LowerCoolTime(LowerCoolTime(g, dt), dt) == LowerCoolTime(g, dt)
  {
  }

  /** `BlasterShot(skratch, world)`: a massless shot at the shooter's snapped
      position one block lower, moved one block forward and flying right
      when the shooter faces right, flying left otherwise. */
  function NewShot(address: int, shooterPosition: Vector, facing: Pose, w: World, sprite: int): (e: Entity)
    ensures e.kind == ShotKind && e.mass == 0.0 && !e.removable && e.acceleration == Zero
    ensures e.sprite == sprite && e.address == address
    ensures e.position.y == Snap(shooterPosition).y + w.blockHeight as real
    ensures e.position.z == Snap(shooterPosition).z
    ensures FacesRight(facing) ==>
      e.position.x == Snap(shooterPosition).x + w.blockWidth as real && e.velocity == Vector(ShotSpeed, 0.0, 0.0)
    ensures !FacesRight(facing) ==>
      e.position.x == Snap(shooterPosition).x && e.velocity == Vector(-ShotSpeed, 0.0, 0.0)
  {
    var base := NewEntity(address, ShotKind);
    var at := AddY(Snap(shooterPosition), w.blockHeight as real);
    if FacesRight(facing) then
      base.(position := AddX(at, w.blockWidth as real), velocity := Vector(ShotSpeed, 0.0, 0.0), sprite := sprite)
    else
      base.(position := at, velocity := Vector(-ShotSpeed, 0.0, 0.0), sprite := sprite)
  }

  /** A shot flies away from the shooter, on the side the shooter faces. */
  lemma {:induction false} ShotLeavesForward(address: int, shooterPosition: Vector, facing: Pose, w: World, sprite: int)
    requires HasBlockSize(w)
    ensures var e := NewShot(address, shooterPosition, facing, w, sprite);
      && (FacesRight(facing) ==> 0.0 < e.velocity.x && Snap(shooterPosition).x < e.position.x)
      && (!FacesRight(facing) ==> e.velocity.x < 0.0 && e.position.x == Snap(shooterPosition).x)
      && e.velocity.y == 0.0 && e.position.y > Snap(shooterPosition).y
  {
  }

  /** What `shoot` leaves: the blaster and the registry. */
  datatype Shot = Shot(gun: BlasterGun, registry: Registry)

  /** `shoot`: a blaster still cooling does nothing; a ready one registers
      exactly one new shot (with the sprite its media load returns) and
      starts a fresh cool-down. */
  function Shoot(g: BlasterGun, reg: Registry, shooterPosition: Vector, facing: Pose, w: World,
                 address: int, shotSprite: int): (r: Shot)
    ensures !Ready(g) ==> r == Shot(g, reg)
    ensures Ready(g) ==>
      && r.gun == g.(coolTime := CoolTime)
      && |r.registry| == |reg| + 1 && r.registry[..|reg|] == reg
      && Back(r.registry) == Some(NewShot(address, shooterPosition, facing, w, shotSprite))
  {
    if g.coolTime > 0.0 then Shot(g, reg)
    else Shot(g.(coolTime := CoolTime), PushBack(reg, NewShot(address, shooterPosition, facing, w, shotSprite)))
  }

  /** Two shots in a row without cooling down register only one shot. */
  lemma {:induction false} ShootTwiceFiresOnce(g: BlasterGun, reg: Registry, shooterPosition: Vector, facing: Pose,
                                               w: World, a1: int, a2: int, shotSprite: int)
    ensures var first := Shoot(g, reg, shooterPosition, facing, w, a1, shotSprite);
      var second := Shoot(first.gun, first.registry, shooterPosition, facing, w, a2, shotSprite);
      && second == first
      && |second.registry| <= |reg| + 1
  {
  }

  /** `BlasterShot::think`: a shot whose snapped x lies left of the camera or
      more than a window width right of it is marked removable. */
  function ShotThink(e: Entity, cameraX: int, windowWidth: int): (r: Entity)
    ensures r.(removable := e.removable) == e
    ensures r.removable <==>
      e.removable || Snap(e.position).x < cameraX as real || Snap(e.position).x > (cameraX + windowWidth) as real
  {
    var x := Snap(e.position).x;
    if x < cameraX as real || x > (cameraX + windowWidth) as real then SetRemovable(e) else e
  }

  /** `BlasterShot::on_animate`: a shot that hit anything, or left the
      world's top or left edge, is marked removable. */
  function ShotOnAnimate(e: Entity, flags: Flags): (r: Entity)
    ensures r.(removable := e.removable) == e
    ensures r.removable <==> e.removable || flags != NoFlags || e.position.x < 0.0 || e.position.y < 0.0
  {
    if |flags| > 0 || e.position.x < 0.0 || e.position.y < 0.0 then SetRemovable(e) else e
  }

  /** A shot that hit a tile is gone after the next `cleanup`, while the
      other entries survive it as before. */
  lemma {:induction false} HitShotIsCleanedUp(before: Registry, e: Entity, after: Registry, flags: Flags)
    requires flags != NoFlags
    ensures ShotOnAnimate(e, flags) !in Cleanup(before + [ShotOnAnimate(e, flags)] + after)
    ensures Cleanup(before + [ShotOnAnimate(e, flags)] + after) == Cleanup(before) + Cleanup(after)
  {
    var s := ShotOnAnimate(e, flags);
    CleanupKeepsOrder(before + [s], after);
    CleanupKeepsOrder(before, [s]);
    assert [s][1..] == [];
    assert Cleanup([s]) == [];
  }
}

=== FILE: blue_collar_suit.dfy ===
/** The enemy (`BlueCollarSuit`): constructor, its empty `think`, the
    per-frame `on_animate` clamps and the reaction to a blaster shot. */
module BlueCollarSuit {
  import opened Vectors
  import opened World
  import opened Entities
  import opened Animation

  const Mass: real := 1.0
  const MaxHorizontalVelocity: real := 75.0
  const HorizontalAcceleration: real := 225.0

  predicate IsSuit(e: Entity) {
    e.kind.SuitKind?
  }

  /** `BlueCollarSuit()`: registered, mass 1, facing right at rest, every
      sprite index -1. */
  function NewSuit(reg: Registry, address: int): (r: Registry)
    ensures |r| == |reg| + 1 && r[..|reg|] == reg
    ensures var e := r[|reg|];
      && e.kind == SuitKind(IdleRight, NoSprites) && e.mass == Mass && !e.removable && e.sprite < 0
  {
    Register(reg, NewEntity(address, SuitKind(IdleRight, NoSprites)).(mass := Mass), true)
  }

  /** `think` does nothing. */
  function Think(e: Entity): (r: Entity)
    ensures r == e
  {
    e
  }

  /** `set_state(state)` on a suit. */
  function SetState(e: Entity, state: int): (r: Entity)
    requires IsSuit(e)
    ensures IsSuit(r) && FrameOf(r) == Animation.SetState(FrameOf(e), e.kind.sprites, state)
    ensures r.(kind := e.kind, sprite := e.sprite, animationSeconds := e.animationSeconds) == e
    ensures r.kind.sprites == e.kind.sprites
  {
    WithFrame(e, Animation.SetState(FrameOf(e), e.kind.sprites, state))
  }

  /** Pulls a coordinate back inside `[0, extent - size]`: first up to 0,
      then down so the far edge is at most `extent`. */
  function KeepInside(p: real, size: int, extent: int): (r: real)
    ensures r + size as real <= extent as real
    ensures size <= extent ==> 0.0 <= r
    ensures 0.0 <= p && p + size as real <= extent as real ==> r == p
  {
    var q := if p < 0.0 then 0.0 else p;
    if q + size as real > extent as real then (extent - size) as real else q
  }

  /** `BlueCollarSuit::on_animate`: the position is pulled back inside the
      world's pixel extent, the horizontal speed is limited to 75 either
      way, and the animation frame advances. */
  function OnAnimate(e: Entity, dt: real, w: World, sizes: SpriteSizes): (r: Entity)
    requires IsSuit(e)
    ensures IsSuit(r)
    ensures r.position == Vector(KeepInside(e.position.x, Width(e, sizes), PixelWidth(w)),
                                 KeepInside(e.position.y, Height(e, sizes), PixelHeight(w)),
                                 e.position.z)
    ensures -MaxHorizontalVelocity <= r.velocity.x <= MaxHorizontalVelocity
    ensures -MaxHorizontalVelocity <= e.velocity.x <= MaxHorizontalVelocity ==> r.velocity == e.velocity
    ensures r.velocity.y == e.velocity.y && r.velocity.z == e.velocity.z
    ensures r.acceleration == e.acceleration && r.mass == e.mass && r.removable == e.removable
    ensures FrameOf(r) == Advance(FrameOf(e), e.kind.sprites, dt)
  {
    var p := e.position;
    var p1 := if p.x < 0.0 then ClearX(p) else p;
    var p2 := if p1.x + Width(e, sizes) as real > PixelWidth(w) as real then SetX(p1, (PixelWidth(w) - Width(e, sizes)) as real) else p1;
    var p3 := if p2.y < 0.0 then ClearY(p2) else p2;
    var p4 := if p3.y + Height(e, sizes) as real > PixelHeight(w) as real then SetY(p3, (PixelHeight(w) - Height(e, sizes)) as real) else p3;
    var v := e.velocity;
    var v1 := if v.x > MaxHorizontalVelocity then SetX(v, MaxHorizontalVelocity)
              else if v.x < -MaxHorizontalVelocity then SetX(v, -MaxHorizontalVelocity)
              else v;
    var moved := e.(position := p4, velocity := v1);
    WithFrame(moved, Advance(FrameOf(moved), moved.kind.sprites, dt))
  }

  /** A suit no larger than the world ends every frame wholly inside it. */
  lemma {:induction false} SuitStaysInWorld(e: Entity, dt: real, w: World, sizes: SpriteSizes)
    requires IsSuit(e)
    requires Width(e, sizes) <= PixelWidth(w) && Height(e, sizes) <= PixelHeight(w)
    ensures var r := OnAnimate(e, dt, w, sizes);
      && 0.0 <= r.position.x && r.position.x + Width(e, sizes) as real <= PixelWidth(w) as real
      && 0.0 <= r.position.y && r.position.y + Height(e, sizes) as real <= PixelHeight(w) as real
  {
  }

  /** `BlueCollarSuit::on_collision`: a blaster shot and the suit destroy each
      other; nothing else has any effect. */
  function OnCollision(e: Entity, other: Entity): (r: Contact)
    ensures other.kind.ShotKind? ==> r == Contact(SetRemovable(e), SetRemovable(other))
    ensures !other.kind.ShotKind? ==> r == Contact(e, other)
  {
    if other.kind.ShotKind? then Contact(SetRemovable(e), SetRemovable(other)) else Contact(e, other)
  }
}

=== FILE: callstack.dfy ===
/** The debugging call stack of `Callstack.h`: `Stack`, a linked list of
    call records with a separate size counter, and `EnterFunction`, whose
    constructor pushes and whose destructor pops. */
module Callstack {

  /** One call: the function's name, the file and the line. */
  datatype Frame = Frame(name: string, file: string, line: int)

  /** The node chain, head first; `End` is the null pointer. */
  datatype Chain = End | Link(frame: Frame, next: Chain)

  /** `Stack`: the head of the chain and `m_size`. */
  datatype Stack = Stack(head: Chain, size: nat)

  function Length(c: Chain): (n: nat)
    ensures n == 0 <==> c == End
  {
    match c
    case End => 0
    case Link(_, next) => 1 + Length(next)
  }

  /** The frames of a chain, the most recent first. */
  function Frames(c: Chain): (fs: seq<Frame>)
    ensures |fs| == Length(c)
    ensures c.Link? ==> fs[0] == c.frame && fs[1..] == Frames(c.next)
  {
    match c
    case End => []
    case Link(f, next) => [f] + Frames(next)
  }

  /** The class invariant: the counter is the chain's length. */
  predicate Valid(s: Stack) {
    s.size == Length(s.head)
  }

  /** `Stack()`: no node and a size of 0. */
  function EmptyStack(): (s: Stack)
    ensures s.size == 0 && Valid(s) && Frames(s.head) == []
  {
    Stack(End, 0)
  }

  /** `push`: a new head node in front of the old chain; the size grows by one. */
  function Push(s: Stack, f: Frame): (r: Stack)
    ensures r.size == s.size + 1
    ensures r.head.Link? && r.head.frame == f && r.head.next == s.head
    ensures Valid(s) ==> Valid(r)
    ensures Frames(r.head) == [f] + Frames(s.head)
  {
    Stack(Link(f, s.head), s.size + 1)
  }

  /** `pop`: nothing on an empty stack; otherwise the head node goes and the
      size shrinks by one. */
  function Pop(s: Stack): (r: Stack)
    requires Valid(s)
    ensures Valid(r)
    ensures s.size == 0 ==> r == s
    ensures s.size > 0 ==> r.size == s.size - 1 && Frames(r.head) == Frames(s.head)[1..]
  {
    if s.size == 0 then s else Stack(s.head.next, s.size - 1)
  }

  /** Last in, first out: a pop undoes the push before it. */
  lemma {:induction false} PopUndoesPush(s: Stack, f: Frame)
    requires Valid(s)
    ensures Pop(Push(s, f)) == s
  {
  }

  /** `~Stack`: pop while the size is positive, which frees every node. */
  method Destroy(s: Stack) returns (r: Stack)
    requires Valid(s)
    ensures r == EmptyStack()
  {
    r := s;
    while r.size > 0
      invariant Valid(r)
      decreases r.size
    {
      r := Pop(r);
    }
  }

  /** The call tracer: the shared stack and the count of calls so far. */
  datatype Tracer = Tracer(stack: Stack, calls: int)

  /** `EnterFunction`'s constructor: push the call and count it. */
  function Enter(t: Tracer, f: Frame): (r: Tracer)
    ensures r.calls == t.calls + 1 && r.stack == Push(t.stack, f)
  {
    Tracer(Push(t.stack, f), t.calls + 1)
  }

  /** `EnterFunction`'s destructor: pop; the count stays. */
  function Leave(t: Tracer): (r: Tracer)
    requires Valid(t.stack)
    ensures r.calls == t.calls && r.stack == Pop(t.stack)
  {
    Tracer(Pop(t.stack), t.calls)
  }

  /** A traced function's activation: its own frame and the traced calls it
      makes, in order. */
  datatype Call = Call(frame: Frame, inner: seq<Call>)

  /** The number of traced calls an activation makes, itself included. */
  function CallCount(c: Call): (n: nat)
    ensures n >= 1
    decreases c
  {
    1 + CallsCount(c.inner)
  }

  function CallsCount(cs: seq<Call>): nat
    decreases cs
  {
    if |cs| == 0 then 0 else CallCount(cs[0]) + CallsCount(cs[1..])
  }

  /** Running an activation: the constructor on entry, the inner calls, and
      the destructor when the scope ends. */
  function Run(t: Tracer, c: Call): (r: Tracer)
    requires Valid(t.stack)
    ensures Valid(r.stack)
    decreases c
  {
    Leave(RunAll(Enter(t, c.frame), c.inner))
  }

  function RunAll(t: Tracer, cs: seq<Call>): (r: Tracer)
    requires Valid(t.stack)
    ensures Valid(r.stack)
    decreases cs
  {
    if |cs| == 0 then t else RunAll(Run(t, cs[0]), cs[1..])
  }

  /** Balanced scopes leave the stack as they found it and count every call
      made inside them. */
  lemma {:induction false} ScopesBalance(t: Tracer, c: Call)
    requires Valid(t.stack)
    ensures Run(t, c).stack == t.stack
    ensures Run(t, c).calls == t.calls + CallCount(c)
    decreases c
  {
    var entered := Enter(t, c.frame);
    ScopesBalanceAll(entered, c.inner);
    PopUndoesPush(t.stack, c.frame);
  }

  lemma {:induction false} ScopesBalanceAll(t: Tracer, cs: seq<Call>)
    requires Valid(t.stack)
    ensures RunAll(t, cs).stack == t.stack
    ensures RunAll(t, cs).calls == t.calls + CallsCount(cs)
    decreases cs
  {
    if |cs| > 0 {
      ScopesBalance(t, cs[0]);
      ScopesBalanceAll(Run(t, cs[0]), cs[1..]);
    }
  }
}

=== FILE: carith.dfy ===
/** C and C++ integer semantics that the game relies on, written out over
    Dafny's unbounded integers: truncating division and remainder, the
    float-to-int cast, `char` signedness and 32-bit unsigned wrap-around. */
module CArith {

  function Abs(a: int): (r: int)
    ensures 0 <= r && (r == a || r == -a)
  {
    if a < 0 then -a else a
  }

  /** The product of two non-negative integers is non-negative. */
  lemma {:induction false} MulNonNegative(a: int, b: int)
    requires 0 <= a && 0 <= b
    ensures 0 <= a * b
  {
  }

  /** C++ `a / b` on `int`: the quotient is truncated toward zero
      (Dafny's own `/` is Euclidean and differs for negative operands). */
  function CDiv(a: int, b: int): (q: int)
    requires b != 0
    ensures 0 <= a ==> 0 <= a - q * b < Abs(b)
    ensures a < 0 ==> -Abs(b) < a - q * b <= 0
    ensures 0 < b ==> (0 <= a ==> 0 <= q) && (a < 0 ==> q <= 0)
  {
    if (0 <= a) == (0 < b) then Abs(a) / Abs(b) else -(Abs(a) / Abs(b))
  }

  /** C++ `a % b` on `int`: the remainder takes the sign of the dividend. */
  function CMod(a: int, b: int): (m: int)
    requires b != 0
    ensures a == CDiv(a, b) * b + m
    ensures Abs(m) < Abs(b)
    ensures 0 <= a ==> 0 <= m
    ensures a < 0 ==> m <= 0
  {
    a - CDiv(a, b) * b
  }

  /** For a non-negative dividend and a positive divisor, truncation and
      Euclidean division coincide. */
  lemma {:induction false} CDivNonNegative(a: int, b: int)
    requires 0 <= a && 0 < b
    ensures CDiv(a, b) == a / b
    ensures CMod(a, b) == a % b
  {
  }

  /** Dividing `q * b + r` by `b`, for `q >= 0` and `0 <= r < b`, gives back
      `q` as quotient and `r` as remainder. */
  lemma {:induction false} DivOfMultiplePlus(q: int, b: int, r: int)
    requires 0 <= q && 0 < b && 0 <= r < b
    ensures CDiv(q * b + r, b) == q
    ensures CMod(q * b + r, b) == r
  {
    MulNonNegative(q, b);
    var a := q * b + r;
    var d := CDiv(a, b);
    assert 0 <= a - d * b < b;
    if d < q {
      MulNonNegative(q - 1 - d, b);
      assert false;
    } else if d > q {
      MulNonNegative(d - q - 1, b);
      assert false;
    }
  }

  lemma {:induction false} MulSucc(k: int, b: int)
    ensures k * b + b == (k + 1) * b
  {
  }

  /** Dividing an exact multiple `k * b` by `b` gives `k`, whatever the sign of `k`. */
  lemma {:induction false} CDivExact(k: int, b: int)
    requires 0 < b
    ensures CDiv(k * b, b) == k
    ensures CMod(k * b, b) == 0
  {
    if 0 <= k {
      DivOfMultiplePlus(k, b, 0);
    } else {
      DivOfMultiplePlus(-k, b, 0);
      assert Abs(k * b) == (-k) * b;
    }
  }

  /** Truncating division by a positive divisor is monotone. */
  lemma {:induction false} CDivMonotone(a: int, c: int, b: int)
    requires a <= c && 0 < b
    ensures CDiv(a, b) <= CDiv(c, b)
  {
    var qa := CDiv(a, b);
    var qc := CDiv(c, b);
    if qa > qc {
      MulStrictlyMonotone(qc, qa, b);
      assert false;
    }
  }

  /** Multiplying by a positive `b` spaces consecutive integers `b` apart. */
  lemma {:induction false} MulStrictlyMonotone(k: int, m: int, b: int)
    requires k < m && 0 < b
    ensures k * b + b <= m * b
  {
    MulNonNegative(m - k - 1, b);
    assert (m - k - 1) * b == m * b - k * b - b;
  }

  /** `static_cast<int>` of a float: truncation toward zero. */
  function Trunc(r: real): (t: int)
    ensures 0.0 <= r ==> t as real <= r < t as real + 1.0
    ensures r < 0.0 ==> t as real - 1.0 < r <= t as real
  {
    if 0.0 <= r then r.Floor else -((-r).Floor)
  }

  /** A real holding a whole number (what a float holds after `snap`). */
  predicate IsWhole(r: real) {
    r == r.Floor as real
  }

  lemma {:induction false} TruncOfWhole(n: int)
    ensures Trunc(n as real) == n
  {
  }

  /** Truncation yields a whole number, and leaves a whole number alone. */
  lemma {:induction false} TruncIsWhole(r: real)
    ensures IsWhole(Trunc(r) as real)
    ensures IsWhole(r) ==> Trunc(r) as real == r
  {
    if IsWhole(r) {
      TruncOfWhole(r.Floor);
    }
  }

  /** One byte of a file, 0..255. */
  newtype byte = b: int | 0 <= b < 256

  /** Reading a byte into a (signed) `char`: values from 128 up read back negative. */
  function SignedChar(b: byte): (c: int)
    ensures -128 <= c < 128
    ensures c % 256 == b as int
  {
    if b < 128 then b as int else b as int - 256
  }

  /** Storing an `int` into a (signed) `char`: keeps the low eight bits. */
  function ToSignedChar(n: int): (c: int)
    ensures -128 <= c < 128
    ensures (c - n) % 256 == 0
  {
    var low := n % 256;
    if low < 128 then low else low - 256
  }

  /** Writing a (signed) `char` to a file: the byte with the same low eight bits. */
  function CharByte(c: int): (b: byte)
    ensures (b as int - c) % 256 == 0
  {
    (c % 256) as byte
  }

  lemma {:induction false} CharByteRoundTrip(c: int)
    requires -128 <= c < 128
    ensures SignedChar(CharByte(c)) == c
  {
  }

  const Uint32Modulus: int := 0x1_0000_0000

  /** Unsigned 32-bit arithmetic wraps modulo 2^32. */
  function Wrap32(n: int): (u: int)
    ensures 0 <= u < Uint32Modulus
    ensures (u - n) % Uint32Modulus == 0
  {
    n % Uint32Modulus
  }

  /** Converting an `unsigned int` to a 32-bit `int` (two's complement). */
  function ToInt32(u: int): (i: int)
    requires 0 <= u < Uint32Modulus
    ensures -0x8000_0000 <= i < 0x8000_0000
    ensures Wrap32(i) == u
  {
    if u < 0x8000_0000 then u else u - Uint32Modulus
  }
}

=== FILE: command_line.dfy ===
/** The program's start-up (`main.cc`): `default_state`, the C `atoi` the
    numeric options go through, and `process_arguments`. */
module CommandLine {
  import opened Session

  const DefaultWidth: int := 640
  const DefaultHeight: int := 480
  const DefaultBpp: int := 16

  /** `default_state`: the menu, in a 640 x 480 window of 16 bits a pixel. */
  function DefaultState(s: State): (r: State)
    ensures r.gameState == Menu
    ensures r.videoState == VideoState(DefaultWidth, DefaultHeight, DefaultBpp)
    ensures r.(gameState := s.gameState, videoState := s.videoState) == s
  {
    s.(gameState := Menu, videoState := VideoState(DefaultWidth, DefaultHeight, DefaultBpp))
  }

  // ----- atoi

  predicate IsSpace(c: char) {
    c == ' ' || c == '\t' || c == '\n' || c == '\r' || c == 11 as char || c == 12 as char
  }

  predicate IsDigit(c: char) {
    '0' <= c <= '9'
  }

  /** The number of leading characters satisfying the test. */
  function SpaceCount(s: string): (n: nat)
    ensures n <= |s| && (forall k :: 0 <= k < n ==> IsSpace(s[k])) && (n < |s| ==> !IsSpace(s[n]))
  {
    if |s| == 0 || !IsSpace(s[0]) then 0 else 1 + SpaceCount(s[1..])
  }

  function DigitCount(s: string): (n: nat)
    ensures n <= |s| && (forall k :: 0 <= k < n ==> IsDigit(s[k])) && (n < |s| ==> !IsDigit(s[n]))
  {
    if |s| == 0 || !IsDigit(s[0]) then 0 else 1 + DigitCount(s[1..])
  }

  function DigitValue(c: char): (v: nat)
    requires IsDigit(c)
    ensures v < 10
  {
    c as int - '0' as int
  }

  /** The value of a string of decimal digits, most significant first. */
  function DigitsValue(d: string): (v: nat)
    requires forall k :: 0 <= k < |d| ==> IsDigit(d[k])
  {
    if |d| == 0 then 0 else DigitsValue(d[..|d| - 1]) * 10 + DigitValue(d[|d| - 1])
  }

  /** `atoi`: leading white space is skipped, then an optional sign, then
      the longest run of digits; no digits give 0. */
  function Atoi(s: string): (n: int)
    ensures |s| == 0 ==> n == 0
    ensures |s| > 0 && !IsSpace(s[0]) && !IsDigit(s[0]) && s[0] != '-' && s[0] != '+' ==> n == 0
  {
    var t := s[SpaceCount(s)..];
    var negative := |t| > 0 && t[0] == '-';
    var u := if |t| > 0 && (t[0] == '-' || t[0] == '+') then t[1..] else t;
    var v: int := DigitsValue(u[..DigitCount(u)]);
    if negative then -v else v
  }

  /** The decimal digits of a natural number, without leading zeros. */
  function Decimal(n: nat): (d: string)
    ensures |d| > 0 && forall k :: 0 <= k < |d| ==> IsDigit(d[k])
  {
    var last := ['0' + (n % 10) as char];
    if n < 10 then last else Decimal(n / 10) + last
  }

  lemma {:induction false} DecimalValue(n: nat)
    ensures DigitsValue(Decimal(n)) == n
  {
    var d := Decimal(n);
    if n >= 10 {
      DecimalValue(n / 10);
      assert d[..|d| - 1] == Decimal(n / 10);
    }
  }

  lemma {:induction false} AllDigitsCount(d: string)
    requires forall k :: 0 <= k < |d| ==> IsDigit(d[k])
    ensures DigitCount(d) == |d|
  {
    if |d| > 0 {
      AllDigitsCount(d[1..]);
    }
  }

  /** `atoi` reads back every number written in decimal, with or without a
      minus sign. */
  lemma {:induction false} AtoiReadsDecimal(n: nat)
    ensures Atoi(Decimal(n)) == n
    ensures Atoi("-" + Decimal(n)) == -(n as int)
  {
    DecimalValue(n);
    AtoiOfDigits(Decimal(n));
    AtoiOfNegatedDigits(Decimal(n));
  }

  /** A run of digits reads as its value. */
  lemma {:induction false} AtoiOfDigits(d: string)
    requires |d| > 0 && forall k :: 0 <= k < |d| ==> IsDigit(d[k])
    ensures Atoi(d) == DigitsValue(d)
  {
    AllDigitsCount(d);
    assert SpaceCount(d) == 0;
    assert d[0..] == d && d[..|d|] == d;
  }

  /** A minus and a run of digits read as the negated value. */
  lemma {:induction false} AtoiOfNegatedDigits(d: string)
    requires |d| > 0 && forall k :: 0 <= k < |d| ==> IsDigit(d[k])
    ensures Atoi("-" + d) == -(DigitsValue(d) as int)
  {
    AllDigitsCount(d);
    var m := "-" + d;
    assert SpaceCount(m) == 0;
    assert m[0..] == m && m[1..] == d;
    assert d[..|d|] == d;
  }

  // ----- process_arguments

  /** What argument processing ends in: carrying on with a state, or the
      program exiting with a status. */
  datatype Outcome = Continue(state: State) | Exit(status: int)

  /** The options that read the next argument as a number. */
  predicate TakesValue(arg: string) {
    arg == "-width" || arg == "-height" || arg == "-bpp"
  }

  /** One option's effect on the state; any other argument has none. */
  function Apply(s: State, arg: string, value: string): (r: State)
    ensures !TakesValue(arg) && arg != "-nomusic" && arg != "-nosound" && arg != "-fullscreen" && arg != "-window" ==> r == s
    ensures arg == "-width" ==> r == s.(videoState := s.videoState.(width := Atoi(value)))
    ensures arg == "-height" ==> r == s.(videoState := s.videoState.(height := Atoi(value)))
    ensures arg == "-bpp" ==> r == s.(videoState := s.videoState.(bpp := Atoi(value)))
    ensures arg == "-nomusic" ==> r == s.(audioState := s.audioState.(music := false))
    ensures arg == "-nosound" ==> r == s.(audioState := s.audioState.(sounds := false))
    ensures arg == "-fullscreen" ==> r == s.(fullscreen := true)
    ensures arg == "-window" ==> r == s.(fullscreen := false)
  {
    if arg == "-width" then s.(videoState := s.videoState.(width := Atoi(value)))
    else if arg == "-height" then s.(videoState := s.videoState.(height := Atoi(value)))
    else if arg == "-bpp" then s.(videoState := s.videoState.(bpp := Atoi(value)))
    else if arg == "-nomusic" then s.(audioState := s.audioState.(music := false))
    else if arg == "-nosound" then s.(audioState := s.audioState.(sounds := false))
    else if arg == "-fullscreen" then s.(fullscreen := true)
    else if arg == "-window" then s.(fullscreen := false)
    else s
  }

  /** The loop of `process_arguments` from argument `i` on. */
  function ProcessFrom(args: seq<string>, i: nat, s: State): (r: Outcome)
    requires i <= |args| + 1
    ensures i >= |args| ==> r == Continue(s)
    ensures i < |args| && args[i] == "--help" ==> r == Exit(0)
    ensures i < |args| && TakesValue(args[i]) && i + 1 == |args| ==> r == Exit(1)
    ensures r.Exit? ==> r.status == 0 || r.status == 1
    decreases |args| - i
  {
    if i >= |args| then Continue(s)
    else if TakesValue(args[i]) then
      if i + 1 == |args| then Exit(1)
      else ProcessFrom(args, i + 2, Apply(s, args[i], args[i + 1]))
    else if args[i] == "--help" then Exit(0)
    else ProcessFrom(args, i + 1, Apply(s, args[i], ""))
  }

  /** One turn of the loop: a value option with a value after it applies
      that value and carries on two arguments later; any other argument but
      `--help` applies itself and carries on at the next. */
  lemma {:induction false} ProcessFromStep(args: seq<string>, i: nat, s: State)
    requires i < |args|
    ensures i + 1 < |args| && TakesValue(args[i]) ==>
      ProcessFrom(args, i, s) == ProcessFrom(args, i + 2, Apply(s, args[i], args[i + 1]))
    ensures !TakesValue(args[i]) && args[i] != "--help" ==>
      ProcessFrom(args, i, s) == ProcessFrom(args, i + 1, Apply(s, args[i], ""))
  {
  }

  /** `process_arguments`: every argument after the program's name. */
  function ProcessArguments(args: seq<string>, s: State): (r: Outcome) {
    ProcessFrom(args, 1, s)
  }

  /** The program's name is never examined. */
  lemma {:induction false} ProgramNameIgnored(args: seq<string>, other: seq<string>, s: State)
    requires |args| >= 1 && |other| >= 1 && args[1..] == other[1..]
    ensures ProcessArguments(args, s) == ProcessArguments(other, s)
  {
    forall k | 1 <= k < |args|
      ensures args[k] == other[k]
    {
      assert args[k] == args[1..][k - 1];
    }
    SameTail(args, other, 1, s);
  }

  lemma {:induction false} SameTail(args: seq<string>, other: seq<string>, i: nat, s: State)
    requires 1 <= i <= |args| + 1 && |args| == |other|
    requires forall k :: 1 <= k < |args| ==> args[k] == other[k]
    ensures ProcessFrom(args, i, s) == ProcessFrom(other, i, s)
    decreases |args| - i
  {
    if i < |args| {
      var a := args[i];
      assert other[i] == a;
      if TakesValue(a) {
        if i + 1 < |args| {
          assert other[i + 1] == args[i + 1];
          SameTail(args, other, i + 2, Apply(s, a, args[i + 1]));
        }
      } else if a != "--help" {
        SameTail(args, other, i + 1, Apply(s, a, ""));
      }
    }
  }

  /** Arguments none of which take a value or ask for help: the switches. */
  predicate Switches(args: seq<string>, i: nat) {
    forall k :: i <= k < |args| ==> !TakesValue(args[k]) && args[k] != "--help"
  }

  /** The fullscreen flag after some switches: the last `-fullscreen` or
      `-window` decides, and without either the flag is kept. */
  function LastScreenChoice(args: seq<string>, fullscreen: bool): bool
    decreases |args|
  {
    if |args| == 0 then fullscreen
    else if args[|args| - 1] == "-fullscreen" then true
    else if args[|args| - 1] == "-window" then false
    else LastScreenChoice(args[..|args| - 1], fullscreen)
  }

  /** Switches always carry on, and the last screen switch wins. */
  lemma {:induction false} LastScreenSwitchWins(args: seq<string>, s: State)
    requires |args| >= 1 && Switches(args, 1)
    ensures ProcessArguments(args, s).Continue?
    ensures ProcessArguments(args, s).state.fullscreen == LastScreenChoice(args[1..], s.fullscreen)
  {
    SwitchesFrom(args, 1, s);
  }

  lemma {:induction false} SwitchesFrom(args: seq<string>, i: nat, s: State)
    requires 1 <= i <= |args| && Switches(args, i)
    ensures ProcessFrom(args, i, s).Continue?
    ensures ProcessFrom(args, i, s).state.fullscreen == LastScreenChoice(args[i..], s.fullscreen)
    decreases |args| - i
  {
    if i < |args| {
      var next := Apply(s, args[i], "");
      SwitchesFrom(args, i + 1, next);
      LastChoiceSplit(args[i..], s.fullscreen);
      assert args[i..][1..] == args[i + 1..];
    } else {
      assert args[i..] == [];
    }
  }

  /** The last choice over `a :: rest` is the last choice over `rest`,
      starting from the choice `a` makes. */
  lemma {:induction false} LastChoiceSplit(a: seq<string>, fullscreen: bool)
    requires |a| >= 1
    ensures LastScreenChoice(a, fullscreen) ==
      LastScreenChoice(a[1..], if a[0] == "-fullscreen" then true else if a[0] == "-window" then false else fullscreen)
    decreases |a|
  {
    if |a| > 1 {
      assert a[..|a| - 1][1..] == a[1..][..|a[1..]| - 1];
      LastChoiceSplit(a[..|a| - 1], fullscreen);
    }
  }

  /** Unknown arguments leave the state as it was. */
  lemma {:induction false} UnknownArgumentsIgnored(args: seq<string>, s: State)
    requires forall k :: 1 <= k < |args| ==>
      !TakesValue(args[k]) && args[k] !in ["--help", "-nomusic", "-nosound", "-fullscreen", "-window"]
    ensures ProcessArguments(args, s) == Continue(s)
  {
    UnknownFrom(args, 1, s);
  }

  lemma {:induction false} UnknownFrom(args: seq<string>, i: nat, s: State)
    requires 1 <= i <= |args| + 1
    requires forall k :: i <= k < |args| ==>
      !TakesValue(args[k]) && args[k] !in ["--help", "-nomusic", "-nosound", "-fullscreen", "-window"]
    ensures ProcessFrom(args, i, s) == Continue(s)
    decreases |args| - i
  {
    if i < |args| {
      var arg := args[i];
      assert arg != "--help" && arg != "-nomusic" && arg != "-nosound" && arg != "-fullscreen" && arg != "-window";
      assert Apply(s, arg, "") == s;
      UnknownFrom(args, i + 1, s);
    }
  }

  /** `-width`, `-height` and `-bpp` consume the next argument: its number,
      written in decimal with or without a minus, becomes the field, and
      the loop carries on after it. */
  lemma {:induction false} ValueOption(s: State, option: string, n: nat, rest: seq<string>)
    requires TakesValue(option)
    ensures var args := ["skratch", option, Decimal(n)] + rest;
      ProcessArguments(args, s) == ProcessFrom(args, 3, Apply(s, option, Decimal(n)))
    ensures var v := s.videoState;
      Apply(s, option, Decimal(n)).videoState ==
        if option == "-width" then v.(width := n) else if option == "-height" then v.(height := n) else v.(bpp := n)
    ensures var v := s.videoState;
      Apply(s, option, "-" + Decimal(n)).videoState ==
        if option == "-width" then v.(width := -(n as int)) else if option == "-height" then v.(height := -(n as int)) else v.(bpp := -(n as int))
    ensures Apply(s, option, Decimal(n)) == s.(videoState := Apply(s, option, Decimal(n)).videoState)
  {
    AtoiReadsDecimal(n);
    var args := ["skratch", option, Decimal(n)] + rest;
    assert args[1] == option && args[2] == Decimal(n);
  }

  /** `-width 800` on its own sets the window width to 800. */
  lemma {:induction false} WidthOption(s: State, n: nat)
    ensures ProcessArguments(["skratch", "-width", Decimal(n)], s) == Continue(s.(videoState := s.videoState.(width := n)))
  {
    ValueOption(s, "-width", n, []);
    assert ["skratch", "-width", Decimal(n)] + [] == ["skratch", "-width", Decimal(n)];
  }
}

=== FILE: editor.dfy ===
/** The level editor (`editor/main.cc`): it writes blank collision, texture
    and entity maps of a typed size and checks the collision map's header.
    Files are byte sequences; whether each file can be opened is an input. */
module Editor {
  import opened CArith
  import opened Options
  import opened World
  import opened Entities
  import opened WorldLoader

  /** `WorldHeader`: the size as two signed `char`s. */
  datatype Header = Header(width: int, height: int)

  /** The header for the typed numbers: each is stored into a `char`, which
      keeps its low eight bits. */
  function HeaderOf(width: int, height: int): (h: Header)
    ensures -128 <= h.width < 128 && -128 <= h.height < 128
    ensures -128 <= width < 128 ==> h.width == width
    ensures -128 <= height < 128 ==> h.height == height
  {
    Header(ToSignedChar(width), ToSignedChar(height))
  }

  const ZeroByte: byte := 48

  /** `height` rows of `width` '0' cells (none for a negative count). */
  function BlankRows(h: Header): (rows: seq<seq<byte>>)
    ensures |rows| == Nat(h.height)
    ensures forall i :: 0 <= i < |rows| ==> |rows[i]| == Nat(h.width)
    ensures forall i, j :: 0 <= i < |rows| && 0 <= j < |rows[i]| ==> rows[i][j] == ZeroByte
  {
    seq(Nat(h.height), _ => seq(Nat(h.width), _ => ZeroByte))
  }

  /** `create_collision_map`: the header, '\n', then the blank rows. */
  function CollisionMapFile(h: Header): seq<byte> {
    CollisionMapBytes(h.width, h.height, BlankRows(h))
  }

  /** `create_texture_map` and `create_entity_map`: the blank rows alone. */
  function BlankMapFile(h: Header): seq<byte> {
    RowsBytes(BlankRows(h))
  }

  /** The collision map file has the header bytes, '\n', and one row of
      `width` cells plus '\n' per line of the map. */
  lemma {:induction false} CollisionMapLayout(h: Header)
    requires -128 <= h.width < 128 && -128 <= h.height < 128
    ensures var f := CollisionMapFile(h);
      && |f| == 3 + (Nat(h.width) + 1) * Nat(h.height)
      && SignedChar(f[0]) == h.width && SignedChar(f[1]) == h.height && f[2] as int == Newline
  {
    RowsBytesLength(BlankRows(h), Nat(h.width));
    CharByteRoundTrip(h.width);
    CharByteRoundTrip(h.height);
  }

  lemma {:induction false} RowsBytesLength(rows: seq<seq<byte>>, width: nat)
    requires forall i :: 0 <= i < |rows| ==> |rows[i]| == width
    ensures |RowsBytes(rows)| == (width + 1) * |rows|
    decreases |rows|
  {
    if |rows| > 0 {
      assert forall i :: 0 <= i < |rows[1..]| ==> rows[1..][i] == rows[i + 1];
      RowsBytesLength(rows[1..], width);
      assert (width + 1) * |rows| == (width + 1) + (width + 1) * (|rows| - 1);
    }
  }

  /** `verify_collision_map`: the first two bytes read back must equal the
      header; a file that cannot be opened, or has fewer than two bytes,
      fails. */
  function VerifyCollisionMap(h: Header, file: Option<seq<byte>>): (ok: bool)
    ensures ok <==> (file.Some? && 2 <= |file.value|
                     && SignedChar(file.value[0]) == h.width && SignedChar(file.value[1]) == h.height)
  {
    match file
    case None => false
    case Some(data) => 2 <= |data| && SignedChar(data[0]) == h.width && SignedChar(data[1]) == h.height
  }

  /** Whether each of the editor's file operations can open its file. */
  datatype FileSystem = FileSystem(createCollision: bool, openCollision: bool, createTexture: bool, createEntity: bool)

  /** The three files the editor leaves (none where it did not get to). */
  datatype Output = Output(exitCode: int, collision: Option<seq<byte>>, texture: Option<seq<byte>>, entity: Option<seq<byte>>)

  /** `main`: create the collision map, verify it, then create the texture
      and entity maps, stopping with status 1 at the first failing step. */
  function Main(width: int, height: int, fs: FileSystem): (r: Output)
    ensures r.exitCode == 0 <==> fs.createCollision && fs.openCollision && fs.createTexture && fs.createEntity
    ensures r.exitCode == 0 || r.exitCode == 1
    ensures r.collision.Some? <==> fs.createCollision
    ensures r.texture.Some? <==> fs.createCollision && fs.openCollision && fs.createTexture
    ensures r.entity.Some? <==> fs.createCollision && fs.openCollision && fs.createTexture && fs.createEntity
    ensures r.collision.Some? ==> r.collision.value == CollisionMapFile(HeaderOf(width, height))
    ensures r.texture.Some? ==> r.texture.value == BlankMapFile(HeaderOf(width, height))
    ensures r.entity.Some? ==> r.entity.value == BlankMapFile(HeaderOf(width, height))
  {
    var h := HeaderOf(width, height);
    CollisionMapLayout(h);
    if !fs.createCollision then Output(1, None, None, None)
    else
      var collision := Some(CollisionMapFile(h));
      if !VerifyCollisionMap(h, if fs.openCollision then collision else None) then Output(1, collision, None, None)
      else if !fs.createTexture then Output(1, collision, None, None)
      else
        var texture := Some(BlankMapFile(h));
        if !fs.createEntity then Output(1, collision, texture, None)
        else Output(0, collision, texture, Some(BlankMapFile(h)))
  }

  /** The verification step accepts every collision map the editor writes. */
  lemma {:induction false} VerifyAcceptsWrittenMap(width: int, height: int)
    ensures VerifyCollisionMap(HeaderOf(width, height), Some(CollisionMapFile(HeaderOf(width, height))))
  {
    CollisionMapLayout(HeaderOf(width, height));
  }

  /** Round trip: a size at least the viewport's, written by the editor and
      read by the world loader, gives a world of that size whose every block
      is empty, and the entity map spawns nothing. */
  lemma {:induction false} EditorMapsLoad(mode: Reading, w: World, width: int, height: int, windowHeight: int,
                                          reg: Registry, nextAddress: int, media: Media)
    requires -128 <= width < 128 && -128 <= height < 128
    requires w.blocksWide <= width && w.blocksHigh <= height
    ensures var r := LoadCollisionMap(mode, w, CollisionMapFile(HeaderOf(width, height)), windowHeight);
      && r.Ok? && r.value.width == width && r.value.height == height
      && |r.value.blocks| == |w.blocks| + Nat(width) * Nat(height)
      && (forall k :: |w.blocks| <= k < |r.value.blocks| ==> r.value.blocks[k] == MapBlock(NotCollidable, -1))
      && LoadEntityMap(mode, r.value, BlankMapFile(HeaderOf(width, height)), reg, nextAddress, media) == EntityLoad(true, reg)
  {
    var h := HeaderOf(width, height);
    var rows := BlankRows(h);
    CollisionMapRoundTrip(mode, w, width, height, rows, windowHeight);
    BlankCellsAreZero(rows, 0);
    var r := LoadCollisionMap(mode, w, CollisionMapFile(h), windowHeight);
    forall k | |w.blocks| <= k < |r.value.blocks|
      ensures r.value.blocks[k] == MapBlock(NotCollidable, -1)
    {
      assert r.value.blocks[k] == Blocks(RowsCells(rows, 0))[k - |w.blocks|];
    }
    EmptyEntityMapSpawnsNothing(mode, r.value, rows, reg, nextAddress, media);
  }

  /** Every cell of blank rows reads back as '0'. */
  lemma {:induction false} BlankCellsAreZero(rows: seq<seq<byte>>, y: int)
    requires forall i, j :: 0 <= i < |rows| && 0 <= j < |rows[i]| ==> rows[i][j] == ZeroByte
    ensures forall k :: 0 <= k < |RowsCells(rows, y)| ==> RowsCells(rows, y)[k].c == Zero0
    decreases |rows|
  {
    if |rows| > 0 {
      BlankRowIsZero(rows[0], 0, y);
      BlankCellsAreZero(rows[1..], y + 1);
      var a := RowCells(rows[0], 0, y);
      var b := RowsCells(rows[1..], y + 1);
      assert forall k :: 0 <= k < |a + b| ==> (a + b)[k] == (if k < |a| then a[k] else b[k - |a|]);
    }
  }

  lemma {:induction false} BlankRowIsZero(row: seq<byte>, x: int, y: int)
    requires forall j :: 0 <= j < |row| ==> row[j] == ZeroByte
    ensures forall k :: 0 <= k < |RowCells(row, x, y)| ==> RowCells(row, x, y)[k].c == Zero0
    decreases |row|
  {
    if |row| > 0 {
      BlankRowIsZero(row[1..], x + 1, y);
    }
  }
}

=== FILE: entities.dfy ===
/** Entity records and the registry that replaces the global
    `std::list<Entity*>`: registration, the field setters, the
    entity-entity overlap test, the positional ordering, `sort`, `cleanup`
    and `free_entities`. */
module Entities {
  import opened CArith
  import opened Vectors
  import opened Options
  import opened Animation

  /** A blaster's state: the cool-down left and its shot sound. */
  datatype BlasterGun = BlasterGun(coolTime: real, shootSound: int)

  /** The concrete class of an entity, which the source finds with `typeid`,
      together with the fields only that class has. */
  datatype Kind =
    | Generic
    | SkratchKind(canJump: bool, pose: Pose, sprites: SpriteTable, jumpSound: int, blaster: Option<BlasterGun>)
    | SuitKind(pose: Pose, sprites: SpriteTable)
    | BlasterKind(gun: BlasterGun)
    | ShotKind

  /** The fields of class `Entity`. `address` is the object's pointer value,
      the key `sort()` orders by. */
  datatype Entity = Entity(
    address: int,
    position: Vector,
    velocity: Vector,
    acceleration: Vector,
    sprite: int,
    animationSeconds: real,
    mass: real,
    removable: bool,
    kind: Kind)

  /** The two kinds that run the four-pose animation machine. */
  predicate Posed(k: Kind) {
    k.SkratchKind? || k.SuitKind?
  }

  /** The animation state of a posed entity. */
  function FrameOf(e: Entity): (f: Frame)
    requires Posed(e.kind)
    ensures f.pose == e.kind.pose && f.sprite == e.sprite && f.seconds == e.animationSeconds
  {
    Frame(e.kind.pose, e.sprite, e.animationSeconds)
  }

  /** Stores an animation state back into a posed entity. */
  function WithFrame(e: Entity, f: Frame): (r: Entity)
    requires Posed(e.kind)
    ensures Posed(r.kind) && FrameOf(r) == f
    ensures r.(kind := e.kind, sprite := e.sprite, animationSeconds := e.animationSeconds) == e
  {
    e.(kind := e.kind.(pose := f.pose), sprite := f.sprite, animationSeconds := f.seconds)
  }

  /** The registry, in list order. */
  type Registry = seq<Entity>

  /** The state `Entity::Entity` leaves: no sprite, clock and mass zero, not
      removable, and zero vectors. */
  function NewEntity(address: int, kind: Kind): (e: Entity)
    ensures e.sprite < 0 && e.animationSeconds == 0.0 && e.mass == 0.0 && !e.removable
    ensures e.position == Zero && e.velocity == Zero && e.acceleration == Zero
    ensures e.address == address && e.kind == kind
  {
    Entity(address, Zero, Zero, Zero, -1, 0.0, 0.0, false, kind)
  }

  /** `Entity::push_back`: appends, keeping every earlier entry. */
  function PushBack(reg: Registry, e: Entity): (r: Registry)
    ensures |r| == |reg| + 1 && r[..|reg|] == reg && r[|reg|] == e
  {
    reg + [e]
  }

  /** `Entity::back`: the last entry, or none for an empty registry. */
  function Back(reg: Registry): (r: Option<Entity>)
    ensures r.None? <==> |reg| == 0
    ensures r.Some? ==> r.value == reg[|reg| - 1]
  {
    if |reg| == 0 then None else Some(reg[|reg| - 1])
  }

  /** `Entity(add)`: the constructor registers the new entity iff `add`
      (the default being true). */
  function Register(reg: Registry, e: Entity, add: bool): (r: Registry)
    ensures add ==> |r| == |reg| + 1 && Back(r) == Some(e) && r[..|reg|] == reg
    ensures !add ==> r == reg
  {
    if add then PushBack(reg, e) else reg
  }

  /** What `back()` returns after a `push_back` is the entity just pushed. */
  lemma {:induction false} BackAfterPushBack(reg: Registry, e: Entity)
    ensures Back(PushBack(reg, e)) == Some(e)
  {
  }

  function SetPosition(e: Entity, p: Vector): (r: Entity)
    ensures r.position == p && r.(position := e.position) == e
  {
    e.(position := p)
  }

  function SetVelocity(e: Entity, v: Vector): (r: Entity)
    ensures r.velocity == v && r.(velocity := e.velocity) == e
  {
    e.(velocity := v)
  }

  function SetAcceleration(e: Entity, a: Vector): (r: Entity)
    ensures r.acceleration == a && r.(acceleration := e.acceleration) == e
  {
    e.(acceleration := a)
  }

  /** `accelerate`: adds its argument to the acceleration, componentwise. */
  function Accelerate(e: Entity, a: Vector): (r: Entity)
    ensures r.acceleration.x == e.acceleration.x + a.x
    ensures r.acceleration.y == e.acceleration.y + a.y
    ensures r.acceleration.z == e.acceleration.z + a.z
    ensures r.(acceleration := e.acceleration) == e
  {
    e.(acceleration := Add(e.acceleration, a))
  }

  /** `set_removable`: the flag becomes true; there is no way to clear it. */
  function SetRemovable(e: Entity): (r: Entity)
    ensures r.removable && r.(removable := e.removable) == e
  {
    e.(removable := true)
  }

  lemma {:induction false} SetRemovableIdempotent(e: Entity)
    ensures SetRemovable(SetRemovable(e)) == SetRemovable(e)
    ensures e.removable ==> SetRemovable(e) == e
  {
  }

  /** The pixel size of a sprite, as `Video::at(i)->w/h` reports it. */
  datatype Size = Size(w: int, h: int)

  /** Sprite sizes are looked up in the surface registry, which this model
      treats as a given total map from sprite index to size. */
  type SpriteSizes = int -> Size

  /** `width()`: the sprite's width, or -1 with no sprite. */
  function Width(e: Entity, sizes: SpriteSizes): (w: int)
    ensures e.sprite < 0 ==> w == -1
    ensures 0 <= e.sprite ==> w == sizes(e.sprite).w
  {
    if e.sprite >= 0 then sizes(e.sprite).w else -1
  }

  /** `height()`: the sprite's height, or -1 with no sprite. It mirrors
      `Width` line for line, as `height()` mirrors `width()` in the program. */
  function Height(e: Entity, sizes: SpriteSizes): (h: int)
    ensures e.sprite < 0 ==> h == -1
    ensures 0 <= e.sprite ==> h == sizes(e.sprite).h
  {
    if e.sprite >= 0 then sizes(e.sprite).h else -1
  }

  /** The result of `on_collision`: the entity reacting and the one it
      touched may both change. */
  datatype Contact = Contact(self: Entity, other: Entity)

  // ----- Entity::collision

  /** The entity-entity test exactly as written: either `b`'s corner lies in
      `a`'s box, or `a`'s corner lies in a box at `b` that is `b.width()`
      wide and, through a slip in the source, also `b.width()` high. */
  predicate Collides(a: Entity, b: Entity, sizes: SpriteSizes) {
    var ax := a.position.x;
    var ay := a.position.y;
    var bx := b.position.x;
    var bY := b.position.y;
    var aw := Width(a, sizes) as real;
    var ah := Height(a, sizes) as real;
    var bw := Width(b, sizes) as real;
    || (ax <= bx && ax + aw >= bx && ay <= bY && ay + ah >= bY)
    || (ax >= bx && ax <= bx + bw && ay >= bY && ay <= bY + bw)
  }

  /** Closed axis-aligned boxes at the two positions with their sprite sizes
      share a point: the independent reference for the test above. */
  predicate BoxesMeet(a: Entity, b: Entity, sizes: SpriteSizes) {
    var aw := Width(a, sizes) as real;
    var ah := Height(a, sizes) as real;
    var bw := Width(b, sizes) as real;
    var bh := Height(b, sizes) as real;
    && a.position.x <= b.position.x + bw && b.position.x <= a.position.x + aw
    && a.position.y <= b.position.y + bh && b.position.y <= a.position.y + ah
  }

  /** An entity with a sprite of non-negative size collides with itself. */
  lemma {:induction false} CollidesWithSelf(e: Entity, sizes: SpriteSizes)
    requires 0 <= Width(e, sizes) && 0 <= Height(e, sizes)
    ensures Collides(e, e, sizes)
  {
  }

  /** For a `b` no wider than it is high, a hit of the test is a real
      meeting of the two boxes. */
  lemma {:induction false} CollidesImpliesMeet(a: Entity, b: Entity, sizes: SpriteSizes)
    requires 0 <= Width(a, sizes) && 0 <= Height(a, sizes)
    requires 0 <= Width(b, sizes) <= Height(b, sizes)
    requires Collides(a, b, sizes)
    ensures BoxesMeet(a, b, sizes)
  {
  }

  /** The unit sprite table used by the two examples below. */
  function ExampleSizes(tall: bool): SpriteSizes {
    i => if i == 1 && tall then Size(10, 50) else if i == 1 then Size(10, 10) else Size(2, 2)
  }

  function ExampleEntity(x: real, y: real, sprite: int): Entity {
    NewEntity(0, Generic).(position := Vector(x, y, 0.0), sprite := sprite)
  }

  /** The test misses overlapping boxes: two 10 x 10 boxes at (0, 5) and
      (5, 0) meet, yet neither order reports a collision. */
  lemma {:induction false} CollidesMissesOverlap()
    ensures var sizes := ExampleSizes(false);
      var a := ExampleEntity(0.0, 5.0, 1);
      var b := ExampleEntity(5.0, 0.0, 1);
      && BoxesMeet(a, b, sizes)
      && !Collides(a, b, sizes) && !Collides(b, a, sizes)
  {
  }

  /** The test is not symmetric: a 10 x 50 box at (0, 0) and a 2 x 2 box at
      (5, 20) collide one way round but not the other, because the second
      form measures `b`'s height with its width. */
  lemma {:induction false} CollidesIsNotSymmetric()
    ensures var sizes := ExampleSizes(true);
      var tall := ExampleEntity(0.0, 0.0, 1);
      var small := ExampleEntity(5.0, 20.0, 2);
      && Collides(tall, small, sizes)
      && !Collides(small, tall, sizes)
  {
  }

  // ----- operator<

  /** `operator<` on entities: compares z, then x, then y. */
  predicate PositionLess(a: Entity, b: Entity) {
    if a.position.z < b.position.z then true
    else if b.position.z < a.position.z then false
    else if a.position.x < b.position.x then true
    else if b.position.x < a.position.x then false
    else if a.position.y < b.position.y then true
    else false
  }

  /** `operator<` is the lexicographic order on (z, x, y): irreflexive,
      false both ways for equal positions, asymmetric and transitive. */
  lemma {:induction false} PositionLessIsStrictOrder(a: Entity, b: Entity, c: Entity)
    ensures PositionLess(a, b) <==>
      || a.position.z < b.position.z
      || (a.position.z == b.position.z && a.position.x < b.position.x)
      || (a.position.z == b.position.z && a.position.x == b.position.x && a.position.y < b.position.y)
    ensures !PositionLess(a, a)
    ensures a.position == b.position ==> !PositionLess(a, b) && !PositionLess(b, a)
    ensures PositionLess(a, b) ==> !PositionLess(b, a)
    ensures PositionLess(a, b) && PositionLess(b, c) ==> PositionLess(a, c)
  {
  }

  // ----- Entity::sort

  predicate SortedByAddress(reg: Registry) {
    forall i, j :: 0 <= i < j < |reg| ==> reg[i].address <= reg[j].address
  }

  function InsertByAddress(e: Entity, reg: Registry): (r: Registry)
    requires SortedByAddress(reg)
    ensures SortedByAddress(r)
    ensures multiset(r) == multiset(reg) + multiset{e}
    ensures |r| == |reg| + 1
    ensures r[0] == e || (|reg| > 0 && r[0] == reg[0])
    decreases |reg|
  {
    if |reg| == 0 then [e]
    else if e.address <= reg[0].address then [e] + reg
    else
      var rest := InsertByAddress(e, reg[1..]);
      assert reg == [reg[0]] + reg[1..];
      assert reg[0].address <= rest[0].address;
      assert forall k :: 0 <= k < |rest| ==> rest[0].address <= rest[k].address;
      [reg[0]] + rest
  }

  /** `Entity::sort()`: the list's default order compares the `Entity*`
      pointers, so the result is the registry ordered by address, a
      permutation of it, and unrelated to `operator<`. */
  function SortByAddress(reg: Registry): (r: Registry)
    ensures SortedByAddress(r)
    ensures multiset(r) == multiset(reg)
    ensures |r| == |reg|
  {
    if |reg| == 0 then []
    else
      assert reg == [reg[0]] + reg[1..];
      InsertByAddress(reg[0], SortByAddress(reg[1..]))
  }

  /** Address order is not `operator<`: an entity at depth 5 allocated
      before one at depth 0 stays in front of it after `sort()`. */
  lemma {:induction false} SortIgnoresPosition()
    ensures var front := NewEntity(1, Generic).(position := Vector(0.0, 0.0, 5.0));
      var back := NewEntity(2, Generic).(position := Vector(0.0, 0.0, 0.0));
      && SortByAddress([back, front]) == [front, back]
      && PositionLess(back, front)
  {
    var front := NewEntity(1, Generic).(position := Vector(0.0, 0.0, 5.0));
    var back := NewEntity(2, Generic).(position := Vector(0.0, 0.0, 0.0));
    assert [back, front][1..] == [front];
    assert SortByAddress([front]) == [front] by {
      assert [front][1..] == [];
    }
  }

  // ----- Entity::cleanup and Entity::free_entities

  /** `Entity::cleanup()`: deletes the removable entries. */
  function Cleanup(reg: Registry): (r: Registry)
    ensures forall e :: e in r <==> e in reg && !e.removable
    ensures |r| <= |reg|
  {
    if |reg| == 0 then []
    else if reg[0].removable then Cleanup(reg[1..])
    else [reg[0]] + Cleanup(reg[1..])
  }

  /** Cleaning a concatenation cleans each part in place: the kept entries
      stay in their relative order. */
  lemma {:induction false} CleanupKeepsOrder(a: Registry, b: Registry)
    ensures Cleanup(a + b) == Cleanup(a) + Cleanup(b)
    decreases |a|
  {
    if |a| == 0 {
      assert a + b == b;
    } else {
      assert (a + b)[1..] == a[1..] + b;
      CleanupKeepsOrder(a[1..], b);
    }
  }

  /** A registry without removable entries is left as it is. */
  lemma {:induction false} CleanupKeepsClean(reg: Registry)
    requires forall i :: 0 <= i < |reg| ==> !reg[i].removable
    ensures Cleanup(reg) == reg
    decreases |reg|
  {
    if |reg| != 0 {
      CleanupKeepsClean(reg[1..]);
    }
  }

  /** A second `cleanup` with no newly flagged entity changes nothing. */
  lemma {:induction false} CleanupIdempotent(reg: Registry)
    ensures Cleanup(Cleanup(reg)) == Cleanup(reg)
  {
    var r := Cleanup(reg);
    forall i | 0 <= i < |r|
      ensures !r[i].removable
    {
      assert r[i] in r;
    }
    CleanupKeepsClean(r);
  }

  /** `Entity::free_entities()`: deletes every entry. */
  function FreeEntities(reg: Registry): (r: Registry)
    ensures |r| == 0
  {
    []
  }
}

=== FILE: font.dfy ===
/** The bitmap font of `Font.cc`: a 16 x 16 atlas of glyph cells with a
    one-pixel gutter, loaded through `Video`, and the layout `render_text`
    computes. The surface index that loading and scaling yield and the
    loaded surface's size are parameters; what `render_text` produces is
    the list of blits it would issue. */
module Font {
  import opened CArith
  import opened Options

  /** The size the atlas image is scaled to before the window's scale
      factors: sixteen 15-pixel cells and fifteen gutters. */
  const DefaultWidth: int := 255
  const DefaultHeight: int := 255

  const Newline: int := 10
  const CarriageReturn: int := 13
  const Tab: int := 9

  datatype Font = Font(surfaceIndex: int, charWidth: int, charHeight: int)

  /** `Font()`: no surface and an empty character size. */
  function NewFont(): (f: Font)
    ensures !Loaded(f) && f.charWidth == 0 && f.charHeight == 0
  {
    Font(-1, 0, 0)
  }

  predicate Loaded(f: Font) {
    f.surfaceIndex >= 0
  }

  /** `n >> 4` on an `int`: an arithmetic shift, which rounds down. */
  function Shift4(n: int): (r: int)
    ensures 16 * r <= n < 16 * (r + 1)
  {
    n / 16
  }

  /** `load`: `scaled` is the index scaling the loaded image gave. A negative
      index fails (and is kept); otherwise a character is a sixteenth of the
      surface's width and height. */
  function Load(f: Font, scaled: int, surfaceWidth: int, surfaceHeight: int): (r: (bool, Font))
    ensures r.0 <==> scaled >= 0
    ensures r.1.surfaceIndex == scaled && (r.0 <==> Loaded(r.1))
    ensures !r.0 ==> r.1.charWidth == f.charWidth && r.1.charHeight == f.charHeight
    ensures r.0 ==> 16 * r.1.charWidth <= surfaceWidth < 16 * (r.1.charWidth + 1)
    ensures r.0 ==> 16 * r.1.charHeight <= surfaceHeight < 16 * (r.1.charHeight + 1)
  {
    if scaled < 0 then (false, f.(surfaceIndex := scaled))
    else (true, Font(scaled, Shift4(surfaceWidth), Shift4(surfaceHeight)))
  }

  /** How a byte of the text becomes a character code: the program reads it
      into a signed `char`; `UnsignedChars` reads it as 0..255. */
  datatype CharSign = SignedChars | UnsignedChars

  function CharCode(sign: CharSign, b: byte): (c: int)
    ensures b < 128 ==> c == b as int
    ensures sign == UnsignedChars ==> c == b as int
  {
    match sign
    case SignedChars => SignedChar(b)
    case UnsignedChars => b as int
  }

  datatype Rect = Rect(x: int, y: int, w: int, h: int)

  /** The glyph's cell in the atlas: column `c % 16` (a C remainder) and
      row `c >> 4`. */
  function Cell(c: int): (cell: (int, int))
    ensures 0 <= c ==> 0 <= cell.0 < 16 && 0 <= cell.1 && c == 16 * cell.1 + cell.0
  {
    (CMod(c, 16), Shift4(c))
  }

  /** The source rectangle of a glyph: its cell, one gutter pixel per cell
      before it. */
  function GlyphRect(f: Font, c: int): (r: Rect)
    ensures r.w == f.charWidth && r.h == f.charHeight
  {
    var (sx, sy) := Cell(c);
    Rect(sx * f.charWidth + sx, sy * f.charHeight + sy, f.charWidth, f.charHeight)
  }

  /** A glyph copied to the destination at `(x, y)`. */
  datatype Blit = Blit(source: Rect, x: int, y: int)

  /** The blits `render_text`'s loop issues, from the cursor `(px, py)` on:
      it stops as soon as a cell would cross the destination's right or
      bottom edge; a newline returns to `x0` one line down, a carriage
      return to `x0`, a tab moves four cells on; any other character is
      drawn and moves the cursor one cell. */
  function Layout(sign: CharSign, f: Font, text: seq<byte>, width: int, height: int, x0: int, px: int, py: int)
    : (blits: seq<Blit>)
    ensures |blits| <= |text|
    ensures forall k :: 0 <= k < |blits| ==>
      blits[k].x + f.charWidth <= width && blits[k].y + f.charHeight <= height
    ensures forall k :: 0 <= k < |blits| ==> blits[k].source.w == f.charWidth && blits[k].source.h == f.charHeight
    decreases |text|
  {
    if |text| == 0 || px + f.charWidth > width || py + f.charHeight > height then []
    else
      var c := CharCode(sign, text[0]);
      if c == Newline then Layout(sign, f, text[1..], width, height, x0, x0, py + f.charHeight)
      else if c == CarriageReturn then Layout(sign, f, text[1..], width, height, x0, x0, py)
      else if c == Tab then Layout(sign, f, text[1..], width, height, x0, px + 4 * f.charWidth, py)
      else [Blit(GlyphRect(f, c), px, py)] + Layout(sign, f, text[1..], width, height, x0, px + f.charWidth, py)
  }

  /** `render_text`: nothing without a destination or a loaded font;
      otherwise the layout from `(x, y)`. The destination is its size. */
  function RenderText(sign: CharSign, f: Font, text: seq<byte>, destination: Option<(int, int)>, x: int, y: int)
    : (blits: seq<Blit>)
    ensures destination.None? || !Loaded(f) ==> blits == []
    ensures destination.Some? ==> forall k :: 0 <= k < |blits| ==>
      blits[k].x + f.charWidth <= destination.value.0 && blits[k].y + f.charHeight <= destination.value.1
  {
    if destination.None? || !Loaded(f) then []
    else Layout(sign, f, text, destination.value.0, destination.value.1, x, x, y)
  }

  /** A byte the cursor rules handle instead of drawing. */
  predicate IsControl(sign: CharSign, b: byte) {
    CharCode(sign, b) in {Newline, CarriageReturn, Tab}
  }

  /** The glyphs of a line of text drawn side by side from `(x, y)`. */
  function Glyphs(sign: CharSign, f: Font, text: seq<byte>, x: int, y: int): (blits: seq<Blit>)
    ensures |blits| == |text|
  {
    seq(|text|, k requires 0 <= k < |text| => Blit(GlyphRect(f, CharCode(sign, text[k])), x + k * f.charWidth, y))
  }

  /** The first glyph of a line, then the rest one cell further right. */
  lemma {:induction false} GlyphsSplit(sign: CharSign, f: Font, text: seq<byte>, x: int, y: int)
    requires |text| > 0
    ensures Glyphs(sign, f, text, x, y)
         == [Blit(GlyphRect(f, CharCode(sign, text[0])), x, y)] + Glyphs(sign, f, text[1..], x + f.charWidth, y)
  {
    var rest := Glyphs(sign, f, text[1..], x + f.charWidth, y);
    var all := Glyphs(sign, f, text, x, y);
    forall k | 0 <= k < |all|
      ensures all[k] == ([Blit(GlyphRect(f, CharCode(sign, text[0])), x, y)] + rest)[k]
    {
      if k > 0 {
        assert text[1..][k - 1] == text[k];
        assert x + f.charWidth + (k - 1) * f.charWidth == x + k * f.charWidth;
      }
    }
  }

  /** The first cell of a non-empty line that fits fits too. */
  lemma {:induction false} FirstCellFits(n: int, size: int)
    requires n >= 1 && size >= 0
    ensures size <= n * size && (n - 1) * size == n * size - size
  {
    MulNonNegative(n - 1, size);
    assert n * size == size + (n - 1) * size;
  }

  /** Text without control characters that fits on the line is drawn glyph
      by glyph, each one cell to the right of the one before. */
  lemma {:induction false} PlainLine(sign: CharSign, f: Font, text: seq<byte>, width: int, height: int,
                                     x0: int, px: int, py: int)
    requires f.charWidth >= 0
    requires forall k :: 0 <= k < |text| ==> !IsControl(sign, text[k])
    requires px + |text| * f.charWidth <= width && py + f.charHeight <= height
    ensures Layout(sign, f, text, width, height, x0, px, py) == Glyphs(sign, f, text, px, py)
    decreases |text|
  {
    if |text| > 0 {
      FirstCellFits(|text|, f.charWidth);
      PlainLine(sign, f, text[1..], width, height, x0, px + f.charWidth, py);
      GlyphsSplit(sign, f, text, px, py);
    }
  }

  /** A newline after a line of plain text that fits: the line's glyphs,
      then the rest laid out from the start of the next line. */
  lemma {:induction false} NewlineStartsNextLine(sign: CharSign, f: Font, line: seq<byte>, rest: seq<byte>,
                                                 width: int, height: int, x0: int, px: int, py: int)
    requires f.charWidth >= 0
    requires forall k :: 0 <= k < |line| ==> !IsControl(sign, line[k])
    requires px + (|line| + 1) * f.charWidth <= width && py + f.charHeight <= height
    ensures Layout(sign, f, line + [Newline as byte] + rest, width, height, x0, px, py)
         == Glyphs(sign, f, line, px, py) + Layout(sign, f, rest, width, height, x0, x0, py + f.charHeight)
    decreases |line|, 1
  {
    if |line| == 0 {
      var text := line + [Newline as byte] + rest;
      assert text[1..] == rest;
      NewlineFirst(sign, f, text, width, height, x0, px, py);
    } else {
      GlyphBeforeNewline(sign, f, line, rest, width, height, x0, px, py);
    }
  }

  /** The inductive step: the line's first glyph, then the rest of the line
      and the newline one cell further right. */
  lemma {:induction false} GlyphBeforeNewline(sign: CharSign, f: Font, line: seq<byte>, rest: seq<byte>,
                                              width: int, height: int, x0: int, px: int, py: int)
    requires |line| > 0 && f.charWidth >= 0
    requires forall k :: 0 <= k < |line| ==> !IsControl(sign, line[k])
    requires px + (|line| + 1) * f.charWidth <= width && py + f.charHeight <= height
    ensures Layout(sign, f, line + [Newline as byte] + rest, width, height, x0, px, py)
         == Glyphs(sign, f, line, px, py) + Layout(sign, f, rest, width, height, x0, x0, py + f.charHeight)
    decreases |line|, 0
  {
    var text := line + [Newline as byte] + rest;
    FirstCellFits(|line| + 1, f.charWidth);
    assert text[0] == line[0] && text[1..] == line[1..] + [Newline as byte] + rest;
    forall k | 0 <= k < |line[1..]|
      ensures !IsControl(sign, line[1..][k])
    {
      assert line[1..][k] == line[k + 1];
    }
    DrawsFirst(sign, f, text, width, height, x0, px, py);
    NewlineStartsNextLine(sign, f, line[1..], rest, width, height, x0, px + f.charWidth, py);
    GlyphsSplit(sign, f, line, px, py);
    Regroup(Layout(sign, f, text, width, height, x0, px, py),
            [Blit(GlyphRect(f, CharCode(sign, line[0])), px, py)],
            Layout(sign, f, text[1..], width, height, x0, px + f.charWidth, py),
            Glyphs(sign, f, line[1..], px + f.charWidth, py),
            Glyphs(sign, f, line, px, py),
            Layout(sign, f, rest, width, height, x0, x0, py + f.charHeight));
  }

  /** `whole` is `first` then `tail`, and `tail` splits after `middle`: so
      `whole` is `first + middle` then the remainder. */
  lemma {:induction false} Regroup<T>(whole: seq<T>, first: seq<T>, tail: seq<T>, middle: seq<T>,
                                      front: seq<T>, remainder: seq<T>)
    requires whole == first + tail && tail == middle + remainder && front == first + middle
    ensures whole == front + remainder
  {
    assert first + (middle + remainder) == (first + middle) + remainder;
  }

  /** A newline whose cell fits moves the cursor to the start of the next
      line and draws nothing. */
  lemma {:induction false} NewlineFirst(sign: CharSign, f: Font, text: seq<byte>, width: int, height: int,
                                        x0: int, px: int, py: int)
    requires |text| > 0 && text[0] == Newline as byte
    requires px + f.charWidth <= width && py + f.charHeight <= height
    ensures Layout(sign, f, text, width, height, x0, px, py)
         == Layout(sign, f, text[1..], width, height, x0, x0, py + f.charHeight)
  {
  }

  /** A drawable first byte whose cell fits is drawn at the cursor, and the
      rest is laid out one cell further right. */
  lemma {:induction false} DrawsFirst(sign: CharSign, f: Font, text: seq<byte>, width: int, height: int,
                                      x0: int, px: int, py: int)
    requires |text| > 0 && !IsControl(sign, text[0])
    requires px + f.charWidth <= width && py + f.charHeight <= height
    ensures Layout(sign, f, text, width, height, x0, px, py)
         == [Blit(GlyphRect(f, CharCode(sign, text[0])), px, py)]
            + Layout(sign, f, text[1..], width, height, x0, px + f.charWidth, py)
  {
  }

  /** As written, a byte from 128 up is a negative `char`, whose cell lies
      before the atlas: byte 0xE9 reads from cell (-7, -2). */
  lemma {:induction false} HighByteCellOutsideAtlas(f: Font)
    requires f.charWidth >= 0 && f.charHeight >= 0
    ensures Cell(CharCode(SignedChars, 0xE9)) == (-7, -2)
    ensures GlyphRect(f, CharCode(SignedChars, 0xE9)).x < 0 && GlyphRect(f, CharCode(SignedChars, 0xE9)).y < 0
  {
    assert CharCode(SignedChars, 0xE9) == -23;
    assert CMod(-23, 16) == -7;
  }

  /** Read as unsigned, every byte's glyph lies inside the 16 x 16 atlas of
      cells and gutters. */
  lemma {:induction false} UnsignedCellInsideAtlas(f: Font, b: byte)
    requires f.charWidth >= 0 && f.charHeight >= 0
    ensures var r := GlyphRect(f, CharCode(UnsignedChars, b));
      && 0 <= r.x && r.x + r.w <= 16 * f.charWidth + 15
      && 0 <= r.y && r.y + r.h <= 16 * f.charHeight + 15
  {
    var (sx, sy) := Cell(b as int);
    assert sy < 16;
    CellSpan(sx, f.charWidth);
    CellSpan(sy, f.charHeight);
  }

  lemma {:induction false} CellSpan(s: int, size: int)
    requires 0 <= s < 16 && size >= 0
    ensures 0 <= s * size + s && s * size + s + size <= 16 * size + 15
  {
    MulNonNegative(s, size);
    MulNonNegative(15 - s, size);
    assert 16 * size - (s * size + size) == (15 - s) * size;
  }
}

=== FILE: game.dfy ===
/** The game loop of `game.cc`: one frame of `handle_state` and the event
    handling of `event_loop`. The timer's frame time, the sprite sizes and
    the media and addresses the frame needs are inputs. */
module Game {
  import opened Vectors
  import opened Options
  import opened World
  import opened Entities
  import opened WorldLoader
  import opened Session
  import Skratch
  import Physics
  import Menus

  /** What a frame reads besides the state: the elapsed time, the sprite
      sizes, the blaster's sound, the address and sprite a new shot takes,
      the window, the menu's look and the level a restart loads. */
  datatype Tick = Tick(dt: real, sizes: SpriteSizes, shootSound: int, shotAddress: int, shotSprite: int,
                       windowWidth: int, windowHeight: int, look: Menus.Look, start: LevelStart)

  /** The keys `Skratch::think` reads from `keystate`. */
  function PlayerKeys(keys: set<int>): (k: Skratch.Keys)
    ensures k.right <==> KeyRight in keys
    ensures k.left <==> KeyLeft in keys
    ensures k.space <==> KeySpace in keys
    ensures k.ctrl <==> KeyLeftCtrl in keys || KeyRightCtrl in keys
  {
    Skratch.Keys(KeyRight in keys, KeyLeft in keys, KeySpace in keys, KeyLeftCtrl in keys || KeyRightCtrl in keys)
  }

  /** The running part of a frame and the player's collision flags. */
  datatype Simulation = Simulation(state: State, flags: Flags)

  /** The thinking half of a running frame, in the program's order: sort
      the list, let every entry think, then let the player think; a jump
      consumes the space key and a shot joins the end of the list. */
  function ThinkPhase(s: State, t: Tick): (r: State)
    requires Playing(s)
    ensures Playing(r)
    ensures r == s.(registry := r.registry, playerState := r.playerState, inputState := r.inputState)
    ensures r.playerState == s.playerState.(player := r.playerState.player)
    ensures r.inputState == s.inputState.(keys := r.inputState.keys)
    ensures r.inputState.keys == s.inputState.keys || r.inputState.keys == s.inputState.keys - {KeySpace}
    ensures |s.registry| <= |r.registry| <= |s.registry| + 1
    ensures r.playerState.player.value.address == s.playerState.player.value.address
    ensures r.playerState.player.value.removable == s.playerState.player.value.removable
  {
    var w := s.world.value;
    var player := s.playerState.player.value;
    var sorted := SortByAddress(s.registry);
    var thought := Physics.AllThink(sorted, w.position.x, t.windowWidth);
    var mind := PlayerThinks(player, s.inputState.keys, thought, w, t);
    var keys := if mind.keys.space then s.inputState.keys else s.inputState.keys - {KeySpace};
    s.(registry := mind.registry, playerState := s.playerState.(player := Some(mind.player)),
       inputState := s.inputState.(keys := keys))
  }

  /** The player's thinking, seen from the frame: the player stays the
      player, and at most one shot joins the list. */
  function PlayerThinks(player: Entity, keys: set<int>, reg: Registry, w: World, t: Tick): (m: Skratch.Thought)
    requires Skratch.IsSkratch(player)
    ensures Skratch.IsSkratch(m.player)
    ensures m.player.address == player.address && m.player.removable == player.removable
    ensures |reg| <= |m.registry| <= |reg| + 1
  {
    Skratch.Think(player, PlayerKeys(keys), reg, w, t.shotAddress, t.shotSprite)
  }

  /** The moving half of a running frame: every entry is animated, then
      the player, whose step also scrolls the camera; the player's flags
      are the frame's. */
  function AnimatePhase(s: State, t: Tick): (r: Simulation)
    requires Playing(s)
    ensures Playing(r.state)
    ensures r.state == s.(registry := r.state.registry, world := r.state.world, playerState := r.state.playerState)
    ensures r.state.playerState == s.playerState.(player := r.state.playerState.player)
    ensures r.state.world == Some(s.world.value.(position := r.state.world.value.position))
    ensures |r.state.registry| == |s.registry|
    ensures r.state.playerState.player.value.address == s.playerState.player.value.address
    ensures s.playerState.player.value.removable ==> r.state.playerState.player.value.removable
  {
    var w := s.world.value;
    var animated := Physics.AllAnimate(s.registry, 0, t.dt, w, t.sizes, t.shootSound);
    var moved := Physics.PlayerAnimate(s.playerState.player.value, animated, t.dt, w, t.sizes, t.shootSound,
                                       t.windowWidth, t.windowHeight);
    Simulation(s.(registry := moved.0.registry, world := Some(moved.1),
                  playerState := s.playerState.(player := Some(moved.0.entity))), moved.0.flags)
  }

  /** The simulation of a running frame: thinking, then moving. Only the
      list, the camera, the player and the space key change. */
  function Simulate(s: State, t: Tick): (r: Simulation)
    requires Playing(s)
    ensures Playing(r.state)
    ensures r.state == s.(registry := r.state.registry, world := r.state.world, playerState := r.state.playerState,
                          inputState := r.state.inputState)
    ensures r.state.playerState == s.playerState.(player := r.state.playerState.player)
    ensures r.state.world == Some(s.world.value.(position := r.state.world.value.position))
    ensures r.state.inputState.keys == s.inputState.keys || r.state.inputState.keys == s.inputState.keys - {KeySpace}
    ensures |s.registry| <= |r.state.registry| <= |s.registry| + 1
    ensures s.playerState.player.value.removable ==> r.state.playerState.player.value.removable
  {
    AnimatePhase(ThinkPhase(s, t), t)
  }

  /** The player is lost this frame: fallen out of the world or destroyed. */
  predicate Died(m: Simulation)
    requires m.state.playerState.player.Some?
  {
    FellOffWorld in m.flags || m.state.playerState.player.value.removable
  }

  /** The end of every frame that draws: the F11 screenshot key is
      released and the entries marked removable are deleted. */
  function Finish(s: State): (r: State)
    ensures forall e :: e in r.registry <==> e in s.registry && !e.removable
    ensures KeyF11 !in r.inputState.keys
    ensures r == s.(registry := r.registry, inputState := s.inputState.(keys := s.inputState.keys - {KeyF11}))
  {
    s.(registry := Cleanup(s.registry), inputState := s.inputState.(keys := s.inputState.keys - {KeyF11}))
  }

  /** `handle_state`: in the menu, the menu's handling; while running, a
      simulated frame unless paused, whose outcome may cost a life (and
      restart the level, returning before anything else), end the game on
      the last life, or end it at the world's end; then, paused or not, the
      frame finishes. Other states do nothing. */
  function HandleState(s: State, t: Tick): (r: State)
    requires Consistent(s) && CanStart(t.start)
    ensures Consistent(r)
    ensures s.gameState == Menu ==> r == Menus.HandleMenu(s, t.look, t.start)
    ensures s.gameState != Menu && s.gameState != Running ==> r == s
    ensures s.gameState == Running && s.paused ==> r == Finish(s)
    ensures s.gameState == Running && !s.paused ==>
      var m := Simulate(s, t);
      && (Died(m) && s.playerState.lives != 0 ==>
            r == RestartGame(m.state.(playerState := m.state.playerState.(lives := s.playerState.lives - 1)), t.start))
      && (Died(m) && s.playerState.lives == 0 ==> r == ExitGame(Finish(m.state)))
      && (!Died(m) && EndWorld in m.flags ==> r == ExitGame(Finish(m.state)))
      && (!Died(m) && EndWorld !in m.flags ==> r == Finish(m.state))
  {
    match s.gameState
    case Menu =>
      MenuKeepsConsistent(s, t.look, t.start);
      Menus.HandleMenu(s, t.look, t.start)
    case Running =>
      if s.paused then Finish(s)
      else
        var m := Simulate(s, t);
        if Died(m) then
          if s.playerState.lives != 0 then
            RestartGame(m.state.(playerState := m.state.playerState.(lives := s.playerState.lives - 1)), t.start)
          else ExitGame(Finish(m.state))
        else if EndWorld in m.flags then ExitGame(Finish(m.state))
        else Finish(m.state)
    case _ => s
  }

  /** The menus keep the state consistent: they only start a new game,
      quit, switch screens, or resume a game that can be played. */
  lemma {:induction false} MenuKeepsConsistent(s: State, look: Menus.Look, start: LevelStart)
    requires Consistent(s) && CanStart(start) && s.gameState == Menu
    ensures Consistent(Menus.HandleMenu(s, look, start))
  {
    var r := Menus.HandleMenu(s, look, start);
    if s.menuType == MainMenu {
      var input := s.inputState;
      if s.menuState == TitleMenu && KeyEscape !in input.keys && KeyReturn !in input.keys {
        ClickKeepsConsistent(s, Menus.TitleOptions(look), start);
      } else if s.menuState == OptionsMenu && KeyEscape !in input.keys {
        ClickKeepsConsistent(s, Menus.OptionsOptions(look), start);
      } else if s.menuState == VideoMenu && KeyEscape !in input.keys {
        ClickKeepsConsistent(s, Menus.BackOptions("Video", look), start);
      } else if s.menuState == AudioMenu && KeyEscape !in input.keys {
        ClickKeepsConsistent(s, Menus.BackOptions("Audio", look), start);
      }
    }
  }

  lemma {:induction false} ClickKeepsConsistent(s: State, options: seq<Menus.MenuOption>, start: LevelStart)
    requires Consistent(s) && CanStart(start) && s.menuType == MainMenu
    ensures Consistent(Menus.Click(s, options, start))
    ensures Menus.Click(s, options, start).menuType == MainMenu
    decreases |options|
  {
    if |options| > 0 {
      var input := s.inputState;
      if Menus.MouseIn(options[0], input.mouseX, input.mouseY) && input.buttons.left {
        ClickKeepsConsistent(Menus.Release(Menus.Exec(s, options[0].action, start)), options[1..], start);
      } else {
        ClickKeepsConsistent(s, options[1..], start);
      }
    }
  }

  /** A running frame, paused or not, never leaves an entry marked
      removable in the list: either the frame finished with `cleanup`, or
      the level was reloaded into an empty list. */
  lemma {:induction false} RunningFrameLeavesNoRemovable(s: State, t: Tick)
    requires Consistent(s) && CanStart(t.start) && s.gameState == Running
    ensures forall k :: 0 <= k < |HandleState(s, t).registry| ==> !HandleState(s, t).registry[k].removable
  {
    var r := HandleState(s, t);
    forall k | 0 <= k < |r.registry|
      ensures !r.registry[k].removable
    {
      assert r.registry[k] in r.registry;
    }
  }

  /** A life is lost only by dying, and exactly one: lives never drop by
      more than one per frame, and never below zero from zero. */
  lemma {:induction false} AtMostOneLifePerFrame(s: State, t: Tick)
    requires Consistent(s) && CanStart(t.start)
    ensures var r := HandleState(s, t);
      && (s.gameState == Running ==>
            (r.playerState.lives == s.playerState.lives || r.playerState.lives == s.playerState.lives - 1)
            && (0 <= s.playerState.lives ==> 0 <= r.playerState.lives))
      && (s.gameState != Running ==> r.playerState.lives == s.playerState.lives || r.playerState.lives == StartingLives)
  {
    if s.gameState == Running {
      RunningLives(s, t);
    } else if s.gameState == Menu {
      MenuLives(s, t.look, t.start);
    }
  }

  lemma {:induction false} RunningLives(s: State, t: Tick)
    requires Consistent(s) && CanStart(t.start) && s.gameState == Running
    ensures var r := HandleState(s, t);
      r.playerState.lives == s.playerState.lives || r.playerState.lives == s.playerState.lives - 1
    ensures var r := HandleState(s, t);
      0 <= s.playerState.lives ==> 0 <= r.playerState.lives
  {
    var r := HandleState(s, t);
    if !s.paused {
      var m := Simulate(s, t);
      assert m.state.playerState.lives == s.playerState.lives;
      if Died(m) && s.playerState.lives != 0 {
        assert r.playerState.lives == s.playerState.lives - 1;
      } else {
        assert r.playerState.lives == s.playerState.lives;
      }
    }
  }

  lemma {:induction false} MenuLives(s: State, look: Menus.Look, start: LevelStart)
    requires CanStart(start)
    ensures var r := Menus.HandleMenu(s, look, start);
      r.playerState.lives == s.playerState.lives || r.playerState.lives == StartingLives
  {
    if s.gameState == Menu && s.menuType == MainMenu {
      var input := s.inputState;
      if s.menuState == TitleMenu && KeyEscape !in input.keys && KeyReturn !in input.keys {
        ClickLives(s, Menus.TitleOptions(look), start);
      } else if s.menuState == OptionsMenu && KeyEscape !in input.keys {
        ClickLives(s, Menus.OptionsOptions(look), start);
      } else if s.menuState == VideoMenu && KeyEscape !in input.keys {
        ClickLives(s, Menus.BackOptions("Video", look), start);
      } else if s.menuState == AudioMenu && KeyEscape !in input.keys {
        ClickLives(s, Menus.BackOptions("Audio", look), start);
      }
    }
  }

  lemma {:induction false} ClickLives(s: State, options: seq<Menus.MenuOption>, start: LevelStart)
    requires CanStart(start)
    ensures var r := Menus.Click(s, options, start);
      r.playerState.lives == s.playerState.lives || r.playerState.lives == StartingLives
    decreases |options|
  {
    if |options| > 0 {
      var input := s.inputState;
      if Menus.MouseIn(options[0], input.mouseX, input.mouseY) && input.buttons.left {
        var next := Menus.Release(Menus.Exec(s, options[0].action, start));
        Menus.ReleasedClickChangesNothing(next, options[1..], start);
      } else {
        ClickLives(s, options[1..], start);
      }
    }
  }

  // ----- event_loop

  /** The SDL events the loop handles. */
  datatype Event =
    | MouseMotion(x: int, y: int)
    | MouseButton(x: int, y: int, button: int, pressed: bool)
    | KeyUp(key: int)
    | KeyDown(key: int)
    | WindowClose
    | OtherEvent

  const ButtonLeft: int := 1
  const ButtonMiddle: int := 2
  const ButtonRight: int := 3

  /** How a key-up of Escape or 'q' treats `keystate`: as written it stays
      set; `Released` clears it as every other key-up does. */
  datatype KeyUps = StickyEscape | Released

  /** The keys that have their own key-down branch and so never enter
      `keystate` through a key-down. */
  predicate CommandKey(k: int) {
    k == KeyA || k == KeyE || k == KeyF || k == KeyP || k == KeyS
  }

  /** The button a mouse event changes. */
  function Press(b: MouseButtons, button: int, pressed: bool): (r: MouseButtons)
    ensures button == ButtonLeft ==> r == b.(left := pressed)
    ensures button == ButtonMiddle ==> r == b.(middle := pressed)
    ensures button == ButtonRight ==> r == b.(right := pressed)
    ensures button != ButtonLeft && button != ButtonMiddle && button != ButtonRight ==> r == b
  {
    if button == ButtonLeft then b.(left := pressed)
    else if button == ButtonMiddle then b.(middle := pressed)
    else if button == ButtonRight then b.(right := pressed)
    else b
  }

  function Keys(s: State, keys: set<int>): (r: State)
    ensures r.inputState.keys == keys
    ensures r.(inputState := s.inputState) == s && r.inputState.(keys := s.inputState.keys) == s.inputState
  {
    s.(inputState := s.inputState.(keys := keys))
  }

  /** The key-up of Escape or 'q' after its action: as written the key
      stays in `keystate`; with `Released` it is cleared. */
  function ReleaseKey(mode: KeyUps, s: State, k: int): State {
    if mode == Released then Keys(s, s.inputState.keys - {k}) else s
  }

  /** One event of the loop. */
  function HandleEvent(mode: KeyUps, s: State, e: Event, start: LevelStart): (r: State)
    requires CanStart(start)
    ensures e.WindowClose? ==> r == ExitGame(s)
    ensures e.OtherEvent? ==> r == s
    ensures e.MouseMotion? ==> r == s.(inputState := s.inputState.(mouseX := e.x, mouseY := e.y))
    ensures e.MouseButton? ==>
      r == s.(inputState := s.inputState.(mouseX := e.x, mouseY := e.y,
                                          buttons := Press(s.inputState.buttons, e.button, e.pressed)))
    ensures e.KeyDown? && e.key == KeyF ==> r == s.(fps := !s.fps)
    ensures e.KeyDown? && e.key == KeyP ==> r == (if s.gameState == Running then s.(paused := !s.paused) else s)
    ensures e.KeyDown? && (e.key == KeyA || e.key == KeyE || e.key == KeyS) ==> r == s
    ensures e.KeyDown? && !CommandKey(e.key) ==> r == Keys(s, s.inputState.keys + {e.key})
    ensures e.KeyUp? && (e.key == KeyEscape || e.key == KeyQ) && s.gameState == Running ==>
      r.gameState == Quit && r.inputState.keys == (if mode == Released then s.inputState.keys - {e.key} else s.inputState.keys)
    ensures e.KeyUp? && (e.key == KeyEscape || e.key == KeyQ) && s.gameState == Running ==>
      r == ReleaseKey(mode, ExitGame(s), e.key)
    ensures e.KeyUp? && e.key == KeyEscape && s.gameState == EndGame ==> r == ReleaseKey(mode, ExitGame(s), KeyEscape)
    ensures e.KeyUp? && e.key == KeyEscape && s.gameState == Story ==> r == ReleaseKey(mode, NewGame(s, start), KeyEscape)
    ensures e.KeyUp? && e.key == KeyEscape && s.gameState != Running && s.gameState != EndGame && s.gameState != Story ==>
      r == ReleaseKey(mode, s, KeyEscape)
    ensures e.KeyUp? && e.key == KeyQ && s.gameState != Running ==> r == ReleaseKey(mode, s, KeyQ)
    ensures e.KeyUp? && e.key != KeyEscape && e.key != KeyQ ==>
      r == Keys(if s.gameState == EndGame then Menus.EnterMainMenu(s) else s, s.inputState.keys - {e.key})
  {
    match e
    case MouseMotion(x, y) => s.(inputState := s.inputState.(mouseX := x, mouseY := y))
    case MouseButton(x, y, button, pressed) =>
      s.(inputState := s.inputState.(mouseX := x, mouseY := y, buttons := Press(s.inputState.buttons, button, pressed)))
    case KeyUp(k) =>
      if k == KeyEscape then
        var acted := if s.gameState == Running || s.gameState == EndGame then ExitGame(s)
                     else if s.gameState == Story then NewGame(s, start)
                     else s;
        ReleaseKey(mode, acted, k)
      else if k == KeyQ then
        ReleaseKey(mode, if s.gameState == Running then ExitGame(s) else s, k)
      else
        Keys(if s.gameState == EndGame then Menus.EnterMainMenu(s) else s, s.inputState.keys - {k})
    case KeyDown(k) =>
      if k == KeyF then s.(fps := !s.fps)
      else if k == KeyP then (if s.gameState == Running then s.(paused := !s.paused) else s)
      else if CommandKey(k) then s
      else Keys(s, s.inputState.keys + {k})
    case WindowClose => ExitGame(s)
    case OtherEvent => s
  }

  /** The queued events, in order. */
  function HandleEvents(mode: KeyUps, s: State, events: seq<Event>, start: LevelStart): (r: State)
    requires CanStart(start)
    ensures Consistent(s) ==> Consistent(r)
    ensures s.gameState == Quit ==> r.gameState == Quit
    ensures WindowClose in events ==> r.gameState == Quit
    decreases |events|
  {
    if |events| == 0 then s
    else
      var next := HandleEvent(mode, s, events[0], start);
      assert WindowClose in events ==> events[0] == WindowClose || WindowClose in events[1..];
      HandleEvents(mode, next, events[1..], start)
  }

  /** `event_loop`: nothing at all once quitting; otherwise the queued
      events, then one frame. */
  function EventLoop(mode: KeyUps, s: State, events: seq<Event>, t: Tick): (r: State)
    requires Consistent(s) && CanStart(t.start)
    ensures s.gameState == Quit ==> r == s
    ensures s.gameState != Quit ==> r == HandleState(HandleEvents(mode, s, events, t.start), t)
    ensures Consistent(r)
  {
    if s.gameState == Quit then s
    else HandleState(HandleEvents(mode, s, events, t.start), t)
  }

  /** Pause is a toggle: two presses of 'p' while running restore the
      state; outside a running game 'p' does nothing. */
  lemma {:induction false} PauseTogglesBack(mode: KeyUps, s: State, start: LevelStart)
    requires CanStart(start)
    ensures HandleEvent(mode, HandleEvent(mode, s, KeyDown(KeyP), start), KeyDown(KeyP), start) == s
    ensures s.gameState != Running ==> HandleEvent(mode, s, KeyDown(KeyP), start) == s
  {
  }

  /** A plain key pressed and released leaves `keystate` as it found it
      (outside the end-game screen, whose key-ups open the menu). */
  lemma {:induction false} KeyPressIsUndone(mode: KeyUps, s: State, k: int, start: LevelStart)
    requires CanStart(start)
    requires !CommandKey(k) && k != KeyEscape && k != KeyQ && k !in s.inputState.keys && s.gameState != EndGame
    ensures HandleEvent(mode, HandleEvent(mode, s, KeyDown(k), start), KeyUp(k), start) == s
  {
    var down := HandleEvent(mode, s, KeyDown(k), start);
    assert down.inputState.keys - {k} == s.inputState.keys;
  }

  /** A queue of one event is that event. */
  lemma {:induction false} SingleEvent(mode: KeyUps, s: State, e: Event, start: LevelStart)
    requires CanStart(start)
    ensures HandleEvents(mode, s, [e], start) == HandleEvent(mode, s, e, start)
  {
    assert [e][1..] == [];
    var next := HandleEvent(mode, s, e, start);
    assert HandleEvents(mode, next, [], start) == next;
  }

  /** With `Released` key-ups every released key leaves `keystate`. */
  lemma {:induction false} KeyUpReleases(s: State, k: int, start: LevelStart)
    requires CanStart(start)
    ensures k !in HandleEvent(Released, s, KeyUp(k), start).inputState.keys
  {
  }

  /** As written, releasing Escape leaves it in `keystate`. */
  lemma {:induction false} EscapeStaysPressed(s: State, start: LevelStart)
    requires CanStart(start) && s.gameState == Menu
    ensures HandleEvent(StickyEscape, s, KeyUp(KeyEscape), start).inputState.keys == s.inputState.keys
  {
  }

  /** The main menu's options screen with nothing held. */
  predicate InOptionsMenu(s: State) {
    && s.gameState == Menu && s.menuType == MainMenu && s.menuState == OptionsMenu
    && s.inputState.keys == {} && !s.inputState.buttons.left
  }

  /** As written, one press of Escape on the options screen, released on
      the next frame, quits the game: the first frame goes back to the
      title, and the second sees Escape still set and quits from there. */
  lemma {:induction false} EscapeFromOptionsQuits(s: State, t: Tick)
    requires Consistent(s) && CanStart(t.start) && InOptionsMenu(s)
    ensures var first := EventLoop(StickyEscape, s, [KeyDown(KeyEscape)], t);
      && first.gameState == Menu && first.menuState == TitleMenu
      && EventLoop(StickyEscape, first, [KeyUp(KeyEscape)], t).gameState == Quit
  {
    var pressed := HandleEvents(StickyEscape, s, [KeyDown(KeyEscape)], t.start);
    SingleEvent(StickyEscape, s, KeyDown(KeyEscape), t.start);
    assert s.inputState.keys + {KeyEscape} == {KeyEscape};
    assert pressed == HandleEvent(StickyEscape, s, KeyDown(KeyEscape), t.start) == Keys(s, {KeyEscape});
    var first := EventLoop(StickyEscape, s, [KeyDown(KeyEscape)], t);
    assert first == pressed.(menuState := TitleMenu);
    var released := HandleEvents(StickyEscape, first, [KeyUp(KeyEscape)], t.start);
    SingleEvent(StickyEscape, first, KeyUp(KeyEscape), t.start);
    assert released == HandleEvent(StickyEscape, first, KeyUp(KeyEscape), t.start) == first;
  }

  /** With key-ups releasing every key, the same press climbs exactly one
      level: the game is back on the title screen with nothing held. */
  lemma {:induction false} EscapeClimbsOneLevel(s: State, t: Tick)
    requires Consistent(s) && CanStart(t.start) && InOptionsMenu(s)
    ensures var first := EventLoop(Released, s, [KeyDown(KeyEscape)], t);
      EventLoop(Released, first, [KeyUp(KeyEscape)], t) == s.(menuState := TitleMenu)
  {
    var pressed := HandleEvents(Released, s, [KeyDown(KeyEscape)], t.start);
    SingleEvent(Released, s, KeyDown(KeyEscape), t.start);
    assert s.inputState.keys + {KeyEscape} == {KeyEscape};
    assert pressed == HandleEvent(Released, s, KeyDown(KeyEscape), t.start) == Keys(s, {KeyEscape});
    var first := EventLoop(Released, s, [KeyDown(KeyEscape)], t);
    assert first == pressed.(menuState := TitleMenu);
    var released := HandleEvents(Released, first, [KeyUp(KeyEscape)], t.start);
    SingleEvent(Released, first, KeyUp(KeyEscape), t.start);
    assert first.inputState.keys - {KeyEscape} == {};
    assert released == HandleEvent(Released, first, KeyUp(KeyEscape), t.start) == s.(menuState := TitleMenu);
    Menus.ReleasedClickChangesNothing(released, Menus.TitleOptions(t.look), t.start);
  }
}

=== FILE: menus.dfy ===
/** The menus (`menu.cc`): the option lists and their layout, mouse
    hit-testing, and the key and click handling of the main and in-game
    menus. The font's cell size and the window are inputs. */
module Menus {
  import opened CArith
  import opened Session

  /** What a menu entry does when clicked; titles do nothing. */
  datatype Action = NoAction | NewGameAction | ExitGameAction | ToTitle | ToOptions | ToVideo | ToAudio

  datatype MenuOption = MenuOption(text: string, x: int, y: int, width: int, height: int, action: Action)

  /** The menu font's cell size, the window width and the window title
      (which carries the build's version number). */
  datatype Look = Look(fontWidth: int, fontHeight: int, windowWidth: int, windowTitle: string)

  const TitleY: int := 10
  const TitleOptionSpacing: int := 15
  const OptionSpacing: int := 5

  /** `MenuOption::mouse_in`: inside the rectangle, edges included. */
  predicate MouseIn(o: MenuOption, mouseX: int, mouseY: int) {
    o.x <= mouseX <= o.x + o.width && o.y <= mouseY <= o.y + o.height
  }

  /** `main_menu`: the main menu's title screen. */
  function EnterMainMenu(s: State): (r: State)
    ensures r.gameState == Menu && r.menuType == MainMenu && r.menuState == TitleMenu
    ensures r.(gameState := s.gameState, menuType := s.menuType, menuState := s.menuState) == s
  {
    s.(gameState := Menu, menuType := MainMenu, menuState := TitleMenu)
  }

  /** `game_menu`: the in-game menu's title screen. */
  function EnterGameMenu(s: State): (r: State)
    ensures r.gameState == Menu && r.menuType == GameMenu && r.menuState == TitleMenu
    ensures r.(gameState := s.gameState, menuType := s.menuType, menuState := s.menuState) == s
  {
    s.(gameState := Menu, menuType := GameMenu, menuState := TitleMenu)
  }

  /** The menu screen each `to_*` function switches to. */
  function Target(a: Action): (m: MenuState)
    requires a.ToTitle? || a.ToOptions? || a.ToVideo? || a.ToAudio?
  {
    match a
    case ToTitle => TitleMenu
    case ToOptions => OptionsMenu
    case ToVideo => VideoMenu
    case ToAudio => AudioMenu
  }

  /** `MenuOption::exec`: run the entry's function, if it has one. The
      `to_*` functions change only the menu screen. */
  function Exec(s: State, a: Action, start: LevelStart): (r: State)
    requires CanStart(start)
    ensures a.NoAction? ==> r == s
    ensures a.ExitGameAction? ==> r == ExitGame(s)
    ensures a.NewGameAction? ==> r == NewGame(s, start)
    ensures a.ToTitle? || a.ToOptions? || a.ToVideo? || a.ToAudio? ==> r == s.(menuState := Target(a))
  {
    match a
    case NoAction => s
    case NewGameAction => NewGame(s, start)
    case ExitGameAction => ExitGame(s)
    case _ => s.(menuState := Target(a))
  }

  /** The horizontal placement: centred on half the window width, the
      text's half-width truncated to an integer. */
  function CentredX(text: string, look: Look): int {
    look.windowWidth / 2 - Trunc((|text| as real / 2.0) * look.fontWidth as real)
  }

  /** One entry of a list, its text one font cell high. */
  function Entry(text: string, y: int, action: Action, look: Look): (o: MenuOption)
    ensures o.text == text && o.y == y && o.action == action && o.height == look.fontHeight
    ensures o.width == |text| * look.fontWidth
  {
    MenuOption(text, CentredX(text, look), y, |text| * look.fontWidth, look.fontHeight, action)
  }

  /** The entries' vertical layout: the title at 10, the first option 15
      plus a line below it, each later option 5 plus a line below the one
      before. */
  predicate LaidOut(options: seq<MenuOption>, look: Look) {
    && |options| >= 1
    && options[0].y == TitleY && options[0].action == NoAction
    && (|options| >= 2 ==> options[1].y == options[0].y + TitleOptionSpacing + look.fontHeight)
    && (forall i :: 2 <= i < |options| ==> options[i].y == options[i - 1].y + OptionSpacing + look.fontHeight)
    && (forall i :: 0 <= i < |options| ==> options[i].height == look.fontHeight)
  }

  /** The y of option `i` in a laid-out list, in closed form. */
  lemma {:induction false} OptionY(options: seq<MenuOption>, look: Look, i: nat)
    requires LaidOut(options, look) && 1 <= i < |options|
    ensures options[i].y == TitleY + TitleOptionSpacing + look.fontHeight + (i - 1) * (OptionSpacing + look.fontHeight)
    decreases i
  {
    if i > 1 {
      OptionY(options, look, i - 1);
    }
  }

  /** The options below the title never overlap when the font's height is
      non-negative: each starts below the previous one's bottom edge. */
  lemma {:induction false} OptionsDoNotOverlap(options: seq<MenuOption>, look: Look, i: nat)
    requires LaidOut(options, look) && 1 <= i < |options| && 0 <= look.fontHeight
    ensures options[i].y > options[i - 1].y + options[i - 1].height
  {
  }

  /** `build_title_option_list`: the window title, then New Game, Options
      and Exit. */
  function TitleOptions(look: Look): (r: seq<MenuOption>)
    ensures LaidOut(r, look) && |r| == 4
    ensures r[1].action == NewGameAction && r[2].action == ToOptions && r[3].action == ExitGameAction
  {
    var y1 := TitleY + TitleOptionSpacing + look.fontHeight;
    var y2 := y1 + OptionSpacing + look.fontHeight;
    var y3 := y2 + OptionSpacing + look.fontHeight;
    [Entry(look.windowTitle, TitleY, NoAction, look), Entry("New Game", y1, NewGameAction, look),
     Entry("Options", y2, ToOptions, look), Entry("Exit", y3, ExitGameAction, look)]
  }

  /** `build_options_option_list`: Options, then Video, Audio and Back. */
  function OptionsOptions(look: Look): (r: seq<MenuOption>)
    ensures LaidOut(r, look) && |r| == 4
    ensures r[1].action == ToVideo && r[2].action == ToAudio && r[3].action == ToTitle
  {
    var y1 := TitleY + TitleOptionSpacing + look.fontHeight;
    var y2 := y1 + OptionSpacing + look.fontHeight;
    var y3 := y2 + OptionSpacing + look.fontHeight;
    [Entry("Options", TitleY, NoAction, look), Entry("Video", y1, ToVideo, look),
     Entry("Audio", y2, ToAudio, look), Entry("Back", y3, ToTitle, look)]
  }

  /** `build_video_option_list` and `build_audio_option_list`: a title and
      Back, which returns to the options screen. */
  function BackOptions(title: string, look: Look): (r: seq<MenuOption>)
    ensures LaidOut(r, look) && |r| == 2 && r[0].text == title
    ensures r[1].action == ToOptions
  {
    [Entry(title, TitleY, NoAction, look), Entry("Back", TitleY + TitleOptionSpacing + look.fontHeight, ToOptions, look)]
  }

  /** The index of the first entry under the mouse, if any. */
  function FirstHit(options: seq<MenuOption>, mouseX: int, mouseY: int): (i: nat)
    ensures i <= |options|
    ensures i < |options| ==> MouseIn(options[i], mouseX, mouseY)
    ensures forall k :: 0 <= k < i ==> !MouseIn(options[k], mouseX, mouseY)
  {
    if |options| == 0 then 0
    else if MouseIn(options[0], mouseX, mouseY) then 0
    else 1 + FirstHit(options[1..], mouseX, mouseY)
  }

  /** The left mouse button, released. */
  function Release(s: State): (r: State)
    ensures !r.inputState.buttons.left
    ensures r.(inputState := s.inputState) == s
    ensures r.inputState.(buttons := s.inputState.buttons) == s.inputState
    ensures r.inputState.buttons.(left := s.inputState.buttons.left) == s.inputState.buttons
  {
    s.(inputState := s.inputState.(buttons := s.inputState.buttons.(left := false)))
  }

  /** The loop over the entries: while the left button is down, an entry
      under the mouse runs and releases the button. */
  function Click(s: State, options: seq<MenuOption>, start: LevelStart): (r: State)
    requires CanStart(start)
    decreases |options|
  {
    if |options| == 0 then s
    else
      var input := s.inputState;
      var next := if MouseIn(options[0], input.mouseX, input.mouseY) && input.buttons.left
                  then Release(Exec(s, options[0].action, start))
                  else s;
      Click(next, options[1..], start)
  }

  /** At most one entry runs per click: the first one under the mouse, and
      the button is released even when that entry is a title that does
      nothing. With the button up, or the mouse over no entry, nothing
      changes. */
  lemma {:induction false} ClickRunsFirstHit(s: State, options: seq<MenuOption>, start: LevelStart)
    requires CanStart(start)
    ensures var input := s.inputState;
      var i := FirstHit(options, input.mouseX, input.mouseY);
      && (!input.buttons.left || i == |options| ==> Click(s, options, start) == s)
      && (input.buttons.left && i < |options| ==>
          Click(s, options, start) == Release(Exec(s, options[i].action, start)))
    decreases |options|
  {
    var input := s.inputState;
    if |options| > 0 {
      if MouseIn(options[0], input.mouseX, input.mouseY) && input.buttons.left {
        var next := Release(Exec(s, options[0].action, start));
        ReleasedClickChangesNothing(next, options[1..], start);
      } else {
        ClickRunsFirstHit(s, options[1..], start);
      }
    }
  }

  /** Once the button is up, the remaining entries do nothing, whatever an
      earlier entry changed. */
  lemma {:induction false} ReleasedClickChangesNothing(s: State, options: seq<MenuOption>, start: LevelStart)
    requires CanStart(start) && !s.inputState.buttons.left
    ensures Click(s, options, start) == s
    decreases |options|
  {
    if |options| > 0 {
      ReleasedClickChangesNothing(s, options[1..], start);
    }
  }

  /** `handle_main_menu`: Escape leaves the current screen (quitting from
      the title), Return on the title starts a new game; otherwise the
      screen's list is built and a click on it handled. */
  function HandleMainMenu(s: State, look: Look, start: LevelStart): (r: State)
    requires CanStart(start)
    ensures var escape := KeyEscape in s.inputState.keys;
      && (s.menuState == TitleMenu && escape ==> r == ExitGame(s))
      && (s.menuState == TitleMenu && !escape && KeyReturn in s.inputState.keys ==> r == NewGame(s, start))
      && (s.menuState == OptionsMenu && escape ==> r == s.(menuState := TitleMenu))
      && ((s.menuState == VideoMenu || s.menuState == AudioMenu) && escape ==> r == s.(menuState := OptionsMenu))
      && (s.menuState == NoMenuState ==> r == s)
    ensures KeyEscape !in s.inputState.keys ==>
      && (s.menuState == TitleMenu && KeyReturn !in s.inputState.keys ==> r == Click(s, TitleOptions(look), start))
      && (s.menuState == OptionsMenu ==> r == Click(s, OptionsOptions(look), start))
      && (s.menuState == VideoMenu ==> r == Click(s, BackOptions("Video", look), start))
      && (s.menuState == AudioMenu ==> r == Click(s, BackOptions("Audio", look), start))
  {
    var keys := s.inputState.keys;
    match s.menuState
    case TitleMenu =>
      if KeyEscape in keys then ExitGame(s)
      else if KeyReturn in keys then NewGame(s, start)
      else Click(s, TitleOptions(look), start)
    case OptionsMenu =>
      if KeyEscape in keys then s.(menuState := TitleMenu) else Click(s, OptionsOptions(look), start)
    case VideoMenu =>
      if KeyEscape in keys then s.(menuState := OptionsMenu) else Click(s, BackOptions("Video", look), start)
    case AudioMenu =>
      if KeyEscape in keys then s.(menuState := OptionsMenu) else Click(s, BackOptions("Audio", look), start)
    case NoMenuState => s
  }

  /** `handle_game_menu`: Escape on the title resumes the game, Escape on
      the options returns to the title, Escape on video or audio returns to
      the options; without Escape nothing changes. */
  function HandleGameMenu(s: State): (r: State)
    ensures KeyEscape !in s.inputState.keys ==> r == s
    ensures KeyEscape in s.inputState.keys ==>
      && (s.menuState == TitleMenu ==> r == s.(gameState := Running))
      && (s.menuState == OptionsMenu ==> r == s.(menuState := TitleMenu))
      && (s.menuState == VideoMenu || s.menuState == AudioMenu ==> r == s.(menuState := OptionsMenu))
      && (s.menuState == NoMenuState ==> r == s)
  {
    if KeyEscape !in s.inputState.keys then s
    else
      match s.menuState
      case TitleMenu => s.(gameState := Running)
      case OptionsMenu => s.(menuState := TitleMenu)
      case VideoMenu => s.(menuState := OptionsMenu)
      case AudioMenu => s.(menuState := OptionsMenu)
      case NoMenuState => s
  }

  /** Escaping in the in-game menu climbs one level: from video or audio it
      takes three presses to get back into the game. */
  lemma {:induction false} GameMenuEscapesToGame(s: State)
    requires s.menuState == VideoMenu && KeyEscape in s.inputState.keys
    ensures HandleGameMenu(HandleGameMenu(HandleGameMenu(s))) == s.(gameState := Running, menuState := TitleMenu)
  {
  }

  /** `handle_menu`: only in the menu state, dispatched on the menu type. */
  function HandleMenu(s: State, look: Look, start: LevelStart): (r: State)
    requires CanStart(start)
    ensures s.gameState != Menu || s.menuType == NoMenu ==> r == s
    ensures s.gameState == Menu && s.menuType == MainMenu ==> r == HandleMainMenu(s, look, start)
    ensures s.gameState == Menu && s.menuType == GameMenu ==> r == HandleGameMenu(s)
  {
    if s.gameState != Menu then s
    else if s.menuType == MainMenu then HandleMainMenu(s, look, start)
    else if s.menuType == GameMenu then HandleGameMenu(s)
    else s
  }
}

=== FILE: options.dfy ===
/** Optional values, standing for the source's null pointers and "no index"
    results, and results that either succeed or name the failure. */
module Options {
  datatype Option<T> = None | Some(value: T)

  datatype Result<T, E> = Ok(value: T) | Err(error: E)
}

=== FILE: physics.dfy ===
/** One physics step of an entity (`Entity::animate`) and the registry-wide
    dispatch (`Entity::all_think`, `Entity::all_animate`), with the
    class-specific hooks chosen by the entity's kind. */
module Physics {
  import opened CArith
  import opened Vectors
  import opened Options
  import opened World
  import opened Entities
  import Blaster
  import Skratch
  import BlueCollarSuit

  // ----- the hooks, dispatched on the kind

  /** `think` of a registered entity: only a shot does anything. */
  function Think(e: Entity, cameraX: int, windowWidth: int): (r: Entity)
    ensures r.(removable := e.removable) == e
    ensures e.removable ==> r == e
    ensures !e.kind.ShotKind? ==> r == e
  {
    match e.kind
    case ShotKind => Blaster.ShotThink(e, cameraX, windowWidth)
    case SuitKind(_, _) => BlueCollarSuit.Think(e)
    case _ => e
  }

  /** The same body: everything but the removable flag, the player's
      jump state and blaster, and the suits' pose, is as before. */
  predicate SameBody(a: Entity, b: Entity) {
    && a.address == b.address && a.position == b.position && a.velocity == b.velocity
    && a.acceleration == b.acceleration && a.sprite == b.sprite
    && a.animationSeconds == b.animationSeconds && a.mass == b.mass
    && a.kind.SkratchKind? == b.kind.SkratchKind? && a.kind.SuitKind? == b.kind.SuitKind?
    && a.kind.ShotKind? == b.kind.ShotKind? && a.kind.BlasterKind? == b.kind.BlasterKind?
  }

  /** `on_collision`, dispatched on the reacting entity's kind. A reaction
      never moves anything: it can only mark entities removable and hand the
      player a blaster. */
  function OnCollision(e: Entity, other: Entity, shootSound: int): (r: Contact)
    ensures SameBody(r.self, e) && (e.removable ==> r.self.removable)
    ensures r.other == other || r.other == SetRemovable(other)
    ensures !e.kind.SkratchKind? && !e.kind.SuitKind? ==> r == Contact(e, other)
  {
    match e.kind
    case SkratchKind(_, _, _, _, _) => Skratch.OnCollision(e, other, shootSound)
    case SuitKind(_, _) => BlueCollarSuit.OnCollision(e, other)
    case _ => Contact(e, other)
  }

  /** An entity touching itself has no effect, whatever its kind. */
  lemma {:induction false} SelfContactIsInert(e: Entity, shootSound: int)
    ensures OnCollision(e, e, shootSound) == Contact(e, e)
  {
  }

  /** `on_animate`, dispatched on the kind: the player's and the suit's
      clamps, the shot's self-removal, nothing for the others. */
  function OnAnimate(e: Entity, dt: real, flags: Flags, w: World, sizes: SpriteSizes): (r: Entity)
    ensures r.address == e.address && r.acceleration == e.acceleration && r.mass == e.mass
    ensures r.removable == (e.removable || (e.kind.ShotKind? && r.removable))
    ensures !e.kind.SkratchKind? && !e.kind.SuitKind? && !e.kind.ShotKind? ==> r == e
    ensures r.kind.SkratchKind? == e.kind.SkratchKind?
  {
    match e.kind
    case SkratchKind(_, _, _, _, _) => Skratch.OnAnimate(e, dt, flags)
    case SuitKind(_, _) => BlueCollarSuit.OnAnimate(e, dt, w, sizes)
    case ShotKind => Blaster.ShotOnAnimate(e, flags)
    case _ => e
  }

  // ----- the kinematics of Entity::animate

  /** The friction term added to the horizontal acceleration after a floor
      or ceiling contact. */
  function FrictionTerm(vx: real, mass: real): real {
    if vx != 0.0 then (if vx > 1.0 then -Friction * mass else Friction * mass) else 0.0
  }

  /** The friction term opposes a speed above 1 and any leftward speed, but
      for a speed in (0, 1] it pushes in the direction of motion. */
  lemma {:induction false} FrictionDirection(vx: real, mass: real)
    requires 0.0 < mass
    ensures vx > 1.0 ==> FrictionTerm(vx, mass) < 0.0
    ensures vx < 0.0 ==> FrictionTerm(vx, mass) > 0.0
    ensures 0.0 < vx <= 1.0 ==> FrictionTerm(vx, mass) > 0.0
    ensures vx == 0.0 ==> FrictionTerm(vx, mass) == 0.0
  {
  }

  /** `s2 = s1 + v*t + a*t*t/2`. */
  function Candidate(e: Entity, dt: real): (c: Vector)
    ensures c.x == e.position.x + e.velocity.x * dt + e.acceleration.x * dt * dt / 2.0
    ensures c.y == e.position.y + e.velocity.y * dt + e.acceleration.y * dt * dt / 2.0
    ensures c.z == e.position.z + e.velocity.z * dt + e.acceleration.z * dt * dt / 2.0
  {
    Add(Add(e.position, Scale(e.velocity, dt)), Divide(Scale(Scale(e.acceleration, dt), dt), 2.0))
  }

  /** A sprite of non-negative size: the only case `animate` moves. */
  predicate HasExtent(e: Entity, sizes: SpriteSizes) {
    0 <= Width(e, sizes) && 0 <= Height(e, sizes)
  }

  /** The entity after gravity, its resolved position, and the flags. */
  datatype Motion = Motion(entity: Entity, position: Vector, flags: Flags)

  function WithGravity(e: Entity): (r: Entity)
    ensures r.acceleration == e.acceleration.(y := e.acceleration.y + Gravity * e.mass)
    ensures r.(acceleration := e.acceleration) == e
  {
    e.(acceleration := AddY(e.acceleration, Gravity * e.mass))
  }

  /** The response to the world's flags. A side flag stops horizontal
      motion; a floor or ceiling flag stops vertical motion and applies
      friction; with neither of those two, the velocity integrates the
      acceleration. */
  function Respond(g: Entity, flags: Flags, dt: real): (r: Entity)
    ensures r == g.(velocity := r.velocity, acceleration := r.acceleration)
    ensures var side := LeftCollision in flags || RightCollision in flags;
      var vertical := BottomCollision in flags || TopCollision in flags;
      var vx := if side then 0.0 else g.velocity.x;
      var ax := if side then 0.0 else g.acceleration.x;
      && (side ==> r.velocity.x == 0.0)
      && (vertical ==>
            && r.velocity == Vector(vx, 0.0, g.velocity.z)
            && r.acceleration == Vector(ax + FrictionTerm(vx, g.mass), 0.0, g.acceleration.z))
      && (!vertical ==>
            && r.velocity == Vector(vx + ax * dt, g.velocity.y + g.acceleration.y * dt, g.velocity.z + g.acceleration.z * dt)
            && r.acceleration == Vector(ax, g.acceleration.y, g.acceleration.z))
  {
    var a1 :=
      if LeftCollision in flags || RightCollision in flags then
        g.(velocity := ClearX(g.velocity), acceleration := ClearX(g.acceleration))
      else g;
    if BottomCollision in flags || TopCollision in flags then
      var c := a1.(velocity := ClearY(a1.velocity), acceleration := ClearY(a1.acceleration));
      c.(acceleration := AddX(c.acceleration, FrictionTerm(c.velocity.x, c.mass)))
    else
      a1.(velocity := Add(a1.velocity, Scale(a1.acceleration, dt)))
  }

  /** The first half of `Entity::animate`: gravity, the candidate position,
      `World::collision` with the program's own block reads, then the
      response to the flags. The position itself is not yet committed. */
  function Move(e: Entity, dt: real, w: World, sizes: SpriteSizes): (r: Motion)
    requires HasBlockSize(w) && HasExtent(e, sizes)
    ensures Resolution(Some(r.position), r.flags) ==
      Collide(w, Some(Candidate(WithGravity(e), dt)), Width(e, sizes), Height(e, sizes))
    ensures ResolveInside(w, WithinBlocks, Some(Candidate(WithGravity(e), dt)), Width(e, sizes), Height(e, sizes)) ==>
      Resolution(Some(r.position), r.flags) ==
      Resolve(w, Unchecked, Some(Candidate(WithGravity(e), dt)), Width(e, sizes), Height(e, sizes))
    ensures r.entity == Respond(WithGravity(e), r.flags, dt)
  {
    var g := WithGravity(e);
    var res := Collide(w, Some(Candidate(g, dt)), Width(e, sizes), Height(e, sizes));
    Motion(Respond(g, res.flags, dt), res.position.value, res.flags)
  }

  /** Gravity: a step with no floor or ceiling contact ends with the weight
      added to the vertical acceleration, so a massless entity (a shot)
      keeps its vertical acceleration and speed. */
  lemma {:induction false} GravityAccumulates(e: Entity, dt: real, w: World, sizes: SpriteSizes)
    requires HasBlockSize(w) && HasExtent(e, sizes)
    requires BottomCollision !in Move(e, dt, w, sizes).flags && TopCollision !in Move(e, dt, w, sizes).flags
    ensures Move(e, dt, w, sizes).entity.acceleration.y == e.acceleration.y + Gravity * e.mass
    ensures e.mass == 0.0 ==> Move(e, dt, w, sizes).entity.acceleration.y == e.acceleration.y
    ensures e.mass == 0.0 && e.acceleration.y == 0.0 ==> Move(e, dt, w, sizes).entity.velocity.y == e.velocity.y
    ensures Move(e, dt, w, sizes).entity.position == e.position
  {
  }

  // ----- the entity-entity loop

  /** The reacting entity and the registry as the loop leaves them. */
  datatype Touches = Touches(me: Entity, registry: Registry)

  /** The loop over the registry from entry `j` on: every entry the
      overlap test (at the entity's pre-move position) reports gets an
      `on_collision` call. At the entity's own slot `self` the other entity
      is the moving entity itself. */
  function Interact(me: Entity, self: Option<nat>, reg: Registry, j: nat, sizes: SpriteSizes, shootSound: int): (r: Touches)
    requires j <= |reg|
    ensures |r.registry| == |reg|
    ensures SameBody(r.me, me) && (me.removable ==> r.me.removable)
    ensures forall k :: 0 <= k < |reg| ==> r.registry[k] == reg[k] || r.registry[k] == SetRemovable(reg[k])
    ensures forall k :: 0 <= k < j ==> r.registry[k] == reg[k]
    ensures self.Some? && self.value < |reg| ==> r.registry[self.value] == reg[self.value]
    decreases |reg| - j
  {
    if j == |reg| then Touches(me, reg)
    else if self == Some(j) then
      var c := OnCollision(me, me, shootSound);
      if Collides(me, me, sizes) then Interact(c.self, self, reg, j + 1, sizes, shootSound)
      else Interact(me, self, reg, j + 1, sizes, shootSound)
    else if Collides(me, reg[j], sizes) then
      var c := OnCollision(me, reg[j], shootSound);
      Interact(c.self, self, reg[j := c.other], j + 1, sizes, shootSound)
    else Interact(me, self, reg, j + 1, sizes, shootSound)
  }

  /** With nothing overlapping the entity, the loop changes nothing. */
  lemma {:induction false} InteractWithoutContact(me: Entity, self: Option<nat>, reg: Registry, j: nat,
                                                  sizes: SpriteSizes, shootSound: int)
    requires j <= |reg|
    requires forall k :: j <= k < |reg| && self != Some(k) ==> !Collides(me, reg[k], sizes)
    ensures Interact(me, self, reg, j, sizes, shootSound) == Touches(me, reg)
    decreases |reg| - j
  {
    if j < |reg| {
      SelfContactIsInert(me, shootSound);
      InteractWithoutContact(me, self, reg, j + 1, sizes, shootSound);
    }
  }

  // ----- Entity::animate

  /** What `animate` leaves: the entity, the registry and the flags. */
  datatype Step = Step(entity: Entity, registry: Registry, flags: Flags)

  /** `Entity::animate(dt, world)`. Without a sprite of non-negative size it
      only calls `on_animate` with no flags. Otherwise it moves, runs the
      entity-entity loop at the old position, commits the resolved position
      and then calls `on_animate` with the flags. */
  function Animate(me: Entity, self: Option<nat>, reg: Registry, dt: real, w: World, sizes: SpriteSizes,
                   shootSound: int): (r: Step)
    requires HasBlockSize(w)
    ensures |r.registry| == |reg|
    ensures forall k :: 0 <= k < |reg| ==> r.registry[k] == reg[k] || r.registry[k] == SetRemovable(reg[k])
    ensures self.Some? && self.value < |reg| ==> r.registry[self.value] == reg[self.value]
    ensures r.entity.address == me.address && (me.removable ==> r.entity.removable)
    ensures r.entity.kind.SkratchKind? == me.kind.SkratchKind?
    ensures !HasExtent(me, sizes) ==> r == Step(OnAnimate(me, dt, NoFlags, w, sizes), reg, NoFlags)
    ensures HasExtent(me, sizes) ==>
      var m := Move(me, dt, w, sizes);
      && r.flags == m.flags
      && r.entity.acceleration == m.entity.acceleration
      && (forall k :: 0 <= k < |reg| && self != Some(k) && !Collides(m.entity, reg[k], sizes) ==> r.registry[k] == reg[k])
  {
    if !HasExtent(me, sizes) then
      Step(OnAnimate(me, dt, NoFlags, w, sizes), reg, NoFlags)
    else
      var m := Move(me, dt, w, sizes);
      var t := Interact(m.entity, if self.Some? && self.value < |reg| then self else None, reg, 0, sizes, shootSound);
      assert forall k :: 0 <= k < |reg| && self != Some(k) && !Collides(m.entity, reg[k], sizes) ==> t.registry[k] == reg[k] by {
        InteractKeepsUntouched(m.entity, if self.Some? && self.value < |reg| then self else None, reg, 0, sizes, shootSound);
      }
      Step(OnAnimate(t.me.(position := m.position), dt, m.flags, w, sizes), t.registry, m.flags)
  }

  /** An entry the entity does not overlap at its pre-move position is left
      alone by the loop, whatever the entity overlaps after moving. */
  lemma {:induction false} InteractKeepsUntouched(me: Entity, self: Option<nat>, reg: Registry, j: nat,
                                                  sizes: SpriteSizes, shootSound: int)
    requires j <= |reg|
    ensures forall k :: j <= k < |reg| && self != Some(k) && !Collides(me, reg[k], sizes) ==>
      Interact(me, self, reg, j, sizes, shootSound).registry[k] == reg[k]
    decreases |reg| - j
  {
    if j < |reg| {
      var next :=
        if self == Some(j) then
          (if Collides(me, me, sizes) then OnCollision(me, me, shootSound).self else me)
        else if Collides(me, reg[j], sizes) then OnCollision(me, reg[j], shootSound).self
        else me;
      var reg' := if self != Some(j) && Collides(me, reg[j], sizes) then reg[j := OnCollision(me, reg[j], shootSound).other] else reg;
      InteractKeepsUntouched(next, self, reg', j + 1, sizes, shootSound);
      forall k | j <= k < |reg| && self != Some(k) && !Collides(me, reg[k], sizes)
        ensures Interact(me, self, reg, j, sizes, shootSound).registry[k] == reg[k]
      {
        if k > j {
          assert reg'[k] == reg[k];
          assert SameBody(next, me);
          CollidesDependsOnBody(me, next, reg[k], sizes);
        }
      }
    }
  }

  /** The overlap test looks only at positions and sprites. */
  lemma {:induction false} CollidesDependsOnBody(a: Entity, a': Entity, b: Entity, sizes: SpriteSizes)
    requires SameBody(a, a')
    ensures Collides(a, b, sizes) == Collides(a', b, sizes)
  {
  }

  /** A registered entity's step, written back into its own slot. */
  function AnimateAt(reg: Registry, i: nat, dt: real, w: World, sizes: SpriteSizes, shootSound: int): (r: Registry)
    requires HasBlockSize(w) && i < |reg|
    ensures |r| == |reg|
    ensures r[i].address == reg[i].address && (reg[i].removable ==> r[i].removable)
    ensures forall k :: 0 <= k < |reg| && k != i ==> r[k] == reg[k] || r[k] == SetRemovable(reg[k])
  {
    var s := Animate(reg[i], Some(i), reg, dt, w, sizes, shootSound);
    s.registry[i := s.entity]
  }

  /** `Entity::all_animate`: from entry `i` on, in list order, each entry not
      (yet) marked removable takes its step. Entries keep their places and
      identities, and a removable entry is never touched. */
  function AllAnimate(reg: Registry, i: nat, dt: real, w: World, sizes: SpriteSizes, shootSound: int): (r: Registry)
    requires HasBlockSize(w) && i <= |reg|
    ensures |r| == |reg|
    ensures forall k :: 0 <= k < |reg| ==> r[k].address == reg[k].address
    ensures forall k :: 0 <= k < |reg| && reg[k].removable ==> r[k] == reg[k]
    decreases |reg| - i
  {
    if i == |reg| then reg
    else if reg[i].removable then AllAnimate(reg, i + 1, dt, w, sizes, shootSound)
    else AllAnimate(AnimateAt(reg, i, dt, w, sizes, shootSound), i + 1, dt, w, sizes, shootSound)
  }

  /** A registry of removable entries is left exactly as it is. */
  lemma {:induction false} AllAnimateSkipsRemovable(reg: Registry, dt: real, w: World, sizes: SpriteSizes, shootSound: int)
    requires HasBlockSize(w)
    requires forall k :: 0 <= k < |reg| ==> reg[k].removable
    ensures AllAnimate(reg, 0, dt, w, sizes, shootSound) == reg
  {
    var r := AllAnimate(reg, 0, dt, w, sizes, shootSound);
    assert forall k :: 0 <= k < |reg| ==> r[k] == reg[k];
  }

  /** `Entity::all_think`: every entry not marked removable thinks, in list
      order; no `think` looks at another entry, so this is a map. */
  function AllThink(reg: Registry, cameraX: int, windowWidth: int): (r: Registry)
    ensures |r| == |reg|
    ensures forall k :: 0 <= k < |reg| ==>
      r[k] == (if reg[k].removable then reg[k] else Think(reg[k], cameraX, windowWidth))
  {
    if |reg| == 0 then []
    else
      var head := if reg[0].removable then reg[0] else Think(reg[0], cameraX, windowWidth);
      [head] + AllThink(reg[1..], cameraX, windowWidth)
  }

  /** `Skratch::animate`: the player's physics step against the registry (the
      player is not in it), then the camera follows the player. */
  function PlayerAnimate(player: Entity, reg: Registry, dt: real, w: World, sizes: SpriteSizes, shootSound: int,
                         windowWidth: int, windowHeight: int): (r: (Step, World))
    requires HasBlockSize(w)
    ensures r.0 == Animate(player, None, reg, dt, w, sizes, shootSound)
    ensures r.1 == Scroll(w, r.0.entity.position, windowWidth, windowHeight)
  {
    var s := Animate(player, None, reg, dt, w, sizes, shootSound);
    (s, Scroll(w, s.entity.position, windowWidth, windowHeight))
  }
}

=== FILE: session.dfy ===
/** The game's shared state (`State` and its parts) and the transitions of
    `game.cc` that the menus also use: `exit_game`, `new_game` and
    `restart_game`. The global entity list, the world and the player, which
    the program keeps behind pointers, are fields here. */
module Session {
  import opened Vectors
  import opened Options
  import opened World
  import opened Entities
  import opened Animation
  import opened WorldLoader
  import Skratch

  datatype GameState = Menu | Story | Running | EndGame | Quit

  datatype MenuState = NoMenuState | TitleMenu | OptionsMenu | VideoMenu | AudioMenu

  datatype MenuType = NoMenu | MainMenu | GameMenu

  datatype PlayerState = PlayerState(player: Option<Entity>, lives: int, score: int)

  datatype VideoState = VideoState(width: int, height: int, bpp: int)

  datatype AudioState = AudioState(volume: int, sounds: bool, music: bool)

  datatype MouseButtons = MouseButtons(left: bool, middle: bool, right: bool)

  /** `InputState`: the keys whose `keystate` entry is true, the buttons and
      the last mouse position. */
  datatype InputState = InputState(keys: set<int>, buttons: MouseButtons, mouseX: int, mouseY: int)

  datatype State = State(
    gameState: GameState,
    paused: bool,
    fps: bool,
    fullscreen: bool,
    playerState: PlayerState,
    videoState: VideoState,
    audioState: AudioState,
    inputState: InputState,
    menuState: MenuState,
    menuType: MenuType,
    world: Option<World>,
    registry: Registry)

  // SDL 1.2 key symbols the game consults
  const KeyReturn: int := 13
  const KeyEscape: int := 27
  const KeySpace: int := 32
  const KeyA: int := 97
  const KeyE: int := 101
  const KeyF: int := 102
  const KeyP: int := 112
  const KeyQ: int := 113
  const KeyS: int := 115
  const KeyRight: int := 275
  const KeyLeft: int := 276
  const KeyF11: int := 292
  const KeyRightCtrl: int := 305
  const KeyLeftCtrl: int := 306

  const StartingLives: int := 9

  /** `State()`: quitting, unpaused, showing the frame rate, windowed, no
      menu, no world or player, sound and music on, nothing pressed. */
  function InitialState(): (s: State)
    ensures s.gameState == Quit && !s.paused && s.fps && !s.fullscreen
    ensures s.menuState == NoMenuState && s.menuType == NoMenu
    ensures s.world == None && s.playerState == PlayerState(None, 0, 0) && s.registry == []
    ensures s.audioState.sounds && s.audioState.music
    ensures s.inputState.keys == {} && s.inputState.buttons == MouseButtons(false, false, false)
  {
    State(Quit, false, true, false, PlayerState(None, 0, 0), VideoState(0, 0, 0), AudioState(0, true, true),
          InputState({}, MouseButtons(false, false, false), 0, 0), NoMenuState, NoMenu, None, [])
  }

  /** `exit_game`: the game state becomes `Quit`; nothing else changes. */
  function ExitGame(s: State): (r: State)
    ensures r.gameState == Quit
    ensures r.(gameState := s.gameState) == s
  {
    s.(gameState := Quit)
  }

  /** What `Skratch::load_media` finds: the sprite table and jump sound. */
  datatype PlayerMedia = PlayerMedia(sprites: SpriteTable, jumpSound: int)

  /** Everything starting a level reads: the level's files, the addresses
      the new player and the spawned entities take, and the player's media. */
  datatype LevelStart = LevelStart(files: LevelFiles, playerAddress: int, nextAddress: int, media: PlayerMedia)

  predicate CanStart(start: LevelStart) {
    start.files.blockWidth > 0 && start.files.blockHeight > 0
  }

  /** What a running frame dereferences: a world with positive block sizes
      and a player. */
  predicate Playing(s: State) {
    && s.world.Some? && HasBlockSize(s.world.value)
    && s.playerState.player.Some? && Skratch.IsSkratch(s.playerState.player.value)
  }

  /** Whenever the game runs, or its in-game menu can resume it, there is
      a world and a player to play with. */
  predicate Consistent(s: State) {
    (s.gameState == Running || (s.gameState == Menu && s.menuType == GameMenu)) ==> Playing(s)
  }

  /** `new Skratch()` followed by `load_media`: the idle-right sprite shows. */
  function NewPlayer(address: int, media: PlayerMedia): (e: Entity)
    ensures Skratch.IsSkratch(e) && e.kind.sprites == media.sprites && e.kind.jumpSound == media.jumpSound
    ensures e.sprite == media.sprites[IdleRightAnimation] && e.kind.pose == IdleRight
    ensures e.kind.blaster == None && !e.kind.canJump && !e.removable
    ensures e.position == Zero && e.velocity == Zero && e.acceleration == Zero && e.mass == Skratch.Mass
  {
    Skratch.NewSkratch(address).(kind := SkratchKind(false, IdleRight, media.sprites, media.jumpSound, None),
                                 sprite := media.sprites[IdleRightAnimation])
  }

  /** `restart_game`: a new player, an emptied entity list and a new world
      loaded from the level; if the level fails to load the game quits. */
  function RestartGame(s: State, start: LevelStart): (r: State)
    requires CanStart(start)
    ensures var level := LoadLevel(AsWritten, start.files, [], start.nextAddress, NewPlayer(start.playerAddress, start.media));
      && r.world == Some(level.world) && r.registry == level.registry
      && r.playerState == s.playerState.(player := Some(level.player))
      && r.gameState == (if level.ok then s.gameState else Quit)
    ensures Playing(r)
    ensures forall k :: 0 <= k < |r.registry| ==>
      !r.registry[k].removable && (r.registry[k].kind.BlasterKind? || r.registry[k].kind.SuitKind?)
    ensures r.(gameState := s.gameState, world := s.world, registry := s.registry, playerState := s.playerState) == s
  {
    var player := NewPlayer(start.playerAddress, start.media);
    var level := LoadLevel(AsWritten, start.files, FreeEntities(s.registry), start.nextAddress, player);
    var loaded := s.(playerState := s.playerState.(player := Some(level.player)), world := Some(level.world),
                     registry := level.registry);
    if level.ok then loaded else ExitGame(loaded)
  }

  /** `new_game`: running with nine lives and no score, then as
      `restart_game`. */
  function NewGame(s: State, start: LevelStart): (r: State)
    requires CanStart(start)
    ensures r.playerState.lives == StartingLives && r.playerState.score == 0
    ensures r.gameState == Running || r.gameState == Quit
    ensures r.gameState == Running <==>
      LoadLevel(AsWritten, start.files, [], start.nextAddress, NewPlayer(start.playerAddress, start.media)).ok
    ensures Playing(r) && Consistent(r)
    ensures forall k :: 0 <= k < |r.registry| ==> !r.registry[k].removable
  {
    RestartGame(s.(gameState := Running, playerState := s.playerState.(lives := StartingLives, score := 0)), start)
  }

  /** A new game and a restart differ only in the lives, the score and the
      game state they start from: a restart of a running game with nine
      lives and no score is a new game. */
  lemma {:induction false} NewGameIsFreshRestart(s: State, t: State, start: LevelStart)
    requires CanStart(start)
    requires t.gameState == Running && t.playerState.lives == StartingLives && t.playerState.score == 0
    requires t == s.(gameState := t.gameState, playerState := t.playerState)
    ensures NewGame(s, start) == RestartGame(t, start)
  {
  }
}

=== FILE: skratch.dfy ===
/** The player character: its constructor, keyboard `think`, the per-frame
    `on_animate` clamps and the reactions to touching other entities. */
module Skratch {
  import opened CArith
  import opened Vectors
  import opened Options
  import opened World
  import opened Entities
  import opened Animation
  import Blaster

  const Mass: real := 1.0
  const MaxHorizontalVelocity: real := 325.0
  const HorizontalAcceleration: real := 525.0
  const JumpVelocity: real := 650.0

  /** `Skratch()`: not registered, mass 1, facing right at rest, unable to
      jump, no blaster, and every sprite and sound index -1. */
  function NewSkratch(address: int): (e: Entity)
    ensures e.kind == SkratchKind(false, IdleRight, NoSprites, -1, None)
    ensures e.mass == Mass && !e.removable && e.sprite < 0
    ensures e.position == Zero && e.velocity == Zero && e.acceleration == Zero
  {
    NewEntity(address, SkratchKind(false, IdleRight, NoSprites, -1, None)).(mass := Mass)
  }

  /** The player is not part of the registry the constructor would fill. */
  lemma {:induction false} SkratchIsUnregistered(reg: Registry, address: int)
    ensures Register(reg, NewSkratch(address), false) == reg
  {
  }

  predicate IsSkratch(e: Entity) {
    e.kind.SkratchKind?
  }

  /** `set_state(state)` on the player. */
  function SetState(e: Entity, state: int): (r: Entity)
    requires IsSkratch(e)
    ensures IsSkratch(r) && FrameOf(r) == Animation.SetState(FrameOf(e), e.kind.sprites, state)
    ensures r.(kind := e.kind, sprite := e.sprite, animationSeconds := e.animationSeconds) == e
    ensures r.kind.canJump == e.kind.canJump && r.kind.sprites == e.kind.sprites
    ensures r.kind.jumpSound == e.kind.jumpSound && r.kind.blaster == e.kind.blaster
  {
    WithFrame(e, Animation.SetState(FrameOf(e), e.kind.sprites, state))
  }

  /** The keys `think` consults: the arrows, space, and either control key. */
  datatype Keys = Keys(right: bool, left: bool, space: bool, ctrl: bool)

  /** The pose `think` picks for the keys held. */
  function SteeredPose(keys: Keys, p: Pose): Pose {
    if keys.right then RunningRight
    else if keys.left then RunningLeft
    else if p == RunningRight then IdleRight
    else if p == RunningLeft then IdleLeft
    else p
  }

  /** Everything `think` can change: the player, the key states and the
      registry (which gains a shot when the blaster fires). */
  datatype Thought = Thought(player: Entity, keys: Keys, registry: Registry)

  /** The arrow-key half of `think`: right wins over left, and with neither
      the player stops accelerating sideways and a running pose becomes the
      idle pose facing the same way. */
  function Steer(e: Entity, keys: Keys): (r: Entity)
    requires IsSkratch(e)
    ensures IsSkratch(r)
    ensures r.kind.pose == SteeredPose(keys, e.kind.pose)
    ensures r.acceleration == e.acceleration.(x :=
      if keys.right then HorizontalAcceleration else if keys.left then -HorizontalAcceleration else 0.0)
    ensures r.position == e.position && r.velocity == e.velocity && r.mass == e.mass && r.removable == e.removable
    ensures r.kind.canJump == e.kind.canJump && r.kind.blaster == e.kind.blaster
  {
    if keys.right then SetState(e.(acceleration := SetX(e.acceleration, HorizontalAcceleration)), PoseId(RunningRight))
    else if keys.left then SetState(e.(acceleration := SetX(e.acceleration, -HorizontalAcceleration)), PoseId(RunningLeft))
    else
      var stopped := e.(acceleration := ClearX(e.acceleration));
      if e.kind.pose == RunningRight then SetState(stopped, PoseId(IdleRight))
      else if e.kind.pose == RunningLeft then SetState(stopped, PoseId(IdleLeft))
      else stopped
  }

  /** The space-key half of `think`: a jump needs space and the ground; it
      consumes the space key and adds the jump speed upward. Otherwise the
      vertical acceleration is cleared. */
  function Jump(e: Entity, keys: Keys): (r: (Entity, Keys))
    requires IsSkratch(e)
    ensures var jumps := keys.space && e.kind.canJump;
      && (jumps ==> r.1 == keys.(space := false) && r.0 == e.(velocity := e.velocity.(y := e.velocity.y - JumpVelocity)))
      && (!jumps ==> r.1 == keys && r.0 == e.(acceleration := e.acceleration.(y := 0.0)))
  {
    if keys.space && e.kind.canJump then
      (e.(velocity := AddY(e.velocity, -JumpVelocity)), keys.(space := false))
    else
      (e.(acceleration := ClearY(e.acceleration)), keys)
  }

  /** The control-key half of `think`: with a blaster, it shoots from the
      player's current position and facing. */
  function Fire(e: Entity, keys: Keys, reg: Registry, w: World, shotAddress: int, shotSprite: int): (r: (Entity, Registry))
    requires IsSkratch(e)
    ensures IsSkratch(r.0)
    ensures var fires := keys.ctrl && e.kind.blaster.Some? && Blaster.Ready(e.kind.blaster.value);
      && |r.1| == |reg| + (if fires then 1 else 0)
      && r.1[..|reg|] == reg
      && (fires ==> r.1[|reg|].kind == ShotKind && r.0.kind.blaster == Some(e.kind.blaster.value.(coolTime := Blaster.CoolTime)))
      && (!fires ==> r.0 == e)
    ensures r.0 == e.(kind := r.0.kind)
    ensures r.0.kind.pose == e.kind.pose && r.0.kind.canJump == e.kind.canJump
  {
    if keys.ctrl && e.kind.blaster.Some? then
      var shot := Blaster.Shoot(e.kind.blaster.value, reg, e.position, e.kind.pose, w, shotAddress, shotSprite);
      (e.(kind := e.kind.(blaster := Some(shot.gun))), shot.registry)
    else
      (e, reg)
  }

  /** `Skratch::think`: steering, then jumping, then shooting. */
  function Think(e: Entity, keys: Keys, reg: Registry, w: World, shotAddress: int, shotSprite: int): (r: Thought)
    requires IsSkratch(e)
    ensures IsSkratch(r.player)
    ensures r.player.position == e.position && r.player.mass == e.mass && r.player.removable == e.removable
    ensures r.player.kind.pose == SteeredPose(keys, e.kind.pose)
    ensures r.player.acceleration.x ==
      (if keys.right then HorizontalAcceleration else if keys.left then -HorizontalAcceleration else 0.0)
    ensures var jumps := keys.space && e.kind.canJump;
      && (jumps ==> !r.keys.space && r.player.velocity.y == e.velocity.y - JumpVelocity
                    && r.player.acceleration.y == e.acceleration.y)
      && (!jumps ==> r.keys.space == keys.space && r.player.velocity.y == e.velocity.y
                     && r.player.acceleration.y == 0.0)
    ensures r.keys.(space := keys.space) == keys
    ensures r.player.velocity.x == e.velocity.x
    ensures var fires := keys.ctrl && e.kind.blaster.Some? && Blaster.Ready(e.kind.blaster.value);
      && |r.registry| == |reg| + (if fires then 1 else 0)
      && r.registry[..|reg|] == reg
      && (fires ==> r.registry[|reg|].kind == ShotKind && r.player.kind.blaster == Some(e.kind.blaster.value.(coolTime := Blaster.CoolTime)))
      && (!fires ==> r.player.kind.blaster == e.kind.blaster)
  {
    var steered := Steer(e, keys);
    var jumped := Jump(steered, keys);
    var fired := Fire(jumped.0, keys, reg, w, shotAddress, shotSprite);
    Thought(fired.0, jumped.1, fired.1)
  }

  /** With no key held, `think` is idempotent once the player stands: a
      second call changes nothing further. */
  lemma {:induction false} ThinkIdleIsStable(e: Entity, reg: Registry, w: World, a: int, s: int)
    requires IsSkratch(e)
    ensures var none := Keys(false, false, false, false);
      var once := Think(e, none, reg, w, a, s);
      Think(once.player, none, once.registry, w, a, s) == once
  {
  }

  /** Without ground contact there is no jump, whatever the keys. */
  lemma {:induction false} NoJumpInMidAir(e: Entity, keys: Keys, reg: Registry, w: World, a: int, s: int)
    requires IsSkratch(e) && !e.kind.canJump
    ensures Think(e, keys, reg, w, a, s).player.velocity.y == e.velocity.y
    ensures Think(e, keys, reg, w, a, s).keys == keys
  {
  }

  /** The value of `v` limited to `[-bound, bound]`. */
  function Clamp(v: real, bound: real): (r: real)
    requires 0.0 <= bound
    ensures -bound <= r <= bound
    ensures -bound <= v <= bound ==> r == v
    ensures v > bound ==> r == bound
    ensures v < -bound ==> r == -bound
  {
    if v > bound then bound else if v < -bound then -bound else v
  }

  /** `Skratch::on_animate`: the position is pushed back inside the world's
      top-left edges, `can_jump` records whether this step landed, the
      horizontal speed is limited, the blaster cools down and the animation
      frame advances. */
  function OnAnimate(e: Entity, dt: real, flags: Flags): (r: Entity)
    requires IsSkratch(e)
    ensures IsSkratch(r)
    ensures 0.0 <= r.position.x && 0.0 <= r.position.y && r.position.z == e.position.z
    ensures 0.0 <= e.position.x ==> r.position.x == e.position.x
    ensures 0.0 <= e.position.y ==> r.position.y == e.position.y
    ensures r.kind.canJump <==> BottomCollision in flags
    ensures r.velocity == e.velocity.(x := Clamp(e.velocity.x, MaxHorizontalVelocity))
    ensures r.acceleration == e.acceleration && r.mass == e.mass && r.removable == e.removable
    ensures r.kind.blaster == (match e.kind.blaster
                               case None => None
                               case Some(g) => Some(Blaster.LowerCoolTime(g, dt)))
    ensures FrameOf(r) == Advance(FrameOf(e), e.kind.sprites, dt)
  {
    var p := e.position;
    var p1 := if p.x < 0.0 then ClearX(p) else p;
    var p2 := if p1.y < 0.0 then ClearY(p1) else p1;
    var v := e.velocity;
    var v1 := if v.x > MaxHorizontalVelocity then SetX(v, MaxHorizontalVelocity)
              else if v.x < -MaxHorizontalVelocity then SetX(v, -MaxHorizontalVelocity)
              else v;
    var gun := if e.kind.blaster.Some? then Some(Blaster.LowerCoolTime(e.kind.blaster.value, dt)) else None;
    var moved := e.(position := p2, velocity := v1, kind := e.kind.(canJump := BottomCollision in flags, blaster := gun));
    WithFrame(moved, Advance(FrameOf(moved), moved.kind.sprites, dt))
  }

  /** `on_animate` is a fixed point for position, speed and jump state: a
      second call with the same flags changes none of them. */
  lemma {:induction false} OnAnimateClampsSettle(e: Entity, dt: real, flags: Flags)
    requires IsSkratch(e)
    ensures var once := OnAnimate(e, dt, flags);
      var twice := OnAnimate(once, dt, flags);
      && twice.position == once.position
      && twice.velocity == once.velocity
      && twice.kind.canJump == once.kind.canJump
  {
  }

  /** `Skratch::on_collision`: touching a blaster pick-up marks the pick-up
      removable and gives the player a fresh blaster (not registered, cool-down
      zero, its shot sound loaded); touching a suit marks the player
      removable; anything else is ignored. */
  function OnCollision(e: Entity, other: Entity, shootSound: int): (r: Contact)
    requires IsSkratch(e)
    ensures IsSkratch(r.self)
    ensures other.kind.BlasterKind? ==>
      r.other == SetRemovable(other) && r.self == e.(kind := e.kind.(blaster := Some(BlasterGun(0.0, shootSound))))
    ensures other.kind.SuitKind? ==> r == Contact(SetRemovable(e), other)
    ensures !other.kind.BlasterKind? && !other.kind.SuitKind? ==> r == Contact(e, other)
  {
    match other.kind
    case BlasterKind(_) =>
      Contact(e.(kind := e.kind.(blaster := Some(BlasterGun(0.0, shootSound)))), SetRemovable(other))
    case SuitKind(_, _) => Contact(SetRemovable(e), other)
    case _ => Contact(e, other)
  }

  /** Picking up a blaster makes the player able to shoot at once. */
  lemma {:induction false} PickUpArmsPlayer(e: Entity, other: Entity, shootSound: int)
    requires IsSkratch(e) && other.kind.BlasterKind?
    ensures var c := OnCollision(e, other, shootSound);
      && c.self.kind.blaster.Some? && Blaster.Ready(c.self.kind.blaster.value)
      && c.other.removable
  {
  }
}

=== FILE: timer.dfy ===
/** The frame timer of `Timer.cc`: two `unsigned int` tick readings, the
    time between them modulo 2^32, and the instantaneous frame rate. The
    millisecond tick count `SDL_GetTicks` returns is a parameter. */
module Timer {
  import opened CArith

  /** `m_current` and `m_last`, each an `unsigned int`. */
  datatype Timer = Timer(current: int, last: int)

  predicate IsTick(t: int) {
    0 <= t < Uint32Modulus
  }

  /** `Timer()`: both readings start at 0, then the constructor's `update`
      takes the first reading. */
  function NewTimer(ticks: int): (t: Timer)
    requires IsTick(ticks)
    ensures t.current == ticks && t.last == 0
  {
    Update(Timer(0, 0), ticks)
  }

  /** `update`: the current reading becomes the last, and the new tick
      reading the current one. */
  function Update(t: Timer, ticks: int): (r: Timer)
    requires IsTick(ticks)
    ensures r.last == t.current && r.current == ticks
  {
    Timer(ticks, t.current)
  }

  /** `elapsed_ms`: the unsigned difference of the readings. */
  function ElapsedMs(t: Timer): (ms: int)
    ensures 0 <= ms < Uint32Modulus
    ensures IsTick(t.current) && IsTick(t.last) && t.last <= t.current ==> ms == t.current - t.last
  {
    Wrap32(t.current - t.last)
  }

  /** The tick counter wraps after 2^32 ms; a reading taken less than that
      long after the last one still gives the true time between them. */
  lemma {:induction false} ElapsedSurvivesWrap(t: Timer, before: int, after: int)
    requires 0 <= before <= after < before + Uint32Modulus
    ensures ElapsedMs(Update(Update(t, Wrap32(before)), Wrap32(after))) == after - before
  {
    var u := Update(Update(t, Wrap32(before)), Wrap32(after));
    assert (u.current - u.last - (after - before)) % Uint32Modulus == 0 by {
      assert u.current - u.last - (after - before)
          == (Wrap32(after) - after) - (Wrap32(before) - before);
      ModOfDifference(Wrap32(after) - after, Wrap32(before) - before);
    }
    SameResidue(u.current - u.last, after - before);
  }

  lemma {:induction false} ModOfDifference(a: int, b: int)
    requires a % Uint32Modulus == 0 && b % Uint32Modulus == 0
    ensures (a - b) % Uint32Modulus == 0
  {
    var m := Uint32Modulus;
    assert a == (a / m) * m && b == (b / m) * m;
    assert a - b == (a / m - b / m) * m;
  }

  lemma {:induction false} SameResidue(d: int, e: int)
    requires (d - e) % Uint32Modulus == 0 && 0 <= e < Uint32Modulus
    ensures Wrap32(d) == e
  {
    var m := Uint32Modulus;
    var k := (d - e) / m;
    assert d == k * m + e;
    assert (k * m + e) % m == e;
  }

  /** `elapsed_sec`: the elapsed milliseconds in seconds, read as an exact
      real rather than a `float`. */
  function ElapsedSec(t: Timer): (sec: real)
    ensures 0.0 <= sec && sec * 1000.0 == ElapsedMs(t) as real
  {
    ElapsedMs(t) as real / 1000.0
  }

  /** `rate` frames of `ms` milliseconds fit in a second, and one more would not. */
  predicate FramesInSecond(rate: int, ms: int) {
    rate * ms <= 1000 < (rate + 1) * ms
  }

  /** `fps`: the elapsed count is read into a signed `int`; 0 when no time
      has passed, otherwise `1000 / ms` truncated. A count past `INT_MAX`
      reads back negative and gives a non-positive rate. */
  function Fps(t: Timer): (rate: int)
    ensures ElapsedMs(t) == 0 ==> rate == 0
    ensures 0 < ElapsedMs(t) < 0x8000_0000 ==> 0 <= rate <= 1000 && FramesInSecond(rate, ElapsedMs(t))
    ensures ElapsedMs(t) >= 0x8000_0000 ==> rate <= 0
  {
    var elapsed := ElapsedMs(t);
    var ms := ToInt32(elapsed);
    assert elapsed < 0x8000_0000 ==> ms == elapsed;
    assert elapsed >= 0x8000_0000 ==> ms < 0;
    if ms > 0 then
      RateBounds(ms);
      CDiv(1000, ms)
    else if ms < 0 then
      NegativeRate(ms);
      CDiv(1000, ms)
    else 0
  }

  lemma {:induction false} NegativeRate(ms: int)
    requires ms < 0
    ensures CDiv(1000, ms) <= 0
  {
  }

  lemma {:induction false} RateBounds(ms: int)
    requires 0 < ms
    ensures 0 <= CDiv(1000, ms) <= 1000 && FramesInSecond(CDiv(1000, ms), ms)
  {
    CDivNonNegative(1000, ms);
    var q := 1000 / ms;
    assert 1000 == q * ms + 1000 % ms;
    assert (q + 1) * ms == q * ms + ms;
    assert q <= q * ms by {
      MulNonNegative(q, ms - 1);
      assert q * ms == q * (ms - 1) + q;
    }
  }
}

=== FILE: utilities.dfy ===
/** The path helpers and bit macros of `utilities.h`. */
module Utilities {

  /** `rfind("/")`: the position of the last '/', or -1 for `npos`. */
  function LastSlash(f: string): (pos: int)
    ensures -1 <= pos < |f|
    ensures pos == -1 <==> '/' !in f
    ensures pos >= 0 ==> f[pos] == '/' && '/' !in f[pos + 1..]
  {
    if |f| == 0 then -1
    else if f[|f| - 1] == '/' then |f| - 1
    else
      var pos := LastSlash(f[..|f| - 1]);
      assert f == f[..|f| - 1] + [f[|f| - 1]];
      pos
  }

  /** `strip_path`: the text after the last '/', or the whole name when
      there is no '/'. */
  function StripPath(f: string): (name: string)
    ensures '/' !in name
    ensures '/' !in f ==> name == f
    ensures '/' in f ==> name == f[LastSlash(f) + 1..]
  {
    var pos := LastSlash(f);
    if pos != -1 then f[pos + 1..] else f
  }

  /** `get_path`: everything up to and including the last '/', or the whole
      name when there is no '/'. */
  function GetPath(f: string): (path: string)
    ensures '/' !in f ==> path == f
    ensures '/' in f ==> |path| > 0 && path[|path| - 1] == '/' && path == f[..LastSlash(f) + 1]
  {
    var pos := LastSlash(f);
    if pos != -1 then f[..pos + 1] else f
  }

  /** A name with a '/' splits into its path and its file name. */
  lemma {:induction false} PathSplits(f: string)
    requires '/' in f
    ensures GetPath(f) + StripPath(f) == f
  {
    var pos := LastSlash(f);
    assert f == f[..pos + 1] + f[pos + 1..];
  }

  /** Without a '/', both helpers return the whole name, so the name counts
      as its own path. */
  lemma {:induction false} BareNameIsItsOwnPath(f: string)
    requires '/' !in f
    ensures GetPath(f) == f && StripPath(f) == f
  {
  }

  /** `SETBIT(b, i)` on an `int`: `b |= (1 << i)`. The shift is defined
      for bits 0 to 30 of a signed `int`. */
  function SetBit(b: bv32, i: bv32): (r: bv32)
    requires i < 31
  {
    b | (1 << i)
  }

  /** `GETBIT(b, i)`: `(b >> i) & 1`. */
  function GetBit(b: bv32, i: bv32): (bit: bv32)
    requires i < 32
    ensures bit == 0 || bit == 1
  {
    (b >> i) & 1
  }

  /** Setting a bit makes that bit read 1 and leaves every other bit. */
  lemma {:induction false} SetBitSets(b: bv32, i: bv32, j: bv32)
    requires i < 31 && j < 32
    ensures GetBit(SetBit(b, i), i) == 1
    ensures j != i ==> GetBit(SetBit(b, i), j) == GetBit(b, j)
  {
  }

  /** `SETBIT_L(b, i)` as written: `b != (1L << i)`, a comparison that
      yields whether `b` differs from the bit's mask and leaves `b` as it
      was. The result pairs the (unchanged) `b` with the comparison. */
  function SetBitLongAsWritten(b: bv64, i: bv32): (r: (bv64, bool))
    requires i < 63
    ensures r.0 == b
    ensures !r.1 <==> b == 1 << i
    ensures !r.1 ==> GetBitLong(r.0, i) == 1
  {
    (b, b != (1 << i))
  }

  /** `GETBIT_L(b, i)`: `(b >> i) & 1L`. */
  function GetBitLong(b: bv64, i: bv32): (bit: bv64)
    requires i < 64
    ensures bit == 0 || bit == 1
  {
    (b >> i) & 1
  }

  /** `SETBIT_L` as written does not set the bit: from 0, bit 0 stays clear. */
  lemma {:induction false} SetBitLongLeavesBitClear()
    ensures GetBitLong(SetBitLongAsWritten(0, 0).0, 0) == 0
  {
  }

  /** `SETBIT_L` as its documentation describes it: `b |= (1L << i)`. */
  function SetBitLong(b: bv64, i: bv32): (r: bv64)
    requires i < 63
  {
    b | (1 << i)
  }

  /** The corrected `SETBIT_L` sets that bit and leaves every other bit. */
  lemma {:induction false} SetBitLongSets(b: bv64, i: bv32, j: bv32)
    requires i < 63 && j < 64
    ensures GetBitLong(SetBitLong(b, i), i) == 1
    ensures j != i ==> GetBitLong(SetBitLong(b, i), j) == GetBitLong(b, j)
  {
  }
}

=== FILE: vectors.dfy ===
/** The game's three-component vector (`Vector<T>`), over `real`: the float
    instances of the source become exact reals here, and the integer
    instances are vectors whose components are whole numbers. */
module Vectors {
  import opened CArith

  datatype Vector = Vector(x: real, y: real, z: real)

  /** `Vector()` and `clear()`: every component is the default value. */
  const Zero: Vector := Vector(0.0, 0.0, 0.0)

  function Add(v: Vector, w: Vector): Vector {
    Vector(v.x + w.x, v.y + w.y, v.z + w.z)
  }

  function Scale(v: Vector, s: real): Vector {
    Vector(v.x * s, v.y * s, v.z * s)
  }

  /** Scalar division; the source divides by a float, here a non-zero real. */
  function Divide(v: Vector, s: real): Vector
    requires s != 0.0
  {
    Vector(v.x / s, v.y / s, v.z / s)
  }

  function SetX(v: Vector, a: real): Vector { v.(x := a) }
  function SetY(v: Vector, a: real): Vector { v.(y := a) }

  function AddX(v: Vector, a: real): Vector { v.(x := v.x + a) }
  function AddY(v: Vector, a: real): Vector { v.(y := v.y + a) }

  function ClearX(v: Vector): Vector { v.(x := 0.0) }
  function ClearY(v: Vector): Vector { v.(y := 0.0) }

  /** `snap()`: the round trip through `Vector<int>`. */
  function Snap(v: Vector): (r: Vector)
    ensures IsWhole(r.x) && IsWhole(r.y) && IsWhole(r.z)
    ensures IsWhole(v.x) && IsWhole(v.y) && IsWhole(v.z) ==> r == v
  {
    TruncIsWhole(v.x);
    TruncIsWhole(v.y);
    TruncIsWhole(v.z);
    Vector(Trunc(v.x) as real, Trunc(v.y) as real, Trunc(v.z) as real)
  }

  /** A vector of whole numbers: what a `Vector<int>` holds. */
  predicate IsIntegral(v: Vector) {
    IsWhole(v.x) && IsWhole(v.y) && IsWhole(v.z)
  }

  function FromInts(x: int, y: int, z: int): (r: Vector)
    ensures IsIntegral(r)
  {
    Vector(x as real, y as real, z as real)
  }

  /** Each component of `snap()` is its input truncated toward zero: never
      further from zero, less than one away, and on the same side of zero. */
  lemma SnapTruncatesTowardZero(v: Vector)
    ensures var r := Snap(v);
      && (0.0 <= v.x ==> 0.0 <= r.x <= v.x < r.x + 1.0)
      && (v.x < 0.0 ==> r.x - 1.0 < v.x <= r.x <= 0.0)
      && (0.0 <= v.y ==> 0.0 <= r.y <= v.y < r.y + 1.0)
      && (v.y < 0.0 ==> r.y - 1.0 < v.y <= r.y <= 0.0)
      && (0.0 <= v.z ==> 0.0 <= r.z <= v.z < r.z + 1.0)
      && (v.z < 0.0 ==> r.z - 1.0 < v.z <= r.z <= 0.0)
  {
  }
}

=== FILE: video.dfy ===
/** The surface registry and pixel access of `Video.cc`. A surface is its
    size, its bytes per pixel and its pixel bytes; the registry is an
    `Assets` registry of surfaces. What SDL decides is a parameter: whether
    an image file (or the no-image picture) loads, whether a new surface can
    be created, what `SDL_DisplayFormat` turns a surface into, and what the
    float resampling of `scale_surface` draws. The machine's byte order is
    a parameter of the pixel functions. */
module Video {
  import opened CArith
  import opened Options
  import opened Assets

  datatype ByteOrder = LittleEndian | BigEndian

  /** An `SDL_Surface`: width, height, bytes per pixel, and the bytes of each
      pixel, row by row (the padding at the end of a row is never read). */
  datatype Surface = Surface(width: int, height: int, bpp: int, pixels: seq<seq<seq<byte>>>)

  /** What SDL guarantees of a surface: one to four bytes a pixel and
      pixel data of the stated size. */
  predicate WellFormed(s: Surface) {
    && 1 <= s.bpp <= 4 && 0 <= s.width && |s.pixels| == s.height
    && (forall y :: 0 <= y < |s.pixels| ==> |s.pixels[y]| == s.width)
    && (forall y, x :: 0 <= y < |s.pixels| && 0 <= x < |s.pixels[y]| ==> |s.pixels[y][x]| == s.bpp)
  }

  predicate InBounds(s: Surface, x: int, y: int) {
    0 <= x < s.width && 0 <= y < s.height
  }

  // ----- pixel bytes

  function Pow256(n: nat): (p: nat)
    ensures p >= 1
  {
    if n == 0 then 1 else 256 * Pow256(n - 1)
  }

  /** The low `n` bytes of `v`, least significant first. */
  function LittleBytes(v: nat, n: nat): (bs: seq<byte>)
    ensures |bs| == n
  {
    if n == 0 then [] else [(v % 256) as byte] + LittleBytes(v / 256, n - 1)
  }

  /** The number whose bytes, least significant first, are `bs`. */
  function LittleValue(bs: seq<byte>): (v: nat)
    ensures v < Pow256(|bs|)
  {
    if |bs| == 0 then 0 else bs[0] as int + 256 * LittleValue(bs[1..])
  }

  function Reverse(bs: seq<byte>): (r: seq<byte>)
    ensures |r| == |bs| && forall k :: 0 <= k < |bs| ==> r[k] == bs[|bs| - 1 - k]
  {
    seq(|bs|, k requires 0 <= k < |bs| => bs[|bs| - 1 - k])
  }

  /** Storing a `Uint8`, `Uint16` or `Uint32` through a pointer writes the
      value's low bytes in the machine's order; the 3-byte case writes the
      same bytes explicitly. */
  function Encode(v: nat, n: nat, order: ByteOrder): (bs: seq<byte>)
    ensures |bs| == n
  {
    match order
    case LittleEndian => LittleBytes(v, n)
    case BigEndian => Reverse(LittleBytes(v, n))
  }

  function Decode(bs: seq<byte>, order: ByteOrder): (v: nat)
    ensures v < Pow256(|bs|)
  {
    match order
    case LittleEndian => LittleValue(bs)
    case BigEndian => LittleValue(Reverse(bs))
  }

  lemma {:induction false} ModSplit(v: nat, p: nat)
    requires p >= 1
    ensures v % (256 * p) == v % 256 + 256 * ((v / 256) % p)
  {
    var q := v / 256;
    var r := v % 256;
    var a := q / p;
    var b := q % p;
    var m := 256 * p;
    var s := 256 * b + r;
    assert 0 <= s < m;
    Regroup256(v, p, a, b);
    DivOfMultiplePlus(a, m, s);
    CDivNonNegative(v, m);
  }

  lemma {:induction false} Regroup256(v: nat, p: nat, a: int, b: int)
    requires p >= 1 && v / 256 == p * a + b
    ensures v == a * (256 * p) + (256 * b + v % 256)
  {
    assert v == 256 * (v / 256) + v % 256;
    assert 256 * (p * a) == a * (256 * p);
  }

  lemma {:induction false} LittleRoundTrip(v: nat, n: nat)
    ensures LittleValue(LittleBytes(v, n)) == v % Pow256(n)
  {
    if n > 0 {
      var bs := LittleBytes(v, n);
      assert bs[1..] == LittleBytes(v / 256, n - 1);
      LittleRoundTrip(v / 256, n - 1);
      ModSplit(v, Pow256(n - 1));
    }
  }

  lemma {:induction false} LittleBytesOfValue(bs: seq<byte>)
    ensures LittleBytes(LittleValue(bs), |bs|) == bs
  {
    if |bs| > 0 {
      var v := LittleValue(bs);
      var rest := LittleValue(bs[1..]);
      assert v % 256 == bs[0] as int && v / 256 == rest by {
        DivOfMultiplePlus(rest, 256, bs[0] as int);
        CDivNonNegative(v, 256);
        assert v == rest * 256 + bs[0] as int;
      }
      LittleBytesOfValue(bs[1..]);
      assert LittleBytes(v, |bs|) == [bs[0]] + bs[1..];
    }
  }

  lemma {:induction false} ReverseTwice(bs: seq<byte>)
    ensures Reverse(Reverse(bs)) == bs
  {
  }

  /** Reading back the bytes written for a pixel gives the value cut to as
      many bytes as there are. */
  lemma {:induction false} DecodeEncode(v: nat, n: nat, order: ByteOrder)
    ensures Decode(Encode(v, n, order), order) == v % Pow256(n)
  {
    LittleRoundTrip(v, n);
    if order == BigEndian {
      ReverseTwice(LittleBytes(v, n));
    }
  }

  /** Writing back the value read from a pixel's bytes gives the same bytes. */
  lemma {:induction false} EncodeDecode(bs: seq<byte>, order: ByteOrder)
    ensures Encode(Decode(bs, order), |bs|, order) == bs
  {
    match order
    case LittleEndian =>
      LittleBytesOfValue(bs);
    case BigEndian =>
      LittleBytesOfValue(Reverse(bs));
      ReverseTwice(bs);
  }

  /** The 3-byte case as the program writes it: the top, middle and low
      byte on a big-endian machine, the reverse on a little-endian one. */
  lemma {:induction false} ThreeBytePacking(v: nat)
    ensures Encode(v, 3, BigEndian) == [((v / 65536) % 256) as byte, ((v / 256) % 256) as byte, (v % 256) as byte]
    ensures Encode(v, 3, LittleEndian) == [(v % 256) as byte, ((v / 256) % 256) as byte, ((v / 65536) % 256) as byte]
  {
    var hi := v / 256 / 256;
    assert hi == v / 65536;
    assert LittleBytes(hi, 1) == [(hi % 256) as byte];
    assert LittleBytes(v / 256, 2) == [((v / 256) % 256) as byte] + LittleBytes(hi, 1);
    assert LittleBytes(v, 3) == [(v % 256) as byte] + LittleBytes(v / 256, 2);
  }

  // ----- get_pixel and put_pixel

  /** `get_pixel` on a surface: 0 outside it, otherwise the pixel's value. */
  function GetPixel(s: Surface, x: int, y: int, order: ByteOrder): (v: int)
    requires WellFormed(s)
    ensures !InBounds(s, x, y) ==> v == 0
    ensures 0 <= v < Pow256(s.bpp)
  {
    if !InBounds(s, x, y) then 0 else Decode(s.pixels[y][x], order)
  }

  /** `put_pixel` on a surface: nothing outside it, otherwise the pixel's
      bytes become the value's low `bpp` bytes. */
  function PutPixel(s: Surface, x: int, y: int, pixel: int, order: ByteOrder): (r: Surface)
    requires WellFormed(s) && 0 <= pixel < Uint32Modulus
    ensures WellFormed(r) && r.width == s.width && r.height == s.height && r.bpp == s.bpp
    ensures !InBounds(s, x, y) ==> r == s
  {
    if !InBounds(s, x, y) then s
    else s.(pixels := s.pixels[y := s.pixels[y][x := Encode(pixel, s.bpp, order)]])
  }

  /** A pixel reads back as written, cut to the surface's bytes per pixel,
      and no other pixel changes. */
  lemma {:induction false} PutThenGet(s: Surface, x: int, y: int, pixel: int, order: ByteOrder, x2: int, y2: int)
    requires WellFormed(s) && 0 <= pixel < Uint32Modulus && InBounds(s, x, y)
    ensures GetPixel(PutPixel(s, x, y, pixel, order), x, y, order) == pixel % Pow256(s.bpp)
    ensures (x2, y2) != (x, y) ==> GetPixel(PutPixel(s, x, y, pixel, order), x2, y2, order) == GetPixel(s, x2, y2, order)
  {
    DecodeEncode(pixel, s.bpp, order);
  }

  /** On a 3-byte surface a pixel reads back as `pixel & 0xFFFFFF`, under
      either byte order. */
  lemma {:induction false} ThreeByteRoundTrip(s: Surface, x: int, y: int, pixel: int, order: ByteOrder)
    requires WellFormed(s) && s.bpp == 3 && 0 <= pixel < Uint32Modulus && InBounds(s, x, y)
    ensures GetPixel(PutPixel(s, x, y, pixel, order), x, y, order) == pixel % 0x100_0000
  {
    PutThenGet(s, x, y, pixel, order, x, y);
    assert Pow256(3) == 0x100_0000;
  }

  // ----- flips and copies

  /** The coordinate a flip reads from: mirrored when `flip` is set. */
  function Mirror(size: int, c: int, flip: bool): (m: int)
    ensures 0 <= c < size ==> 0 <= m < size
  {
    if flip then size - 1 - c else c
  }

  /** Mirroring is its own inverse. */
  lemma {:induction false} MirrorTwice(size: int, c: int, flip: bool)
    ensures Mirror(size, Mirror(size, c, flip), flip) == c
  {
  }

  /** The surface the copy and flip loops fill: pixel `(x, y)` of the new
      surface is put from the pixel the coordinate maps read
      (`FlipReads`). */
  function Flip(s: Surface, order: ByteOrder, flipX: bool, flipY: bool): (r: Surface)
    requires WellFormed(s)
    ensures WellFormed(r) && r.width == s.width && r.height == s.height && r.bpp == s.bpp
  {
    Surface(s.width, s.height, s.bpp, seq(s.height, y requires 0 <= y < s.height => FlippedRow(s, order, flipX, flipY, y)))
  }

  /** Each pixel of a flipped surface reads back as the mirrored pixel of
      the original. */
  lemma {:induction false} FlipReads(s: Surface, order: ByteOrder, flipX: bool, flipY: bool, x: int, y: int)
    requires WellFormed(s) && InBounds(s, x, y)
    ensures GetPixel(Flip(s, order, flipX, flipY), x, y, order)
         == GetPixel(s, Mirror(s.width, x, flipX), Mirror(s.height, y, flipY), order)
  {
    var v := GetPixel(s, Mirror(s.width, x, flipX), Mirror(s.height, y, flipY), order);
    var r := Flip(s, order, flipX, flipY);
    var row := FlippedRow(s, order, flipX, flipY, y);
    assert r.pixels[y] == row;
    assert row[x] == Encode(v, s.bpp, order);
    assert GetPixel(r, x, y, order) == Decode(Encode(v, s.bpp, order), order);
    DecodeEncode(v, s.bpp, order);
    SmallModulus(v, Pow256(s.bpp));
  }

  /** Row `y` of a flipped surface. */
  function FlippedRow(s: Surface, order: ByteOrder, flipX: bool, flipY: bool, y: int): (row: seq<seq<byte>>)
    requires WellFormed(s) && 0 <= y < s.height
    ensures |row| == s.width
    ensures forall x :: 0 <= x < s.width ==>
      row[x] == Encode(GetPixel(s, Mirror(s.width, x, flipX), Mirror(s.height, y, flipY), order), s.bpp, order)
  {
    seq(s.width, x requires 0 <= x < s.width =>
      Encode(GetPixel(s, Mirror(s.width, x, flipX), Mirror(s.height, y, flipY), order), s.bpp, order))
  }

  lemma {:induction false} SmallModulus(v: nat, p: nat)
    requires v < p
    ensures v % p == v
  {
  }

  /** Two surfaces with the same pixels everywhere are the same surface. */
  lemma {:induction false} SamePixels(s: Surface, t: Surface, order: ByteOrder)
    requires WellFormed(s) && WellFormed(t)
    requires s.width == t.width && s.height == t.height && s.bpp == t.bpp
    requires forall x, y :: InBounds(s, x, y) ==> GetPixel(s, x, y, order) == GetPixel(t, x, y, order)
    ensures s == t
  {
    forall y | 0 <= y < s.height
      ensures s.pixels[y] == t.pixels[y]
    {
      forall x | 0 <= x < s.width
        ensures s.pixels[y][x] == t.pixels[y][x]
      {
        assert GetPixel(s, x, y, order) == GetPixel(t, x, y, order);
        EncodeDecode(s.pixels[y][x], order);
        EncodeDecode(t.pixels[y][x], order);
      }
    }
  }

  /** Flipping twice the same way gives the original back; a copy (no
      flip) is the original. */
  lemma {:induction false} FlipInvolution(s: Surface, order: ByteOrder, flipX: bool, flipY: bool)
    requires WellFormed(s)
    ensures Flip(Flip(s, order, flipX, flipY), order, flipX, flipY) == s
    ensures Flip(s, order, false, false) == s
  {
    var once := Flip(s, order, flipX, flipY);
    var twice := Flip(once, order, flipX, flipY);
    var copy := Flip(s, order, false, false);
    forall x, y | InBounds(s, x, y)
      ensures GetPixel(twice, x, y, order) == GetPixel(s, x, y, order)
      ensures GetPixel(copy, x, y, order) == GetPixel(s, x, y, order)
    {
      var mx := Mirror(s.width, x, flipX);
      var my := Mirror(s.height, y, flipY);
      FlipReads(once, order, flipX, flipY, x, y);
      FlipReads(s, order, flipX, flipY, mx, my);
      MirrorTwice(s.width, x, flipX);
      MirrorTwice(s.height, y, flipY);
      FlipReads(s, order, false, false, x, y);
    }
    SamePixels(twice, s, order);
    SamePixels(copy, s, order);
  }

  // ----- the surface registry

  type Surfaces = Registry<Surface>

  /** One try at loading an image: `IMG_Load` of the file, then of the
      no-image picture. */
  datatype ImageFiles = ImageFiles(file: Option<Surface>, noImage: Option<Surface>)

  function Picture(files: ImageFiles): Option<Surface> {
    if files.file.Some? then files.file else files.noImage
  }

  /** `load_image`: the empty name fails; a name already loaded gives its
      index; an entry whose surface was unloaded is loaded again in place;
      a new name is appended. When neither picture loads, -1 and nothing
      changes. */
  function LoadImage(reg: Surfaces, filename: string, files: ImageFiles, display: Surface -> Option<Surface>)
    : (r: (Surfaces, int))
    requires Indexed(reg)
    ensures Indexed(r.0) && -1 <= r.1 < |r.0|
    ensures filename == [] ==> r.1 == -1
    ensures r.1 == -1 ==> r.0 == reg
    ensures r.1 >= 0 ==> r.0[r.1].name == filename && Find(r.0, filename) == Some(r.1)
    ensures Find(reg, filename).Some? ==> |r.0| == |reg|
    ensures Find(reg, filename).None? && r.1 >= 0 ==> r.0 == Append(reg, filename, r.0[r.1].handle)
    ensures filename != [] && Find(reg, filename).Some? && reg[Find(reg, filename).value].handle.Some? ==>
      r == (reg, Find(reg, filename).value)
  {
    if filename == [] then (reg, -1)
    else match Find(reg, filename)
      case Some(k) =>
        if reg[k].handle.Some? then (reg, reg[k].index)
        else if Picture(files).None? then (reg, -1)
        else (SetHandle(reg, k, display(Picture(files).value)), reg[k].index)
      case None =>
        if Picture(files).None? then (reg, -1)
        else
          var r := Append(reg, filename, display(Picture(files).value));
          assert forall j :: 0 <= j < |reg| ==> r[j] == reg[j];
          (r, |reg|)
  }

  /** Loading an image a second time, once it has a surface, gives the same
      index and leaves the registry alone, whatever the files hold now. */
  lemma {:induction false} LoadImageTwice(reg: Surfaces, filename: string, files: ImageFiles, again: ImageFiles,
                                          display: Surface -> Option<Surface>)
    requires Indexed(reg)
    requires LoadImage(reg, filename, files, display).1 >= 0
    requires var (r, i) := LoadImage(reg, filename, files, display); r[i].handle.Some?
    ensures var (r, i) := LoadImage(reg, filename, files, display); LoadImage(r, filename, again, display) == (r, i)
  {
  }

  /** A surface made from `content` (a copy, a flip or a scaled copy),
      appended under `name` even when the name is taken; -1 when SDL could
      not create it. */
  function AddSurface(reg: Surfaces, created: bool, content: Surface, name: string,
                      display: Surface -> Option<Surface>): (r: (Surfaces, int))
    requires Indexed(reg)
    ensures Indexed(r.0)
    ensures !created ==> r == (reg, -1)
    ensures created ==> r == (Append(reg, name, display(content)), |reg|)
  {
    if !created then (reg, -1) else (Append(reg, name, display(content)), |reg|)
  }

  /** The surface at `index`, if the index is in range and it has one. */
  function SurfaceAt(reg: Surfaces, index: int): (s: Option<Surface>)
    ensures s.Some? ==> 0 <= index < |reg| && reg[index].handle == s
  {
    if 0 <= index < |reg| then reg[index].handle else None
  }

  /** `copy_surface(index, name)`. */
  function CopySurface(reg: Surfaces, index: int, name: string, created: bool, display: Surface -> Option<Surface>)
    : (r: (Surfaces, int))
    requires Indexed(reg)
    ensures Indexed(r.0)
    ensures SurfaceAt(reg, index).None? || !created ==> r == (reg, -1)
    ensures SurfaceAt(reg, index).Some? && created ==>
      r == (Append(reg, name, display(SurfaceAt(reg, index).value)), |reg|)
  {
    match SurfaceAt(reg, index)
    case None => (reg, -1)
    case Some(s) => AddSurface(reg, created, s, name, display)
  }

  /** `scale_surface(index, width, height, name)`: a non-positive size
      fails; the same size is a copy; otherwise the resampled picture is
      added. */
  function ScaleSurface(reg: Surfaces, index: int, width: int, height: int, name: string, created: bool,
                        resampled: Surface, display: Surface -> Option<Surface>): (r: (Surfaces, int))
    requires Indexed(reg)
    ensures Indexed(r.0)
    ensures SurfaceAt(reg, index).None? || width <= 0 || height <= 0 || !created ==> r == (reg, -1)
    ensures r.1 >= 0 ==> r.1 == |reg| && |r.0| == |reg| + 1 && r.0[..|reg|] == reg && r.0[|reg|].name == name
  {
    match SurfaceAt(reg, index)
    case None => (reg, -1)
    case Some(s) =>
      if width <= 0 || height <= 0 then (reg, -1)
      else if width == s.width && height == s.height then AddSurface(reg, created, s, name, display)
      else AddSurface(reg, created, resampled, name, display)
  }

  /** `scale_surface(index, width, height)`: scale into a temporary entry of
      the same name, move its surface into the entry at `index`, and drop
      the temporary entry. */
  function ScaleInPlace(reg: Surfaces, index: int, width: int, height: int, created: bool,
                        resampled: Surface, display: Surface -> Option<Surface>): (r: (Surfaces, int))
    requires Indexed(reg)
    ensures Indexed(r.0) && |r.0| == |reg|
    ensures r.1 == -1 || r.1 == index
    ensures r.1 == -1 ==> r.0 == reg
    ensures SurfaceAt(reg, index).None? || width <= 0 || height <= 0 || !created ==> r.1 == -1
    ensures r.1 >= 0 ==> r.1 < |reg| && r.0 == SetHandle(reg, index, r.0[index].handle)
  {
    if !(0 <= index < |reg|) then (reg, -1)
    else
      var (temp, t) := ScaleSurface(reg, index, width, height, reg[index].name, created, resampled, display);
      if t < 0 then (reg, -1)
      else
        var moved := temp[index := temp[index].(handle := temp[t].handle)];
        var r := moved[..|moved| - 1];
        assert r == SetHandle(reg, index, temp[t].handle);
        (r, index)
  }

  /** The three `flip_surface_*` functions: a mirrored copy added under
      `name`. */
  function FlipSurface(reg: Surfaces, index: int, name: string, flipX: bool, flipY: bool, order: ByteOrder,
                       created: bool, display: Surface -> Option<Surface>): (r: (Surfaces, int))
    requires Indexed(reg)
    requires SurfaceAt(reg, index).Some? ==> WellFormed(SurfaceAt(reg, index).value)
    ensures Indexed(r.0)
    ensures SurfaceAt(reg, index).None? || !created ==> r == (reg, -1)
    ensures SurfaceAt(reg, index).Some? && created ==>
      r == (Append(reg, name, display(Flip(SurfaceAt(reg, index).value, order, flipX, flipY))), |reg|)
  {
    match SurfaceAt(reg, index)
    case None => (reg, -1)
    case Some(s) => AddSurface(reg, created, Flip(s, order, flipX, flipY), name, display)
  }

  /** `rename_surface`: a new name for an entry in range. */
  function RenameSurface(reg: Surfaces, index: int, name: string): (r: Surfaces)
    requires Indexed(reg)
    ensures Indexed(r) && |r| == |reg|
    ensures !(0 <= index < |reg|) ==> r == reg
    ensures 0 <= index < |reg| ==> r == reg[index := Entry(name, reg[index].handle, index)]
  {
    if 0 <= index < |reg| then reg[index := reg[index].(name := name)] else reg
  }

  /** `at`: the surface at `index`; an unloaded entry with a name is loaded
      again first. */
  function At(reg: Surfaces, index: int, files: ImageFiles, display: Surface -> Option<Surface>)
    : (r: (Surfaces, Option<Surface>))
    requires Indexed(reg)
    ensures Indexed(r.0) && |r.0| == |reg|
    ensures SurfaceAt(reg, index).Some? ==> r == (reg, SurfaceAt(reg, index))
    ensures r.1.Some? ==> SurfaceAt(r.0, index) == r.1
    ensures !(0 <= index < |reg|) ==> r == (reg, None)
    ensures 0 <= index < |reg| ==> r.0 == SetHandle(reg, index, r.0[index].handle)
  {
    if !(0 <= index < |reg|) then (reg, None)
    else if reg[index].handle.Some? then (reg, reg[index].handle)
    else if reg[index].name == [] || Picture(files).None? then (reg, None)
    else
      var s := display(Picture(files).value);
      (SetHandle(reg, index, s), s)
  }

  /** Whether `sub` occurs in `s` (`find` does not return `npos`). */
  predicate Contains(s: string, sub: string)
    decreases |s|
  {
    |sub| <= |s| && (s[..|sub|] == sub || Contains(s[1..], sub))
  }

  /** `unload_surface(index)`: the entry stays with no surface, unless its
      name contains "noimage". */
  function UnloadSurface(reg: Surfaces, index: int): (r: Surfaces)
    requires Indexed(reg)
    ensures Indexed(r) && |r| == |reg|
    ensures !(0 <= index < |reg|) || Contains(reg[index].name, "noimage") ==> r == reg
    ensures 0 <= index < |reg| && !Contains(reg[index].name, "noimage") ==> r == SetHandle(reg, index, None)
  {
    if !(0 <= index < |reg|) || Contains(reg[index].name, "noimage") then reg
    else SetHandle(reg, index, None)
  }

  /** `unload_surface(name)`: the first entry with that name. */
  function UnloadSurfaceNamed(reg: Surfaces, name: string): (r: Surfaces)
    requires Indexed(reg)
    ensures Indexed(r) && |r| == |reg|
    ensures Find(reg, name).None? ==> r == reg
    ensures Find(reg, name).Some? ==> r == UnloadSurface(reg, Find(reg, name).value)
  {
    match Find(reg, name)
    case None => reg
    case Some(k) => UnloadSurface(reg, reg[k].index)
  }

  /** `unload_surfaces`: every surface is freed, every entry kept. */
  function UnloadSurfaces(reg: Surfaces): (r: Surfaces)
    ensures |r| == |reg|
    ensures forall k :: 0 <= k < |reg| ==> r[k] == Entry(reg[k].name, None, reg[k].index)
    ensures Indexed(reg) ==> Indexed(r)
  {
    seq(|reg|, k requires 0 <= k < |reg| => reg[k].(handle := None))
  }

  /** An unloaded image comes back on the next `at`, in the same entry. */
  lemma {:induction false} UnloadThenAt(reg: Surfaces, index: int, files: ImageFiles,
                                        display: Surface -> Option<Surface>)
    requires Indexed(reg) && 0 <= index < |reg|
    requires reg[index].name != [] && Picture(files).Some?
    ensures var back := At(UnloadSurface(reg, index), index, files, display).0;
      |back| == |reg| && back[index].name == reg[index].name
      && (Contains(reg[index].name, "noimage") || back[index].handle == display(Picture(files).value))
  {
  }

  /** `get_pixel(index, x, y)`: 0 for an index out of range or an entry
      with no surface. */
  function GetPixelAt(reg: Surfaces, index: int, x: int, y: int, order: ByteOrder): (v: int)
    requires SurfaceAt(reg, index).Some? ==> WellFormed(SurfaceAt(reg, index).value)
    ensures SurfaceAt(reg, index).None? ==> v == 0
    ensures SurfaceAt(reg, index).Some? ==> v == GetPixel(SurfaceAt(reg, index).value, x, y, order)
  {
    match SurfaceAt(reg, index)
    case None => 0
    case Some(s) => GetPixel(s, x, y, order)
  }

  /** `put_pixel(index, x, y, pixel)`: nothing for an index out of range or
      an entry with no surface. */
  function PutPixelAt(reg: Surfaces, index: int, x: int, y: int, pixel: int, order: ByteOrder): (r: Surfaces)
    requires Indexed(reg) && 0 <= pixel < Uint32Modulus
    requires SurfaceAt(reg, index).Some? ==> WellFormed(SurfaceAt(reg, index).value)
    ensures Indexed(r) && |r| == |reg|
    ensures SurfaceAt(reg, index).None? ==> r == reg
    ensures SurfaceAt(reg, index).Some? ==>
      r == SetHandle(reg, index, Some(PutPixel(SurfaceAt(reg, index).value, x, y, pixel, order)))
  {
    match SurfaceAt(reg, index)
    case None => reg
    case Some(s) => SetHandle(reg, index, Some(PutPixel(s, x, y, pixel, order)))
  }
}

=== FILE: world.dfy ===
/** The tile world: a row-major grid of blocks, the grid helpers, the
    two-pass collision resolver and the camera scroll. */
module World {
  import opened CArith
  import opened Vectors
  import opened Options

  datatype BlockType = Collidable | NotCollidable

  /** One grid cell: whether it blocks movement, and the surface drawn for it. */
  datatype MapBlock = MapBlock(kind: BlockType, surfaceIndex: int)

  /** The six collision results; each has its own bit of the result set. */
  datatype Collision =
    | BottomCollision
    | TopCollision
    | RightCollision
    | LeftCollision
    | FellOffWorld
    | EndWorld

  /** The number of collision bits. */
  const CollisionSize: nat := 6

  type Flags = set<Collision>

  const NoFlags: Flags := {}

  const VerticalFlags: Flags := {BottomCollision, TopCollision}
  const HorizontalFlags: Flags := {RightCollision, LeftCollision}

  /** The bit position of each flag, in declaration order. */
  function BitOf(c: Collision): (i: nat)
    ensures i < CollisionSize
  {
    match c
    case BottomCollision => 0
    case TopCollision => 1
    case RightCollision => 2
    case LeftCollision => 3
    case FellOffWorld => 4
    case EndWorld => 5
  }

  /** The flag stored at a bit position, if any. */
  function CollisionAt(i: nat): (c: Option<Collision>)
    ensures c.Some? <==> i < CollisionSize
    ensures c.Some? ==> BitOf(c.value) == i
  {
    if i == 0 then Some(BottomCollision)
    else if i == 1 then Some(TopCollision)
    else if i == 2 then Some(RightCollision)
    else if i == 3 then Some(LeftCollision)
    else if i == 4 then Some(FellOffWorld)
    else if i == 5 then Some(EndWorld)
    else None
  }

  /** The six flags occupy six distinct bits, 0 through 5. */
  lemma {:induction false} CollisionBitsDistinct(c: Collision, d: Collision)
    ensures CollisionAt(BitOf(c)) == Some(c)
    ensures BitOf(c) == BitOf(d) <==> c == d
  {
    assert CollisionAt(BitOf(d)) == Some(d);
  }

  const Gravity: real := 1550.0
  const Friction: real := 100.0

  const DefaultBlockWidth: int := 32
  const DefaultBlockHeight: int := 32

  /** An integer point: the world's scroll position (its z is always 0). */
  datatype Point = Point(x: int, y: int)

  datatype World = World(
    blocks: seq<MapBlock>,
    width: int,
    height: int,
    blockWidth: int,
    blockHeight: int,
    blocksWide: int,
    blocksHigh: int,
    position: Point,
    backgroundIndex: int)

  /** `World()`: an empty grid with zero sizes and no background. */
  const EmptyWorld: World := World([], 0, 0, 0, 0, 0, 0, Point(0, 0), -1)

  /** Block sizes are positive, so the resolver's divisions are defined. */
  predicate HasBlockSize(w: World) {
    w.blockWidth > 0 && w.blockHeight > 0
  }

  /** A loaded world: exactly `width * height` blocks. */
  predicate Valid(w: World) {
    && HasBlockSize(w)
    && 0 <= w.width && 0 <= w.height
    && |w.blocks| == w.width * w.height
  }

  function PixelWidth(w: World): int {
    w.width * w.blockWidth
  }

  function PixelHeight(w: World): int {
    w.height * w.blockHeight
  }

  /** Every grid cell lies inside the world's pixel extent. */
  lemma {:induction false} CellsLieInsidePixelExtent(w: World, col: int, row: int)
    requires HasBlockSize(w)
    requires 0 <= col < w.width && 0 <= row < w.height
    ensures 0 <= col * w.blockWidth && col * w.blockWidth + w.blockWidth <= PixelWidth(w)
    ensures 0 <= row * w.blockHeight && row * w.blockHeight + w.blockHeight <= PixelHeight(w)
  {
    MulNonNegative(col, w.blockWidth);
    MulNonNegative(row, w.blockHeight);
    MulStrictlyMonotone(col, w.width, w.blockWidth);
    MulStrictlyMonotone(row, w.height, w.blockHeight);
  }

  /** `screen_to_grid_x/y`: the grid cell holding a pixel coordinate, by
      truncating division. */
  function ScreenToGrid(p: int, blockSize: int): (cell: int)
    requires blockSize > 0
    ensures 0 <= p ==> 0 <= cell && 0 <= p - cell * blockSize < blockSize
    ensures p < 0 ==> cell <= 0 && -blockSize < p - cell * blockSize <= 0
  {
    CDiv(p, blockSize)
  }

  function GridLocation(column: int, row: int, gridWidth: int): int {
    row * gridWidth + column
  }

  function GridRow(location: int, gridWidth: int): int
    requires gridWidth != 0
  {
    CDiv(location, gridWidth)
  }

  function GridColumn(location: int, gridWidth: int): int
    requires gridWidth != 0
  {
    CMod(location, gridWidth)
  }

  /** Row and column are recovered from the linear index they produce. */
  lemma {:induction false} GridRoundTrip(column: int, row: int, gridWidth: int)
    requires 0 <= column < gridWidth && 0 <= row
    ensures GridRow(GridLocation(column, row, gridWidth), gridWidth) == row
    ensures GridColumn(GridLocation(column, row, gridWidth), gridWidth) == column
  {
    DivOfMultiplePlus(row, gridWidth, column);
  }

  /** A non-negative linear index is rebuilt from its row and column, and
      its column lies in `[0, gridWidth)`. */
  lemma {:induction false} LocationRoundTrip(location: int, gridWidth: int)
    requires 0 <= location && 0 < gridWidth
    ensures 0 <= GridColumn(location, gridWidth) < gridWidth
    ensures 0 <= GridRow(location, gridWidth)
    ensures GridLocation(GridColumn(location, gridWidth), GridRow(location, gridWidth), gridWidth) == location
  {
  }

  predicate InGrid(w: World, col: int, row: int) {
    0 <= col < w.width && 0 <= row < w.height
  }

  /** The linear index of `(col, row)` is a valid index of `m_blocks`. */
  predicate InBlocks(w: World, col: int, row: int) {
    0 <= GridLocation(col, row, w.width) < |w.blocks|
  }

  /** In a loaded world every grid cell has a block. */
  lemma {:induction false} GridCellsHaveBlocks(w: World, col: int, row: int)
    requires Valid(w) && InGrid(w, col, row)
    ensures InBlocks(w, col, row)
  {
    MulStrictlyMonotone(row, w.height, w.width);
    MulNonNegative(row, w.width);
  }

  /** How the resolver reads a cell. `Unchecked` is the source as written:
      the linear index must fall inside `m_blocks`, whichever cell it
      denotes. `Checked` treats every cell outside the grid as empty. */
  datatype Lookup = Unchecked | Checked

  /** Which reads a run of the resolver stays within: the block vector, or
      the grid proper. */
  datatype Region = WithinBlocks | WithinGrid

  predicate Inside(w: World, region: Region, col: int, row: int) {
    InBlocks(w, col, row) && (region == WithinGrid ==> InGrid(w, col, row))
  }

  /** Whether the cell stops movement under the given lookup. */
  function Solid(w: World, mode: Lookup, col: int, row: int): bool
    requires mode == Unchecked ==> InBlocks(w, col, row)
  {
    match mode
    case Unchecked => w.blocks[GridLocation(col, row, w.width)].kind == Collidable
    case Checked =>
      InGrid(w, col, row) && InBlocks(w, col, row)
      && w.blocks[GridLocation(col, row, w.width)].kind == Collidable
  }

  /** Inside the grid both lookups read the same block. */
  lemma {:induction false} LookupsAgreeInGrid(w: World, col: int, row: int)
    requires Inside(w, WithinGrid, col, row)
    ensures Solid(w, Unchecked, col, row) == Solid(w, Checked, col, row)
  {
  }

  /** The resolver's working position (already truncated to integers) and
      the flags gathered so far. */
  datatype Probe = Probe(x: int, y: int, flags: Flags)

  function TopBox(w: World, y: int): int
    requires HasBlockSize(w)
  {
    ScreenToGrid(y, w.blockHeight)
  }

  function BottomBox(w: World, y: int, entityHeight: int): int
    requires HasBlockSize(w)
  {
    ScreenToGrid(y + entityHeight - 1, w.blockHeight)
  }

  function LeftBox(w: World, x: int): int
    requires HasBlockSize(w)
  {
    ScreenToGrid(x, w.blockWidth)
  }

  function RightBox(w: World, x: int, entityWidth: int): int
    requires HasBlockSize(w)
  {
    ScreenToGrid(x + entityWidth - 1, w.blockWidth)
  }

  /** A box of extent `size` placed to end at the start of cell `cell`
      (cell >= 1) lies entirely in the cells before it: its last pixel is in
      cell `cell - 1`. */
  lemma {:induction false} LandOnTileTop(cell: int, blockSize: int, size: int)
    requires 1 <= cell && 0 < blockSize
    ensures ScreenToGrid(cell * blockSize - size + size - 1, blockSize) == cell - 1
  {
    assert cell * blockSize - size + size - 1 == (cell - 1) * blockSize + (blockSize - 1);
    DivOfMultiplePlus(cell - 1, blockSize, blockSize - 1);
  }

  /** A box placed to start at the end of cell `cell` starts in cell `cell + 1`. */
  lemma {:induction false} LandOnTileBottom(cell: int, blockSize: int)
    requires 0 < blockSize
    ensures ScreenToGrid(cell * blockSize + blockSize, blockSize) == cell + 1
  {
    var n := cell * blockSize + blockSize;
    assert n == (cell + 1) * blockSize by {
      MulSucc(cell, blockSize);
    }
    CDivExact(cell + 1, blockSize);
    assert ScreenToGrid(n, blockSize) == CDiv((cell + 1) * blockSize, blockSize);
  }

  // ----- vertical pass: one column at a time, bottom tile before top tile

  /** The cells one vertical step reads lie in `region`: always the bottom
      tile, and the top tile when the bottom one is not solid. */
  predicate VerticalStepInside(w: World, region: Region, col: int, p: Probe, entityHeight: int)
    requires HasBlockSize(w)
  {
    var top := TopBox(w, p.y);
    var bottom := BottomBox(w, p.y, entityHeight);
    Inside(w, region, col, bottom)
    && (!Solid(w, Unchecked, col, bottom) ==> Inside(w, region, col, top))
  }

  function VerticalStep(w: World, mode: Lookup, col: int, p: Probe, entityHeight: int): (q: Probe)
    requires HasBlockSize(w)
    requires mode == Unchecked ==> VerticalStepInside(w, WithinBlocks, col, p, entityHeight)
    ensures q.x == p.x
    ensures p.flags <= q.flags <= p.flags + VerticalFlags
  {
    var top := TopBox(w, p.y);
    var bottom := BottomBox(w, p.y, entityHeight);
    if Solid(w, mode, col, bottom) then
      p.(y := bottom * w.blockHeight - entityHeight, flags := p.flags + {BottomCollision})
    else if Solid(w, mode, col, top) then
      p.(y := top * w.blockHeight + w.blockHeight, flags := p.flags + {TopCollision})
    else
      p
  }

  /** A bottom hit sets BottomCollision and lands the box's lower edge on
      the tile's upper edge, so that (for a tile below row 0) the box no
      longer reaches into that tile's row; a top hit is tried only when the
      bottom tile is clear, sets TopCollision and moves the box's upper edge
      onto the tile's lower edge, into the next row down; with neither tile
      solid nothing changes. */
  lemma {:induction false} VerticalStepOutcome(w: World, mode: Lookup, col: int, p: Probe, entityHeight: int)
    requires HasBlockSize(w)
    requires mode == Unchecked ==> VerticalStepInside(w, WithinBlocks, col, p, entityHeight)
    ensures var q := VerticalStep(w, mode, col, p, entityHeight);
      var top := TopBox(w, p.y);
      var bottom := BottomBox(w, p.y, entityHeight);
      && (Solid(w, mode, col, bottom) ==>
            && q.flags == p.flags + {BottomCollision}
            && q.y + entityHeight == bottom * w.blockHeight
            && (1 <= bottom ==> BottomBox(w, q.y, entityHeight) == bottom - 1))
      && (!Solid(w, mode, col, bottom) && Solid(w, mode, col, top) ==>
            && TopCollision in q.flags
            && q.flags == p.flags + {TopCollision}
            && TopBox(w, q.y) == top + 1)
      && (!Solid(w, mode, col, bottom) && !Solid(w, mode, col, top) ==> q == p)
  {
    var top := TopBox(w, p.y);
    var bottom := BottomBox(w, p.y, entityHeight);
    if Solid(w, mode, col, bottom) {
      if 1 <= bottom {
        LandOnTileTop(bottom, w.blockHeight, entityHeight);
      }
    } else if Solid(w, mode, col, top) {
      LandOnTileBottom(top, w.blockHeight);
    }
  }

  predicate VerticalPassInside(w: World, region: Region, col: int, last: int, p: Probe, entityHeight: int)
    requires HasBlockSize(w)
    decreases last - col
  {
    col > last
    || (&& VerticalStepInside(w, region, col, p, entityHeight)
        && (VerticalStepInsideWeakens(w, region, col, p, entityHeight);
            VerticalPassInside(w, region, col + 1, last, VerticalStep(w, Unchecked, col, p, entityHeight), entityHeight)))
  }

  lemma {:induction false} VerticalStepInsideWeakens(w: World, region: Region, col: int, p: Probe, entityHeight: int)
    requires HasBlockSize(w)
    requires VerticalStepInside(w, region, col, p, entityHeight)
    ensures VerticalStepInside(w, WithinBlocks, col, p, entityHeight)
  {
  }

  /** The vertical pass visits columns `col..last` in order. */
  function VerticalPass(w: World, mode: Lookup, col: int, last: int, p: Probe, entityHeight: int): (q: Probe)
    requires HasBlockSize(w)
    requires mode == Unchecked ==> VerticalPassInside(w, WithinBlocks, col, last, p, entityHeight)
    decreases last - col
    ensures q.x == p.x
    ensures p.flags <= q.flags <= p.flags + VerticalFlags
  {
    if col > last then p
    else VerticalPass(w, mode, col + 1, last, VerticalStep(w, mode, col, p, entityHeight), entityHeight)
  }

  // ----- horizontal pass: one row at a time, left tile before right tile

  predicate HorizontalStepInside(w: World, region: Region, row: int, p: Probe, entityWidth: int)
    requires HasBlockSize(w)
  {
    var left := LeftBox(w, p.x);
    var right := RightBox(w, p.x, entityWidth);
    Inside(w, region, left, row)
    && (!Solid(w, Unchecked, left, row) ==> Inside(w, region, right, row))
  }

  function HorizontalStep(w: World, mode: Lookup, row: int, p: Probe, entityWidth: int): (q: Probe)
    requires HasBlockSize(w)
    requires mode == Unchecked ==> HorizontalStepInside(w, WithinBlocks, row, p, entityWidth)
    ensures q.y == p.y
    ensures p.flags <= q.flags <= p.flags + HorizontalFlags
  {
    var left := LeftBox(w, p.x);
    var right := RightBox(w, p.x, entityWidth);
    if Solid(w, mode, left, row) then
      p.(x := left * w.blockWidth + w.blockWidth, flags := p.flags + {LeftCollision})
    else if Solid(w, mode, right, row) then
      p.(x := right * w.blockWidth - entityWidth, flags := p.flags + {RightCollision})
    else
      p
  }

  /** A left hit sets LeftCollision and moves the box's left edge onto the
      tile's right edge, into the next column; a right hit is tried only when
      the left tile is clear, sets RightCollision and lands the box's right
      edge on the tile's left edge; with neither tile solid nothing changes. */
  lemma {:induction false} HorizontalStepOutcome(w: World, mode: Lookup, row: int, p: Probe, entityWidth: int)
    requires HasBlockSize(w)
    requires mode == Unchecked ==> HorizontalStepInside(w, WithinBlocks, row, p, entityWidth)
    ensures var q := HorizontalStep(w, mode, row, p, entityWidth);
      var left := LeftBox(w, p.x);
      var right := RightBox(w, p.x, entityWidth);
      && (Solid(w, mode, left, row) ==>
            && LeftCollision in q.flags
            && q.flags == p.flags + {LeftCollision}
            && LeftBox(w, q.x) == left + 1)
      && (!Solid(w, mode, left, row) && Solid(w, mode, right, row) ==>
            && RightCollision in q.flags
            && q.x + entityWidth == right * w.blockWidth
            && (1 <= right ==> RightBox(w, q.x, entityWidth) == right - 1))
      && (!Solid(w, mode, left, row) && !Solid(w, mode, right, row) ==> q == p)
  {
    var left := LeftBox(w, p.x);
    var right := RightBox(w, p.x, entityWidth);
    if Solid(w, mode, left, row) {
      LandOnTileBottom(left, w.blockWidth);
    } else if Solid(w, mode, right, row) {
      if 1 <= right {
        LandOnTileTop(right, w.blockWidth, entityWidth);
      }
    }
  }

  predicate HorizontalPassInside(w: World, region: Region, row: int, last: int, p: Probe, entityWidth: int)
    requires HasBlockSize(w)
    decreases last - row
  {
    row > last
    || (&& HorizontalStepInside(w, region, row, p, entityWidth)
        && (HorizontalStepInsideWeakens(w, region, row, p, entityWidth);
            HorizontalPassInside(w, region, row + 1, last, HorizontalStep(w, Unchecked, row, p, entityWidth), entityWidth)))
  }

  lemma {:induction false} HorizontalStepInsideWeakens(w: World, region: Region, row: int, p: Probe, entityWidth: int)
    requires HasBlockSize(w)
    requires HorizontalStepInside(w, region, row, p, entityWidth)
    ensures HorizontalStepInside(w, WithinBlocks, row, p, entityWidth)
  {
  }

  /** The horizontal pass visits rows `row..last` in order. */
  function HorizontalPass(w: World, mode: Lookup, row: int, last: int, p: Probe, entityWidth: int): (q: Probe)
    requires HasBlockSize(w)
    requires mode == Unchecked ==> HorizontalPassInside(w, WithinBlocks, row, last, p, entityWidth)
    decreases last - row
    ensures q.y == p.y
    ensures p.flags <= q.flags <= p.flags + HorizontalFlags
  {
    if row > last then p
    else HorizontalPass(w, mode, row + 1, last, HorizontalStep(w, mode, row, p, entityWidth), entityWidth)
  }

  lemma {:induction false} VerticalPassInsideWeakens(w: World, region: Region, col: int, last: int, p: Probe, entityHeight: int)
    requires HasBlockSize(w)
    requires VerticalPassInside(w, region, col, last, p, entityHeight)
    ensures VerticalPassInside(w, WithinBlocks, col, last, p, entityHeight)
    decreases last - col
  {
    if col <= last {
      VerticalPassInsideWeakens(w, region, col + 1, last, VerticalStep(w, Unchecked, col, p, entityHeight), entityHeight);
    }
  }

  lemma {:induction false} HorizontalPassInsideWeakens(w: World, region: Region, row: int, last: int, p: Probe, entityWidth: int)
    requires HasBlockSize(w)
    requires HorizontalPassInside(w, region, row, last, p, entityWidth)
    ensures HorizontalPassInside(w, WithinBlocks, row, last, p, entityWidth)
    decreases last - row
  {
    if row <= last {
      HorizontalPassInsideWeakens(w, region, row + 1, last, HorizontalStep(w, Unchecked, row, p, entityWidth), entityWidth);
    }
  }

  // ----- World::collision

  /** The candidate position cast to `Vector<int>`, with no flags yet. */
  function StartProbe(candidate: Vector): Probe {
    Probe(Trunc(candidate.x), Trunc(candidate.y), NoFlags)
  }

  /** The columns the vertical pass visits, from the truncated candidate. */
  function FirstColumn(w: World, p: Probe): int
    requires HasBlockSize(w)
  {
    LeftBox(w, p.x)
  }

  function LastColumn(w: World, p: Probe, entityWidth: int): int
    requires HasBlockSize(w)
  {
    RightBox(w, p.x, entityWidth)
  }

  /** Every read of one `World::collision` call, following the source's
      unchecked evolution, stays inside `region`. */
  predicate ResolveInside(w: World, region: Region, candidate: Option<Vector>, entityWidth: int, entityHeight: int)
    requires HasBlockSize(w)
  {
    candidate.None? || entityWidth < 0 || entityHeight < 0 ||
    var p0 := StartProbe(candidate.value);
    var first := FirstColumn(w, p0);
    var last := LastColumn(w, p0, entityWidth);
    && VerticalPassInside(w, region, first, last, p0, entityHeight)
    && (VerticalPassInsideWeakens(w, region, first, last, p0, entityHeight);
        var p1 := VerticalPass(w, Unchecked, first, last, p0, entityHeight);
        HorizontalPassInside(w, region, TopBox(w, p1.y), BottomBox(w, p1.y, entityHeight), p1, entityWidth))
  }

  lemma {:induction false} ResolveInsideWeakens(w: World, region: Region, candidate: Option<Vector>, entityWidth: int, entityHeight: int)
    requires HasBlockSize(w)
    requires ResolveInside(w, region, candidate, entityWidth, entityHeight)
    ensures ResolveInside(w, WithinBlocks, candidate, entityWidth, entityHeight)
  {
    if candidate.Some? && 0 <= entityWidth && 0 <= entityHeight {
      var p0 := StartProbe(candidate.value);
      var first := FirstColumn(w, p0);
      var last := LastColumn(w, p0, entityWidth);
      VerticalPassInsideWeakens(w, region, first, last, p0, entityHeight);
      var p1 := VerticalPass(w, Unchecked, first, last, p0, entityHeight);
      HorizontalPassInsideWeakens(w, region, TopBox(w, p1.y), BottomBox(w, p1.y, entityHeight), p1, entityWidth);
    }
  }

  datatype Resolution = Resolution(position: Option<Vector>, flags: Flags)

  /** `World::collision`. A missing position or a negative entity size gives
      no flags and leaves the position as it was. Otherwise the position
      comes back truncated to whole numbers, and EndWorld / FellOffWorld are
      set exactly when the resolved box passes the world's right / lower
      pixel edge. The world itself is a value and is not changed. */
  function Resolve(w: World, mode: Lookup, candidate: Option<Vector>, entityWidth: int, entityHeight: int): (r: Resolution)
    requires HasBlockSize(w)
    requires mode == Unchecked ==> ResolveInside(w, WithinBlocks, candidate, entityWidth, entityHeight)
    ensures candidate.None? || entityWidth < 0 || entityHeight < 0 ==> r == Resolution(candidate, NoFlags)
    ensures candidate.Some? && 0 <= entityWidth && 0 <= entityHeight ==>
      && r.position.Some?
      && IsIntegral(r.position.value)
      && r.position.value.z == Trunc(candidate.value.z) as real
      && r.flags - {EndWorld, FellOffWorld} <= VerticalFlags + HorizontalFlags
      && (EndWorld in r.flags <==> r.position.value.x + entityWidth as real > PixelWidth(w) as real)
      && (FellOffWorld in r.flags <==> r.position.value.y + entityHeight as real > PixelHeight(w) as real)
  {
    if candidate.None? || entityWidth < 0 || entityHeight < 0 then
      Resolution(candidate, NoFlags)
    else
      var c := candidate.value;
      var p0 := StartProbe(c);
      var first := FirstColumn(w, p0);
      var last := LastColumn(w, p0, entityWidth);
      var p1 := VerticalPass(w, mode, first, last, p0, entityHeight);
      var p2 := HorizontalPass(w, mode, TopBox(w, p1.y), BottomBox(w, p1.y, entityHeight), p1, entityWidth);
      var ends := if p2.x + entityWidth > PixelWidth(w) then {EndWorld} else NoFlags;
      var falls := if p2.y + entityHeight > PixelHeight(w) then {FellOffWorld} else NoFlags;
      Resolution(Some(FromInts(p2.x, p2.y, Trunc(c.z))), p2.flags + ends + falls)
  }

  // ----- properties of the resolver

  /** No block of the world is collidable. */
  predicate NoCollidable(w: World) {
    forall i :: 0 <= i < |w.blocks| ==> w.blocks[i].kind == NotCollidable
  }

  lemma {:induction false} VerticalPassClear(w: World, mode: Lookup, col: int, last: int, p: Probe, entityHeight: int)
    requires HasBlockSize(w) && NoCollidable(w)
    requires mode == Unchecked ==> VerticalPassInside(w, WithinBlocks, col, last, p, entityHeight)
    ensures VerticalPass(w, mode, col, last, p, entityHeight) == p
    decreases last - col
  {
    if col <= last {
      assert VerticalStep(w, mode, col, p, entityHeight) == p;
      VerticalPassClear(w, mode, col + 1, last, p, entityHeight);
    }
  }

  lemma {:induction false} HorizontalPassClear(w: World, mode: Lookup, row: int, last: int, p: Probe, entityWidth: int)
    requires HasBlockSize(w) && NoCollidable(w)
    requires mode == Unchecked ==> HorizontalPassInside(w, WithinBlocks, row, last, p, entityWidth)
    ensures HorizontalPass(w, mode, row, last, p, entityWidth) == p
    decreases last - row
  {
    if row <= last {
      assert HorizontalStep(w, mode, row, p, entityWidth) == p;
      HorizontalPassClear(w, mode, row + 1, last, p, entityWidth);
    }
  }

  /** In a world without collidable blocks the resolver only truncates the
      candidate: no wall flag is raised and nothing is snapped. */
  lemma {:induction false} ResolveInOpenWorld(w: World, mode: Lookup, candidate: Option<Vector>, entityWidth: int, entityHeight: int)
    requires HasBlockSize(w) && NoCollidable(w)
    requires mode == Unchecked ==> ResolveInside(w, WithinBlocks, candidate, entityWidth, entityHeight)
    requires candidate.Some? && 0 <= entityWidth && 0 <= entityHeight
    ensures var r := Resolve(w, mode, candidate, entityWidth, entityHeight);
      && r.position == Some(Snap(candidate.value))
      && r.flags * (VerticalFlags + HorizontalFlags) == {}
  {
    var p0 := StartProbe(candidate.value);
    var first := FirstColumn(w, p0);
    var last := LastColumn(w, p0, entityWidth);
    VerticalPassClear(w, mode, first, last, p0, entityHeight);
    HorizontalPassClear(w, mode, TopBox(w, p0.y), BottomBox(w, p0.y, entityHeight), p0, entityWidth);
  }

  lemma {:induction false} VerticalStepAgrees(w: World, col: int, p: Probe, entityHeight: int)
    requires HasBlockSize(w) && VerticalStepInside(w, WithinGrid, col, p, entityHeight)
    ensures VerticalStepInside(w, WithinBlocks, col, p, entityHeight)
    ensures VerticalStep(w, Unchecked, col, p, entityHeight) == VerticalStep(w, Checked, col, p, entityHeight)
  {
    LookupsAgreeInGrid(w, col, BottomBox(w, p.y, entityHeight));
    if !Solid(w, Unchecked, col, BottomBox(w, p.y, entityHeight)) {
      LookupsAgreeInGrid(w, col, TopBox(w, p.y));
    }
  }

  lemma {:induction false} HorizontalStepAgrees(w: World, row: int, p: Probe, entityWidth: int)
    requires HasBlockSize(w) && HorizontalStepInside(w, WithinGrid, row, p, entityWidth)
    ensures HorizontalStepInside(w, WithinBlocks, row, p, entityWidth)
    ensures HorizontalStep(w, Unchecked, row, p, entityWidth) == HorizontalStep(w, Checked, row, p, entityWidth)
  {
    LookupsAgreeInGrid(w, LeftBox(w, p.x), row);
    if !Solid(w, Unchecked, LeftBox(w, p.x), row) {
      LookupsAgreeInGrid(w, RightBox(w, p.x, entityWidth), row);
    }
  }

  lemma {:induction false} VerticalPassAgrees(w: World, col: int, last: int, p: Probe, entityHeight: int)
    requires HasBlockSize(w) && VerticalPassInside(w, WithinGrid, col, last, p, entityHeight)
    ensures VerticalPassInside(w, WithinBlocks, col, last, p, entityHeight)
    ensures VerticalPass(w, Unchecked, col, last, p, entityHeight) == VerticalPass(w, Checked, col, last, p, entityHeight)
    decreases last - col
  {
    VerticalPassInsideWeakens(w, WithinGrid, col, last, p, entityHeight);
    if col <= last {
      VerticalStepAgrees(w, col, p, entityHeight);
      VerticalPassAgrees(w, col + 1, last, VerticalStep(w, Unchecked, col, p, entityHeight), entityHeight);
    }
  }

  lemma {:induction false} HorizontalPassAgrees(w: World, row: int, last: int, p: Probe, entityWidth: int)
    requires HasBlockSize(w) && HorizontalPassInside(w, WithinGrid, row, last, p, entityWidth)
    ensures HorizontalPassInside(w, WithinBlocks, row, last, p, entityWidth)
    ensures HorizontalPass(w, Unchecked, row, last, p, entityWidth) == HorizontalPass(w, Checked, row, last, p, entityWidth)
    decreases last - row
  {
    HorizontalPassInsideWeakens(w, WithinGrid, row, last, p, entityWidth);
    if row <= last {
      HorizontalStepAgrees(w, row, p, entityWidth);
      HorizontalPassAgrees(w, row + 1, last, HorizontalStep(w, Unchecked, row, p, entityWidth), entityWidth);
    }
  }

  /** When every read of a call falls inside the grid, the source's
      unchecked lookup and the checked lookup resolve identically. */
  lemma {:induction false} LookupsAgreeWithinGrid(w: World, candidate: Option<Vector>, entityWidth: int, entityHeight: int)
    requires HasBlockSize(w) && ResolveInside(w, WithinGrid, candidate, entityWidth, entityHeight)
    ensures ResolveInside(w, WithinBlocks, candidate, entityWidth, entityHeight)
    ensures Resolve(w, Unchecked, candidate, entityWidth, entityHeight) == Resolve(w, Checked, candidate, entityWidth, entityHeight)
  {
    ResolveInsideWeakens(w, WithinGrid, candidate, entityWidth, entityHeight);
    if candidate.Some? && 0 <= entityWidth && 0 <= entityHeight {
      var p0 := StartProbe(candidate.value);
      var first := FirstColumn(w, p0);
      var last := LastColumn(w, p0, entityWidth);
      VerticalPassAgrees(w, first, last, p0, entityHeight);
      var p1 := VerticalPass(w, Unchecked, first, last, p0, entityHeight);
      HorizontalPassAgrees(w, TopBox(w, p1.y), BottomBox(w, p1.y, entityHeight), p1, entityWidth);
    }
  }

  /** The last row the horizontal pass reads is its final row; if it lies in
      the grid, that row is above the grid's bottom. */
  lemma {:induction false} LastRowReadInGrid(w: World, row: int, last: int, p: Probe, entityWidth: int)
    requires HasBlockSize(w) && row <= last
    requires HorizontalPassInside(w, WithinGrid, row, last, p, entityWidth)
    ensures 0 <= last < w.height
    decreases last - row
  {
    if row < last {
      LastRowReadInGrid(w, row + 1, last, HorizontalStep(w, Unchecked, row, p, entityWidth), entityWidth);
    }
  }

  /** As written, FellOffWorld needs a read outside the grid: a call whose
      reads all stay inside the grid never reports it. */
  lemma {:induction false} FallNeedsReadOutsideGrid(w: World, candidate: Option<Vector>, entityWidth: int, entityHeight: int)
    requires HasBlockSize(w) && candidate.Some? && 0 <= entityWidth && 1 <= entityHeight
    requires ResolveInside(w, WithinGrid, candidate, entityWidth, entityHeight)
    ensures ResolveInside(w, WithinBlocks, candidate, entityWidth, entityHeight)
    ensures FellOffWorld !in Resolve(w, Unchecked, candidate, entityWidth, entityHeight).flags
  {
    ResolveInsideWeakens(w, WithinGrid, candidate, entityWidth, entityHeight);
    var h := w.blockHeight;
    var p0 := StartProbe(candidate.value);
    var first := FirstColumn(w, p0);
    var last := LastColumn(w, p0, entityWidth);
    VerticalPassInsideWeakens(w, WithinGrid, first, last, p0, entityHeight);
    var p1 := VerticalPass(w, Unchecked, first, last, p0, entityHeight);
    var top := TopBox(w, p1.y);
    var bottom := BottomBox(w, p1.y, entityHeight);
    CDivMonotone(p1.y, p1.y + entityHeight - 1, h);
    LastRowReadInGrid(w, top, bottom, p1, entityWidth);
    MulStrictlyMonotone(bottom, w.height, h);
    MulNonNegative(w.height, h);
    assert p1.y + entityHeight <= PixelHeight(w);
  }

  /** The reads of a box that starts below the grid, at a column inside the
      block vector's row width, leave `m_blocks`: the source's unchecked
      lookup cannot decide FellOffWorld without an out-of-range read. */
  lemma {:induction false} FallReadsOutsideBlocks(w: World, candidate: Option<Vector>, entityWidth: int, entityHeight: int)
    requires Valid(w) && candidate.Some? && 1 <= entityWidth && 1 <= entityHeight
    requires 0 <= Trunc(candidate.value.x) && PixelHeight(w) <= Trunc(candidate.value.y)
    ensures !ResolveInside(w, WithinBlocks, candidate, entityWidth, entityHeight)
  {
    var p0 := StartProbe(candidate.value);
    var first := FirstColumn(w, p0);
    var last := LastColumn(w, p0, entityWidth);
    CDivMonotone(p0.x, p0.x + entityWidth - 1, w.blockWidth);
    var bottom := BottomBox(w, p0.y, entityHeight);
    CDivExact(w.height, w.blockHeight);
    CDivMonotone(w.height * w.blockHeight, p0.y + entityHeight - 1, w.blockHeight);
    assert w.height <= bottom;
    MulNonNegative(bottom - w.height, w.width);
    assert (bottom - w.height) * w.width == bottom * w.width - w.height * w.width;
    assert !InBlocks(w, first, bottom);
  }

  lemma {:induction false} VerticalPassBelowGrid(w: World, col: int, last: int, p: Probe, entityHeight: int)
    requires HasBlockSize(w) && 0 <= w.height && 1 <= entityHeight
    requires PixelHeight(w) <= p.y
    ensures VerticalPass(w, Checked, col, last, p, entityHeight) == p
    decreases last - col
  {
    if col <= last {
      CDivExact(w.height, w.blockHeight);
      CDivMonotone(w.height * w.blockHeight, p.y, w.blockHeight);
      CDivMonotone(p.y, p.y + entityHeight - 1, w.blockHeight);
      assert VerticalStep(w, Checked, col, p, entityHeight) == p;
      VerticalPassBelowGrid(w, col + 1, last, p, entityHeight);
    }
  }

  lemma {:induction false} HorizontalPassBelowGrid(w: World, row: int, last: int, p: Probe, entityWidth: int)
    requires HasBlockSize(w) && w.height <= row
    ensures HorizontalPass(w, Checked, row, last, p, entityWidth) == p
    decreases last - row
  {
    if row <= last {
      assert HorizontalStep(w, Checked, row, p, entityWidth) == p;
      HorizontalPassBelowGrid(w, row + 1, last, p, entityWidth);
    }
  }

  /** With the checked lookup, a box that starts below the grid is reported
      as FellOffWorld and is left where it is. */
  lemma {:induction false} CheckedReportsFall(w: World, candidate: Option<Vector>, entityWidth: int, entityHeight: int)
    requires HasBlockSize(w) && 0 <= w.height && candidate.Some? && 0 <= entityWidth && 1 <= entityHeight
    requires PixelHeight(w) <= Trunc(candidate.value.y)
    ensures var r := Resolve(w, Checked, candidate, entityWidth, entityHeight);
      && FellOffWorld in r.flags
      && r.position.Some? && r.position.value.y == Trunc(candidate.value.y) as real
  {
    var p0 := StartProbe(candidate.value);
    var first := FirstColumn(w, p0);
    var last := LastColumn(w, p0, entityWidth);
    VerticalPassBelowGrid(w, first, last, p0, entityHeight);
    CDivExact(w.height, w.blockHeight);
    CDivMonotone(w.height * w.blockHeight, p0.y, w.blockHeight);
    HorizontalPassBelowGrid(w, TopBox(w, p0.y), BottomBox(w, p0.y, entityHeight), p0, entityWidth);
  }

  // ----- the collision `Entity::animate` gets

  /** `World::collision` as `Entity::animate` calls it: the program's own
      unchecked reads whenever every one of them stays inside `m_blocks`,
      including a read past a row's end that lands on the next row. A call
      that would read past the vector is undefined behaviour in C++; there
      the missing cells are read as empty, as the checked lookup does. */
  function Collide(w: World, candidate: Option<Vector>, entityWidth: int, entityHeight: int): (r: Resolution)
    requires HasBlockSize(w)
    ensures ResolveInside(w, WithinBlocks, candidate, entityWidth, entityHeight) ==>
      r == Resolve(w, Unchecked, candidate, entityWidth, entityHeight)
    ensures ResolveInside(w, WithinGrid, candidate, entityWidth, entityHeight) ==>
      r == Resolve(w, Checked, candidate, entityWidth, entityHeight)
    ensures candidate.None? || entityWidth < 0 || entityHeight < 0 ==> r == Resolution(candidate, NoFlags)
    ensures candidate.Some? && 0 <= entityWidth && 0 <= entityHeight ==>
      && r.position.Some?
      && IsIntegral(r.position.value)
      && r.flags - {EndWorld, FellOffWorld} <= VerticalFlags + HorizontalFlags
      && (EndWorld in r.flags <==> r.position.value.x + entityWidth as real > PixelWidth(w) as real)
      && (FellOffWorld in r.flags <==> r.position.value.y + entityHeight as real > PixelHeight(w) as real)
  {
    if ResolveInside(w, WithinGrid, candidate, entityWidth, entityHeight) then
      LookupsAgreeWithinGrid(w, candidate, entityWidth, entityHeight);
      Resolve(w, Unchecked, candidate, entityWidth, entityHeight)
    else if ResolveInside(w, WithinBlocks, candidate, entityWidth, entityHeight) then
      Resolve(w, Unchecked, candidate, entityWidth, entityHeight)
    else
      Resolve(w, Checked, candidate, entityWidth, entityHeight)
  }

  // ----- World::scroll

  /** The clamp applied after centring: a negative camera goes to 0, one
      that overruns the far edge goes to `extent - window`. */
  function ClampCamera(camera: int, window: int, extent: int): int {
    if camera < 0 then 0
    else if camera + window > extent then extent - window
    else camera
  }

  /** One axis of `World::scroll`: move the camera so that the target sits at
      half the window, then clamp. The half window is `window >> 1`, a floor
      division by two. */
  function ScrollAxis(camera: int, target: int, window: int, extent: int): (c: int)
    ensures c == ClampCamera(target - window / 2, window, extent)
  {
    var half := window / 2;
    var offset := target - camera;
    var centred :=
      if offset > half then camera + (offset - half)
      else if offset < half then camera - (half - offset)
      else camera;
    if centred < 0 then 0
    else if centred + window > extent then extent - window
    else centred
  }

  /** `World::scroll` for a player at `player` and a window of the given
      size: each coordinate of the camera is the player's truncated
      coordinate minus half the window, clamped to the world, and nothing but
      the camera changes. */
  function Scroll(w: World, player: Vector, windowWidth: int, windowHeight: int): (r: World)
    ensures r.position.x == ClampCamera(Trunc(player.x) - windowWidth / 2, windowWidth, PixelWidth(w))
    ensures r.position.y == ClampCamera(Trunc(player.y) - windowHeight / 2, windowHeight, PixelHeight(w))
    ensures r == w.(position := r.position)
  {
    w.(position := Point(
      ScrollAxis(w.position.x, Trunc(player.x), windowWidth, PixelWidth(w)),
      ScrollAxis(w.position.y, Trunc(player.y), windowHeight, PixelHeight(w))))
  }

  /** When the world is at least as large as the window, the scrolled
      camera shows only the world: `0 <= camera` and `camera + window <= extent`. */
  lemma {:induction false} ScrollStaysInWorld(w: World, player: Vector, windowWidth: int, windowHeight: int)
    requires 0 <= windowWidth <= PixelWidth(w) && 0 <= windowHeight <= PixelHeight(w)
    ensures var r := Scroll(w, player, windowWidth, windowHeight);
      && 0 <= r.position.x && r.position.x + windowWidth <= PixelWidth(w)
      && 0 <= r.position.y && r.position.y + windowHeight <= PixelHeight(w)
  {
  }

  /** A player already at the window's centre, in a world that fits, leaves
      the camera where it was. */
  lemma {:induction false} ScrollCentredIsStable(w: World, player: Vector, windowWidth: int, windowHeight: int)
    requires 0 <= windowWidth <= PixelWidth(w) && 0 <= windowHeight <= PixelHeight(w)
    requires 0 <= w.position.x && w.position.x + windowWidth <= PixelWidth(w)
    requires 0 <= w.position.y && w.position.y + windowHeight <= PixelHeight(w)
    requires Trunc(player.x) == w.position.x + windowWidth / 2
    requires Trunc(player.y) == w.position.y + windowHeight / 2
    ensures Scroll(w, player, windowWidth, windowHeight) == w
  {
  }
}

=== FILE: world_examples.dfy ===
/** Worked runs of the collision resolver on small concrete worlds. */
module WorldExamples {
  import opened CArith
  import opened Vectors
  import opened Options
  import opened World

  /** A 10 x 5 grid of 32-pixel blocks whose bottom row is solid. */
  function FloorWorld(): (w: World)
    ensures Valid(w) && PixelWidth(w) == 320 && PixelHeight(w) == 160
  {
    World(seq(50, i => if i >= 40 then MapBlock(Collidable, -1) else MapBlock(NotCollidable, -1)),
          10, 5, 32, 32, 10, 5, Point(0, 0), -1)
  }

  /** A 16 x 16 box asked to move to (40, 120) sinks into the floor row; the
      resolver lifts it to y = 112, resting on the floor, with only
      BottomCollision set. */
  lemma {:induction false} LandingOnFloor()
    ensures ResolveInside(FloorWorld(), WithinGrid, Some(Vector(40.0, 120.0, 0.0)), 16, 16)
    ensures Resolve(FloorWorld(), Checked, Some(Vector(40.0, 120.0, 0.0)), 16, 16)
         == Resolution(Some(Vector(40.0, 112.0, 0.0)), {BottomCollision})
  {
    var w := FloorWorld();
    var c := Vector(40.0, 120.0, 0.0);
    TruncOfWhole(40);
    TruncOfWhole(120);
    TruncOfWhole(0);
    var p0 := StartProbe(c);
    assert p0 == Probe(40, 120, NoFlags);
    DivOfMultiplePlus(1, 32, 8);
    DivOfMultiplePlus(1, 32, 23);
    DivOfMultiplePlus(3, 32, 24);
    DivOfMultiplePlus(4, 32, 7);
    DivOfMultiplePlus(3, 32, 16);
    DivOfMultiplePlus(3, 32, 31);
    assert FirstColumn(w, p0) == 1 && LastColumn(w, p0, 16) == 1;
    assert TopBox(w, 120) == 3 && BottomBox(w, 120, 16) == 4;
    var p1 := Probe(40, 112, {BottomCollision});
    assert w.blocks[41].kind == Collidable;
    assert VerticalStep(w, Checked, 1, p0, 16) == p1;
    assert VerticalStep(w, Unchecked, 1, p0, 16) == p1;
    assert VerticalPass(w, Checked, 1, 1, p0, 16) == p1;
    assert TopBox(w, 112) == 3 && BottomBox(w, 112, 16) == 3;
    assert w.blocks[31].kind == NotCollidable;
    assert HorizontalStep(w, Checked, 3, p1, 16) == p1;
    assert HorizontalPass(w, Checked, 3, 3, p1, 16) == p1;
    assert VerticalPassInside(w, WithinGrid, 1, 1, p0, 16);
    assert HorizontalPassInside(w, WithinGrid, 3, 3, p1, 16);
  }

  /** A 2 x 2 world of one-pixel blocks whose bottom row is solid. */
  function LedgeWorld(): (w: World)
    ensures Valid(w) && PixelWidth(w) == 2 && PixelHeight(w) == 2
  {
    World([MapBlock(NotCollidable, -1), MapBlock(NotCollidable, -1), MapBlock(Collidable, -1), MapBlock(Collidable, -1)],
          2, 2, 1, 1, 2, 2, Point(0, 0), -1)
  }

  /** Past the right edge the program's read of column `width` lands on
      column 0 of the next row: a 1 x 1 box at (2, 0) above an empty cell
      meets the solid bottom row there, and `Collide` reports it as the
      program does. */
  lemma {:induction false} RightEdgeReadsNextRow()
    ensures ResolveInside(LedgeWorld(), WithinBlocks, Some(Vector(2.0, 0.0, 0.0)), 1, 1)
    ensures BottomCollision in Collide(LedgeWorld(), Some(Vector(2.0, 0.0, 0.0)), 1, 1).flags
  {
    var w := LedgeWorld();
    var c := Some(Vector(2.0, 0.0, 0.0));
    LedgeStart();
    LedgeVertical();
    LedgeHorizontal();
    assert ResolveInside(w, WithinBlocks, c, 1, 1);
    PassFlags(w, Unchecked, c.value, 1, 1);
  }

  /** The checked lookup reads the same two cells as outside the grid, so
      the box of `RightEdgeReadsNextRow` passes the ledge unhindered. */
  lemma {:induction false} CheckedMissesNextRow()
    ensures BottomCollision !in Resolve(LedgeWorld(), Checked, Some(Vector(2.0, 0.0, 0.0)), 1, 1).flags
  {
    LedgeStart();
    LedgeChecked();
    PassFlags(LedgeWorld(), Checked, Vector(2.0, 0.0, 0.0), 1, 1);
  }

  /** A resolution has BottomCollision exactly when the two passes
      gathered it. */
  lemma {:induction false} PassFlags(w: World, mode: Lookup, c: Vector, entityWidth: int, entityHeight: int)
    requires HasBlockSize(w) && 0 <= entityWidth && 0 <= entityHeight
    requires mode == Unchecked ==> ResolveInside(w, WithinBlocks, Some(c), entityWidth, entityHeight)
    ensures var p0 := StartProbe(c);
      var p1 := VerticalPass(w, mode, FirstColumn(w, p0), LastColumn(w, p0, entityWidth), p0, entityHeight);
      var p2 := HorizontalPass(w, mode, TopBox(w, p1.y), BottomBox(w, p1.y, entityHeight), p1, entityWidth);
      BottomCollision in Resolve(w, mode, Some(c), entityWidth, entityHeight).flags <==> BottomCollision in p2.flags
  {
  }

  /** Where the example's run starts: cell (2, 0), one column wide. */
  lemma {:induction false} LedgeStart()
    ensures StartProbe(Vector(2.0, 0.0, 0.0)) == Probe(2, 0, NoFlags)
    ensures FirstColumn(LedgeWorld(), Probe(2, 0, NoFlags)) == 2
    ensures LastColumn(LedgeWorld(), Probe(2, 0, NoFlags), 1) == 2
  {
    TruncOfWhole(2);
    TruncOfWhole(0);
    CDivExact(2, 1);
  }

  /** The program's vertical pass in the example lands on linear index 2,
      the first cell of row 1. */
  lemma {:induction false} LedgeVertical()
    ensures VerticalPassInside(LedgeWorld(), WithinBlocks, 2, 2, Probe(2, 0, NoFlags), 1)
    ensures VerticalPass(LedgeWorld(), Unchecked, 2, 2, Probe(2, 0, NoFlags), 1) == Probe(2, -1, {BottomCollision})
  {
    LedgeLanding();
  }

  /** The single vertical step of the example: the box lands. */
  lemma {:induction false} LedgeLanding()
    ensures VerticalStepInside(LedgeWorld(), WithinBlocks, 2, Probe(2, 0, NoFlags), 1)
    ensures VerticalStep(LedgeWorld(), Unchecked, 2, Probe(2, 0, NoFlags), 1) == Probe(2, -1, {BottomCollision})
  {
    var w := LedgeWorld();
    var p := Probe(2, 0, NoFlags);
    LedgeStepInside();
    VerticalStepOutcome(w, Unchecked, 2, p, 1);
    LedgeBoxes();
    var q := VerticalStep(w, Unchecked, 2, p, 1);
    assert q.y + 1 == 0 * w.blockHeight;
    assert q.flags == p.flags + {BottomCollision};
  }

  /** The reads of that step fall inside the block vector, and its bottom
      cell is solid. */
  lemma {:induction false} LedgeStepInside()
    ensures VerticalStepInside(LedgeWorld(), WithinBlocks, 2, Probe(2, 0, NoFlags), 1)
    ensures Solid(LedgeWorld(), Unchecked, 2, BottomBox(LedgeWorld(), 0, 1))
  {
    LedgeBottomSolid();
    var w := LedgeWorld();
    assert Probe(2, 0, NoFlags).y == 0;
    assert Inside(w, WithinBlocks, 2, BottomBox(w, 0, 1));
  }

  /** The bottom cell of that step is cell (2, 0), which is solid. */
  lemma {:induction false} LedgeBottomSolid()
    ensures InBlocks(LedgeWorld(), 2, BottomBox(LedgeWorld(), 0, 1))
    ensures Solid(LedgeWorld(), Unchecked, 2, BottomBox(LedgeWorld(), 0, 1))
  {
    LedgeBoxes();
    LedgeCell();
  }

  /** A one-pixel box at row 0 of the example has its top and bottom in row 0. */
  lemma {:induction false} LedgeBoxes()
    ensures TopBox(LedgeWorld(), 0) == 0 && BottomBox(LedgeWorld(), 0, 1) == 0
  {
    CDivExact(0, 1);
  }

  /** Cell (2, 0) is linear index 2, the solid first cell of row 1. */
  lemma {:induction false} LedgeCell()
    ensures InBlocks(LedgeWorld(), 2, 0) && Solid(LedgeWorld(), Unchecked, 2, 0)
  {
  }

  /** The program's horizontal pass in the example reads linear index 0,
      in row -1, and stops there. */
  lemma {:induction false} LedgeHorizontal()
    ensures TopBox(LedgeWorld(), -1) == -1 && BottomBox(LedgeWorld(), -1, 1) == -1
    ensures HorizontalPassInside(LedgeWorld(), WithinBlocks, -1, -1, Probe(2, -1, {BottomCollision}), 1)
    ensures HorizontalPass(LedgeWorld(), Unchecked, -1, -1, Probe(2, -1, {BottomCollision}), 1)
         == Probe(2, -1, {BottomCollision})
  {
    var w := LedgeWorld();
    var p1 := Probe(2, -1, {BottomCollision});
    CDivExact(2, 1);
    CDivExact(-1, 1);
    assert HorizontalStepInside(w, WithinBlocks, -1, p1, 1);
    assert HorizontalStep(w, Unchecked, -1, p1, 1) == p1;
  }

  /** The checked run of the example reads only cells outside the grid. */
  lemma {:induction false} LedgeChecked()
    ensures VerticalPass(LedgeWorld(), Checked, 2, 2, Probe(2, 0, NoFlags), 1) == Probe(2, 0, NoFlags)
    ensures TopBox(LedgeWorld(), 0) == 0 && BottomBox(LedgeWorld(), 0, 1) == 0
    ensures HorizontalPass(LedgeWorld(), Checked, 0, 0, Probe(2, 0, NoFlags), 1) == Probe(2, 0, NoFlags)
  {
    var w := LedgeWorld();
    var p0 := Probe(2, 0, NoFlags);
    CDivExact(0, 1);
    CDivExact(2, 1);
    assert VerticalStep(w, Checked, 2, p0, 1) == p0;
    assert HorizontalStep(w, Checked, 0, p0, 1) == p0;
  }
}

=== FILE: world_loader.dfy ===
/** The level loaders `World::load_collision_map` and
    `World::load_entity_map`, over the bytes of the map files. The
    `std::ifstream` is modelled as a position in those bytes with a sticky
    end-of-file bit; a `get` at the end reads nothing and leaves the
    destination `char` as it was. */
module WorldLoader {
  import opened CArith
  import opened Vectors
  import opened Options
  import opened World
  import opened Entities
  import opened Animation
  import BlueCollarSuit

  const Newline: int := 10
  const Zero0: int := 48
  const BlasterChar: int := 66
  const SuitChar: int := 83

  function Nat(n: int): (r: nat)
    ensures r == if n < 0 then 0 else n
  {
    if n < 0 then 0 else n
  }

  /** An open input file: its bytes, the read position and `eof()`. */
  datatype Stream = Stream(data: seq<byte>, pos: nat, eof: bool)

  /** A stream as `get` leaves it: never past the end, and at the end once
      `eof()` is set. */
  predicate Sound(s: Stream) {
    s.pos <= |s.data| && (s.eof ==> s.pos == |s.data|)
  }

  /** The stream and the destination `char` after a `get(c)`. */
  datatype Got = Got(stream: Stream, c: int)

  /** `infile.get(c)`: the next byte, read as a signed `char`; at the end
      nothing is read, `c` keeps its value and `eof()` becomes true. */
  function Get(s: Stream, c: int): (r: Got)
    requires Sound(s)
    ensures Sound(r.stream) && r.stream.data == s.data && s.pos <= r.stream.pos <= s.pos + 1
    ensures r.stream.eof <==> s.pos == |s.data|
    ensures s.pos < |s.data| ==> r.stream.pos == s.pos + 1 && r.c == SignedChar(s.data[s.pos])
    ensures s.pos == |s.data| ==> r.c == c
  {
    if s.pos < |s.data| then Got(s.(pos := s.pos + 1), SignedChar(s.data[s.pos]))
    else Got(s.(eof := true), c)
  }

  /** How the grid loops treat a `get` that found the end of the file. The
      source reads on (`AsWritten`): the failure only shows at the next
      `eof()` test, and the stale `char` is used as the cell or row end in
      between. `Strict` fails the load at the failed `get` itself. */
  datatype Reading = AsWritten | Strict

  /** One cell read from a map: its column, row and `char`. */
  datatype Cell = Cell(x: int, y: int, c: int)

  /** Why a grid read stopped early. */
  datatype GridStop = Complete | ShortFile | BadRowEnd

  /** What the grid loops read: the cells visited (those before a failure
      included), the outcome, the stream and the last `char`. */
  datatype Grid = Grid(cells: seq<Cell>, stop: GridStop, stream: Stream, c: int)

  /** The column loop of row `y` from column `x` on, and the row end. */
  function ReadRow(mode: Reading, s: Stream, c: int, x: int, y: int, width: int): (r: Grid)
    requires Sound(s)
    ensures Sound(r.stream) && r.stream.data == s.data && s.pos <= r.stream.pos
    ensures r.stop == Complete ==> |r.cells| == Nat(width - x)
    ensures forall k :: 0 <= k < |r.cells| ==> r.cells[k].y == y && x <= r.cells[k].x < width
    ensures mode == Strict && r.stop == Complete ==> r.stream.pos == s.pos + Nat(width - x) + 1
    decreases width - x
  {
    if x >= width then
      var g := Get(s, c);
      if mode == Strict && g.stream.eof then Grid([], ShortFile, g.stream, g.c)
      else if g.c != Newline then Grid([], BadRowEnd, g.stream, g.c)
      else Grid([], Complete, g.stream, g.c)
    else if s.eof then Grid([], ShortFile, s, c)
    else
      var g := Get(s, c);
      if mode == Strict && g.stream.eof then Grid([], ShortFile, g.stream, g.c)
      else
        var rest := ReadRow(mode, g.stream, g.c, x + 1, y, width);
        Grid([Cell(x, y, g.c)] + rest.cells, rest.stop, rest.stream, rest.c)
  }

  /** The row loop from row `y` on; it stops at the first failing row. */
  function ReadRows(mode: Reading, s: Stream, c: int, y: int, width: int, height: int): (r: Grid)
    requires Sound(s)
    ensures Sound(r.stream) && r.stream.data == s.data && s.pos <= r.stream.pos
    ensures r.stop == Complete ==> |r.cells| == Nat(width) * Nat(height - y)
    ensures forall k :: 0 <= k < |r.cells| ==> y <= r.cells[k].y < height && 0 <= r.cells[k].x < width
    ensures mode == Strict && r.stop == Complete ==> r.stream.pos == s.pos + (Nat(width) + 1) * Nat(height - y)
    decreases height - y
  {
    if y >= height then Grid([], Complete, s, c)
    else
      var row := ReadRow(mode, s, c, 0, y, width);
      if row.stop != Complete then row
      else
        var rest := ReadRows(mode, row.stream, row.c, y + 1, width, height);
        PeelRow(Nat(width), height - y);
        PeelRow(Nat(width) + 1, height - y);
        Grid(row.cells + rest.cells, rest.stop, rest.stream, rest.c)
  }

  /** `n` rows of `a` are one row and `n - 1` more. */
  lemma {:induction false} PeelRow(a: nat, n: int)
    requires 1 <= n
    ensures a * Nat(n) == a + a * Nat(n - 1)
  {
    assert a * n == a + a * (n - 1);
  }

  /** Dropping a known prefix of the unread bytes. */
  lemma {:induction false} DropPrefix(data: seq<byte>, p: nat, a: seq<byte>, b: seq<byte>)
    requires p <= |data| && data[p..] == a + b
    ensures p + |a| <= |data| && data[p + |a|..] == b
  {
    assert data[p + |a|..] == data[p..][|a|..];
    assert (a + b)[|a|..] == b;
  }

  // ----- load_collision_map

  datatype CollisionMapError =
    | ShortHeader      // fewer than two bytes: the source reads uninitialised chars
    | NotWideEnough
    | NotHighEnough
    | BadHeader
    | BadDimensions
    | BadMapRow

  /** A block for a cell: collidable for any `char` but '0'. */
  function BlockOf(c: int): (b: MapBlock)
    ensures b.surfaceIndex == -1
    ensures b.kind == Collidable <==> c != Zero0
  {
    MapBlock(if c - Zero0 != 0 then Collidable else NotCollidable, -1)
  }

  function Blocks(cells: seq<Cell>): (r: seq<MapBlock>)
    ensures |r| == |cells|
    ensures forall k :: 0 <= k < |cells| ==> r[k] == BlockOf(cells[k].c)
  {
    seq(|cells|, k requires 0 <= k < |cells| => BlockOf(cells[k].c))
  }

  /** `load_collision_map` on the file's bytes. The header's two signed
      bytes must reach the viewport's block counts and be followed by '\n';
      the world then takes its size, scrolls to its bottom edge, and gains
      one block per cell, row by row. */
  function LoadCollisionMap(mode: Reading, w: World, data: seq<byte>, windowHeight: int): (r: Result<World, CollisionMapError>)
    ensures |data| < 2 <==> r == Err(ShortHeader)
    ensures 2 <= |data| ==>
      && (SignedChar(data[0]) < w.blocksWide <==> r == Err(NotWideEnough))
      && (SignedChar(data[0]) >= w.blocksWide && SignedChar(data[1]) < w.blocksHigh <==> r == Err(NotHighEnough))
    ensures r.Ok? ==>
      && 3 <= |data| && data[2] as int == Newline
      && r.value.width == SignedChar(data[0]) >= w.blocksWide
      && r.value.height == SignedChar(data[1]) >= w.blocksHigh
      && r.value.position == Point(0, r.value.height * w.blockHeight - windowHeight)
      && |r.value.blocks| == |w.blocks| + Nat(r.value.width) * Nat(r.value.height)
      && r.value.blocks[..|w.blocks|] == w.blocks
      && r.value == w.(width := r.value.width, height := r.value.height, position := r.value.position,
                       blocks := r.value.blocks)
  {
    if |data| < 2 then Err(ShortHeader)
    else
      var width := SignedChar(data[0]);
      var height := SignedChar(data[1]);
      if width < w.blocksWide then Err(NotWideEnough)
      else if height < w.blocksHigh then Err(NotHighEnough)
      else
        var g := Get(Stream(data, 2, false), 0);
        if g.c != Newline then Err(BadHeader)
        else
          var grid := ReadRows(mode, g.stream, g.c, 0, width, height);
          if grid.stop == ShortFile then Err(BadDimensions)
          else if grid.stop == BadRowEnd then Err(BadMapRow)
          else Ok(w.(width := width, height := height, position := Point(0, height * w.blockHeight - windowHeight),
                     blocks := w.blocks + Blocks(grid.cells)))
  }

  /** The world `load_collision_map` leaves behind whether or not it
      succeeds: a header that reaches the viewport sets the size and the
      scroll position before the '\n' is checked, and every cell read
      before a failure has already been pushed as a block. */
  function CollisionMapWorld(mode: Reading, w: World, data: seq<byte>, windowHeight: int): (r: World)
    ensures LoadCollisionMap(mode, w, data, windowHeight).Ok? ==> r == LoadCollisionMap(mode, w, data, windowHeight).value
    ensures LoadCollisionMap(mode, w, data, windowHeight) in {Err(ShortHeader), Err(NotWideEnough), Err(NotHighEnough)} ==> r == w
    ensures LoadCollisionMap(mode, w, data, windowHeight) in {Err(BadHeader), Err(BadDimensions), Err(BadMapRow)} ==>
      && r.width == SignedChar(data[0]) && r.height == SignedChar(data[1])
      && r.position == Point(0, r.height * w.blockHeight - windowHeight)
    ensures LoadCollisionMap(mode, w, data, windowHeight) == Err(BadHeader) ==> r.blocks == w.blocks
    ensures |w.blocks| <= |r.blocks| && r.blocks[..|w.blocks|] == w.blocks
    ensures r == w.(width := r.width, height := r.height, position := r.position, blocks := r.blocks)
  {
    if |data| < 2 then w
    else
      var width := SignedChar(data[0]);
      var height := SignedChar(data[1]);
      if width < w.blocksWide || height < w.blocksHigh then w
      else
        var sized := w.(width := width, height := height, position := Point(0, height * w.blockHeight - windowHeight));
        var g := Get(Stream(data, 2, false), 0);
        if g.c != Newline then sized
        else
          var grid := ReadRows(mode, g.stream, g.c, 0, width, height);
          sized.(blocks := w.blocks + Blocks(grid.cells))
  }

  /** Under `Strict` reading, a loaded map had every byte it needed: the
      header, and every row's cells and '\n'. */
  lemma {:induction false} StrictLoadReadsWholeFile(w: World, data: seq<byte>, windowHeight: int)
    requires LoadCollisionMap(Strict, w, data, windowHeight).Ok?
    ensures var m := LoadCollisionMap(Strict, w, data, windowHeight).value;
      3 + (Nat(m.width) + 1) * Nat(m.height) <= |data|
  {
    var width := SignedChar(data[0]);
    var height := SignedChar(data[1]);
    var g := Get(Stream(data, 2, false), 0);
    var grid := ReadRows(Strict, g.stream, g.c, 0, width, height);
    assert grid.stream.pos <= |data|;
  }

  /** As written, a header with no rows at all loads when the viewport is a
      single block: the failed `get`s leave the header's '\n' in `c`, which
      becomes a collidable cell and then passes as the row end. */
  lemma {:induction false} StaleCharAcceptsMissingRow(w: World)
    requires w.blocksWide <= 1 && w.blocksHigh <= 1
    ensures var r := LoadCollisionMap(AsWritten, w, [1, 1, 10], 0);
      && r.Ok? && |r.value.blocks| == |w.blocks| + 1
      && r.value.blocks[|w.blocks|].kind == Collidable
    ensures LoadCollisionMap(Strict, w, [1, 1, 10], 0) == Err(BadDimensions)
  {
    var s := Stream([1, 1, 10], 3, false);
    var row := ReadRow(AsWritten, s, Newline, 0, 0, 1);
    var g1 := Get(s, Newline);
    assert g1.c == Newline;
    var tail := ReadRow(AsWritten, g1.stream, g1.c, 1, 0, 1);
    assert tail == Grid([], Complete, g1.stream.(eof := true), Newline);
    assert row.cells == [Cell(0, 0, Newline)];
    assert ReadRows(AsWritten, row.stream, row.c, 1, 1, 1) == Grid([], Complete, row.stream, row.c);
    assert ReadRows(AsWritten, s, Newline, 0, 1, 1).cells == [Cell(0, 0, Newline)];
    var t := Stream([1, 1, 10], 3, false);
    assert ReadRow(Strict, t, Newline, 0, 0, 1).stop == ShortFile;
  }

  // ----- the map format the editor writes

  /** One row of a map file: its cell bytes and '\n'. */
  function RowBytes(row: seq<byte>): seq<byte> {
    row + [Newline as byte]
  }

  function RowsBytes(rows: seq<seq<byte>>): seq<byte> {
    if |rows| == 0 then [] else RowBytes(rows[0]) + RowsBytes(rows[1..])
  }

  /** The cells a list of rows encodes, read back as signed `char`s. */
  function RowsCells(rows: seq<seq<byte>>, y: int): seq<Cell>
    decreases |rows|
  {
    if |rows| == 0 then [] else RowCells(rows[0], 0, y) + RowsCells(rows[1..], y + 1)
  }

  function RowCells(row: seq<byte>, x: int, y: int): seq<Cell>
    decreases |row|
  {
    if |row| == 0 then [] else [Cell(x, y, SignedChar(row[0]))] + RowCells(row[1..], x + 1, y)
  }

  /** Reading a row written as its bytes and '\n' gives back its cells,
      under either reading, and stops just past the '\n'. */
  lemma {:induction false} ReadRowOfBytes(mode: Reading, s: Stream, c: int, x: int, y: int, width: int,
                                          row: seq<byte>, tail: seq<byte>)
    requires Sound(s) && !s.eof
    requires |row| == Nat(width - x) && s.data[s.pos..] == RowBytes(row) + tail
    ensures ReadRow(mode, s, c, x, y, width) ==
      Grid(RowCells(row, x, y), Complete, Stream(s.data, s.pos + |row| + 1, false), Newline)
    decreases width - x
  {
    assert s.data[s.pos] == (RowBytes(row) + tail)[0];
    if x < width {
      assert row == [row[0]] + row[1..];
      var g := Get(s, c);
      assert s.data[s.pos + 1..] == RowBytes(row[1..]) + tail by {
        assert s.data[s.pos + 1..] == s.data[s.pos..][1..];
        assert (RowBytes(row) + tail)[1..] == RowBytes(row[1..]) + tail;
      }
      ReadRowOfBytes(mode, g.stream, g.c, x + 1, y, width, row[1..], tail);
    } else {
      assert row == [];
    }
  }

  /** Reading rows written in the map format gives back all their cells. */
  lemma {:induction false} ReadRowsOfBytes(mode: Reading, s: Stream, c: int, y: int, width: int, height: int,
                                           rows: seq<seq<byte>>, tail: seq<byte>)
    requires Sound(s) && !s.eof
    requires |rows| == Nat(height - y)
    requires forall i :: 0 <= i < |rows| ==> |rows[i]| == Nat(width)
    requires s.data[s.pos..] == RowsBytes(rows) + tail
    ensures ReadRows(mode, s, c, y, width, height).stop == Complete
    ensures ReadRows(mode, s, c, y, width, height).cells == RowsCells(rows, y)
    decreases height - y
  {
    if y < height {
      assert rows == [rows[0]] + rows[1..];
      assert RowsBytes(rows) + tail == RowBytes(rows[0]) + (RowsBytes(rows[1..]) + tail);
      ReadRowOfBytes(mode, s, c, 0, y, width, rows[0], RowsBytes(rows[1..]) + tail);
      var next := Stream(s.data, s.pos + |rows[0]| + 1, false);
      var row := ReadRow(mode, s, c, 0, y, width);
      assert row == Grid(RowCells(rows[0], 0, y), Complete, next, Newline);
      DropPrefix(s.data, s.pos, RowBytes(rows[0]), RowsBytes(rows[1..]) + tail);
      assert forall i :: 0 <= i < |rows[1..]| ==> |rows[1..][i]| == Nat(width) by {
        forall i | 0 <= i < |rows[1..]|
          ensures |rows[1..][i]| == Nat(width)
        {
          assert rows[1..][i] == rows[i + 1];
        }
      }
      ReadRowsOfBytes(mode, next, Newline, y + 1, width, height, rows[1..], tail);
      var rest := ReadRows(mode, next, Newline, y + 1, width, height);
      assert ReadRows(mode, s, c, y, width, height) == Grid(row.cells + rest.cells, rest.stop, rest.stream, rest.c);
    } else {
      assert rows == [];
    }
  }

  /** A collision map file: the two header `char`s, '\n', then the rows. */
  function CollisionMapBytes(width: int, height: int, rows: seq<seq<byte>>): seq<byte> {
    [CharByte(width), CharByte(height), Newline as byte] + RowsBytes(rows)
  }

  /** A map written in the format loads back: the header gives the size and
      every cell its block, under either reading. */
  lemma {:induction false} CollisionMapRoundTrip(mode: Reading, w: World, width: int, height: int,
                                                 rows: seq<seq<byte>>, windowHeight: int)
    requires -128 <= width < 128 && -128 <= height < 128
    requires w.blocksWide <= width && w.blocksHigh <= height
    requires |rows| == Nat(height) && forall i :: 0 <= i < |rows| ==> |rows[i]| == Nat(width)
    ensures var r := LoadCollisionMap(mode, w, CollisionMapBytes(width, height, rows), windowHeight);
      && r.Ok? && r.value.width == width && r.value.height == height
      && r.value.blocks == w.blocks + Blocks(RowsCells(rows, 0))
  {
    var data := CollisionMapBytes(width, height, rows);
    CharByteRoundTrip(width);
    CharByteRoundTrip(height);
    assert SignedChar(data[0]) == width && SignedChar(data[1]) == height;
    var g := Get(Stream(data, 2, false), 0);
    assert g.c == Newline;
    RowsOfBytesRead(mode, g.stream, width, height, rows);
  }

  /** After the header, the rows written read back whole. */
  lemma {:induction false} RowsOfBytesRead(mode: Reading, s: Stream, width: int, height: int, rows: seq<seq<byte>>)
    requires Sound(s) && !s.eof && s.data[s.pos..] == RowsBytes(rows)
    requires |rows| == Nat(height) && forall i :: 0 <= i < |rows| ==> |rows[i]| == Nat(width)
    ensures ReadRows(mode, s, Newline, 0, width, height).stop == Complete
    ensures ReadRows(mode, s, Newline, 0, width, height).cells == RowsCells(rows, 0)
  {
    if |rows| > 0 {
      assert s.data[s.pos..] == RowsBytes(rows) + [];
      ReadRowsOfBytes(mode, s, Newline, 0, width, height, rows, []);
    }
  }

  // ----- load_entity_map

  /** What loading an entity map needs from the media loaders: the
      blaster's sprite and shot sound, and the suit's sprite table. */
  datatype Media = Media(blasterSprite: int, blasterSound: int, suitSprites: SpriteTable)

  predicate Spawns(c: int) {
    c == BlasterChar || c == SuitChar
  }

  /** The number of cells that spawn an entity. */
  function SpawnCount(cells: seq<Cell>): nat {
    if |cells| == 0 then 0 else (if Spawns(cells[0].c) then 1 else 0) + SpawnCount(cells[1..])
  }

  /** The cells that spawn an entity, in the order they were read. */
  function SpawningCells(cells: seq<Cell>): (r: seq<Cell>)
    ensures |r| == SpawnCount(cells)
    ensures forall k :: 0 <= k < |r| ==> Spawns(r[k].c) && r[k] in cells
  {
    if |cells| == 0 then []
    else (if Spawns(cells[0].c) then [cells[0]] else []) + SpawningCells(cells[1..])
  }

  /** The entity a cell spawns: a registered blaster or suit with its media
      loaded, placed at the cell's top-left pixel. */
  function Spawned(cell: Cell, address: int, blockWidth: int, blockHeight: int, media: Media): (e: Entity)
    requires Spawns(cell.c)
    ensures e.position == Vector((cell.x * blockWidth) as real, (cell.y * blockHeight) as real, 0.0)
    ensures cell.c == BlasterChar ==> e.kind == BlasterKind(BlasterGun(0.0, media.blasterSound)) && e.sprite == media.blasterSprite
    ensures cell.c == SuitChar ==>
      && e.kind == SuitKind(IdleRight, media.suitSprites) && e.mass == BlueCollarSuit.Mass
      && e.sprite == media.suitSprites[IdleRightAnimation]
    ensures !e.removable && e.address == address
  {
    var at := Vector((cell.x * blockWidth) as real, (cell.y * blockHeight) as real, 0.0);
    if cell.c == BlasterChar then
      NewEntity(address, BlasterKind(BlasterGun(0.0, media.blasterSound))).(sprite := media.blasterSprite, position := at)
    else
      NewEntity(address, SuitKind(IdleRight, media.suitSprites))
        .(mass := BlueCollarSuit.Mass, sprite := media.suitSprites[IdleRightAnimation], position := at)
  }

  /** The `switch` over the cells read: 'B' and 'S' register a new entity
      at the end of the registry, every other `char` spawns nothing. */
  function Spawn(reg: Registry, cells: seq<Cell>, nextAddress: int, blockWidth: int, blockHeight: int, media: Media): (r: Registry)
    ensures |r| == |reg| + SpawnCount(cells) && r[..|reg|] == reg
    ensures forall k :: |reg| <= k < |r| ==> !r[k].removable && (r[k].kind.BlasterKind? || r[k].kind.SuitKind?)
    ensures forall j :: 0 <= j < SpawnCount(cells) ==>
      r[|reg| + j] == Spawned(SpawningCells(cells)[j], nextAddress + j, blockWidth, blockHeight, media)
    decreases |cells|
  {
    if |cells| == 0 then reg
    else if Spawns(cells[0].c) then
      Spawn(PushBack(reg, Spawned(cells[0], nextAddress, blockWidth, blockHeight, media)), cells[1..],
            nextAddress + 1, blockWidth, blockHeight, media)
    else Spawn(reg, cells[1..], nextAddress, blockWidth, blockHeight, media)
  }

  /** What `load_entity_map` leaves: whether it succeeded, and the registry,
      which keeps whatever was spawned before a failure. */
  datatype EntityLoad = EntityLoad(ok: bool, registry: Registry)

  /** `load_entity_map` on the file's bytes, over the world's size. */
  function LoadEntityMap(mode: Reading, w: World, data: seq<byte>, reg: Registry, nextAddress: int, media: Media): (r: EntityLoad)
    ensures |reg| <= |r.registry| && r.registry[..|reg|] == reg
    ensures forall k :: |reg| <= k < |r.registry| ==>
      !r.registry[k].removable && (r.registry[k].kind.BlasterKind? || r.registry[k].kind.SuitKind?)
    ensures r.ok ==> |r.registry| == |reg| + SpawnCount(ReadRows(mode, Stream(data, 0, false), 0, 0, w.width, w.height).cells)
    ensures var grid := ReadRows(mode, Stream(data, 0, false), 0, 0, w.width, w.height);
      && (r.ok <==> grid.stop == Complete)
      && |r.registry| == |reg| + SpawnCount(grid.cells)
      && forall j :: 0 <= j < SpawnCount(grid.cells) ==>
           r.registry[|reg| + j] == Spawned(SpawningCells(grid.cells)[j], nextAddress + j, w.blockWidth, w.blockHeight, media)
  {
    var grid := ReadRows(mode, Stream(data, 0, false), 0, 0, w.width, w.height);
    EntityLoad(grid.stop == Complete, Spawn(reg, grid.cells, nextAddress, w.blockWidth, w.blockHeight, media))
  }

  /** A row whose `width` cells are followed by anything but '\n' fails
      the row-end test. */
  lemma {:induction false} ReadRowBadEnd(mode: Reading, s: Stream, c: int, x: int, y: int, width: int,
                                         row: seq<byte>, end: byte, tail: seq<byte>)
    requires Sound(s) && !s.eof
    requires |row| == Nat(width - x) && s.data[s.pos..] == row + [end] + tail && end as int != Newline
    ensures ReadRow(mode, s, c, x, y, width).stop == BadRowEnd
    decreases width - x
  {
    assert s.data[s.pos] == (row + [end] + tail)[0];
    if x < width {
      var g := Get(s, c);
      assert s.data[s.pos + 1..] == row[1..] + [end] + tail by {
        assert s.data[s.pos + 1..] == s.data[s.pos..][1..];
        assert (row + [end] + tail)[1..] == row[1..] + [end] + tail;
      }
      ReadRowBadEnd(mode, g.stream, g.c, x + 1, y, width, row[1..], end, tail);
    } else {
      assert row == [];
    }
  }

  /** An entity map whose first row is followed by anything but '\n' does
      not load, whatever its first row spawned. */
  lemma {:induction false} EntityMapBadRowEndFails(mode: Reading, w: World, row: seq<byte>, end: byte, tail: seq<byte>,
                                                   reg: Registry, nextAddress: int, media: Media)
    requires 1 <= w.height && |row| == Nat(w.width) && end as int != Newline
    ensures !LoadEntityMap(mode, w, row + [end] + tail, reg, nextAddress, media).ok
  {
    var data := row + [end] + tail;
    var s := Stream(data, 0, false);
    assert data[0..] == data;
    ReadRowBadEnd(mode, s, 0, 0, 0, w.width, row, end, tail);
  }

  /** A map whose rows hold no 'B' or 'S' loads and spawns nothing. */
  lemma {:induction false} EmptyEntityMapSpawnsNothing(mode: Reading, w: World, rows: seq<seq<byte>>, reg: Registry,
                                                       nextAddress: int, media: Media)
    requires |rows| == Nat(w.height) && forall i :: 0 <= i < |rows| ==> |rows[i]| == Nat(w.width)
    requires forall i, j :: 0 <= i < |rows| && 0 <= j < |rows[i]| ==> rows[i][j] as int != BlasterChar && rows[i][j] as int != SuitChar
    ensures LoadEntityMap(mode, w, RowsBytes(rows), reg, nextAddress, media) == EntityLoad(true, reg)
  {
    var data := RowsBytes(rows);
    var s := Stream(data, 0, false);
    var grid := ReadRows(mode, s, 0, 0, w.width, w.height);
    if |rows| > 0 {
      assert data[0..] == RowsBytes(rows) + [];
      ReadRowsOfBytes(mode, s, 0, 0, w.width, w.height, rows, []);
    } else {
      assert grid.cells == [];
    }
    RowsCellsSpawnNothing(rows, 0);
    SpawnNothing(reg, grid.cells, nextAddress, w.blockWidth, w.blockHeight, media);
  }

  lemma {:induction false} RowsCellsSpawnNothing(rows: seq<seq<byte>>, y: int)
    requires forall i, j :: 0 <= i < |rows| && 0 <= j < |rows[i]| ==> rows[i][j] as int != BlasterChar && rows[i][j] as int != SuitChar
    ensures forall k :: 0 <= k < |RowsCells(rows, y)| ==> !Spawns(RowsCells(rows, y)[k].c)
    decreases |rows|
  {
    if |rows| > 0 {
      RowCellsSpawnNothing(rows[0], 0, y);
      RowsCellsSpawnNothing(rows[1..], y + 1);
      var a := RowCells(rows[0], 0, y);
      var b := RowsCells(rows[1..], y + 1);
      assert forall k :: 0 <= k < |a + b| ==> (a + b)[k] == (if k < |a| then a[k] else b[k - |a|]);
    }
  }

  lemma {:induction false} RowCellsSpawnNothing(row: seq<byte>, x: int, y: int)
    requires forall j :: 0 <= j < |row| ==> row[j] as int != BlasterChar && row[j] as int != SuitChar
    ensures forall k :: 0 <= k < |RowCells(row, x, y)| ==> !Spawns(RowCells(row, x, y)[k].c)
    decreases |row|
  {
    if |row| > 0 {
      RowCellsSpawnNothing(row[1..], x + 1, y);
    }
  }

  lemma {:induction false} SpawnNothing(reg: Registry, cells: seq<Cell>, nextAddress: int, blockWidth: int, blockHeight: int, media: Media)
    requires forall k :: 0 <= k < |cells| ==> !Spawns(cells[k].c)
    ensures Spawn(reg, cells, nextAddress, blockWidth, blockHeight, media) == reg
    decreases |cells|
  {
    if |cells| > 0 {
      SpawnNothing(reg, cells[1..], nextAddress, blockWidth, blockHeight, media);
    }
  }

  // ----- World::load

  /** What `World::load` reads: the block size the video scale gives, the
      window size, the collision and entity maps' bytes, whether the texture
      map's images load, and the entity map's media. */
  datatype LevelFiles = LevelFiles(
    blockWidth: int, blockHeight: int, windowWidth: int, windowHeight: int,
    collision: seq<byte>, texturesLoad: bool, entities: seq<byte>, media: Media)

  /** What `World::load` leaves: its verdict, the world, the registry and the
      player. */
  datatype Level = Level(ok: bool, world: World, registry: Registry, player: Entity)

  /** The fresh world `World::load` starts from: block size set, and as
      many whole blocks across and down as the window shows. */
  function Viewport(files: LevelFiles): (w: World)
    requires files.blockWidth != 0 && files.blockHeight != 0
    ensures w.blocks == [] && w.blockWidth == files.blockWidth && w.blockHeight == files.blockHeight
    ensures 0 < files.blockWidth && 0 <= files.windowWidth ==>
      0 <= w.blocksWide && w.blocksWide * files.blockWidth <= files.windowWidth < (w.blocksWide + 1) * files.blockWidth
    ensures 0 < files.blockHeight && 0 <= files.windowHeight ==>
      0 <= w.blocksHigh && w.blocksHigh * files.blockHeight <= files.windowHeight < (w.blocksHigh + 1) * files.blockHeight
  {
    EmptyWorld.(blockWidth := files.blockWidth, blockHeight := files.blockHeight,
                blocksWide := CDiv(files.windowWidth, files.blockWidth),
                blocksHigh := CDiv(files.windowHeight, files.blockHeight))
  }

  /** `World::load` on a fresh `World()`: the collision, texture and entity
      maps load in that order, stopping at the first failure, and then the
      player moves to the world's left edge at the camera's height. */
  function LoadLevel(mode: Reading, files: LevelFiles, reg: Registry, nextAddress: int, player: Entity): (r: Level)
    requires files.blockWidth != 0 && files.blockHeight != 0
    ensures r.world.blockWidth == files.blockWidth && r.world.blockHeight == files.blockHeight
    ensures var m := LoadCollisionMap(mode, Viewport(files), files.collision, files.windowHeight);
      && (r.ok <==> m.Ok? && files.texturesLoad && LoadEntityMap(mode, m.value, files.entities, reg, nextAddress, files.media).ok)
      && r.world == CollisionMapWorld(mode, Viewport(files), files.collision, files.windowHeight)
      && (m.Ok? ==> r.world == m.value)
      && (m.Err? || !files.texturesLoad ==> r.registry == reg)
    ensures |reg| <= |r.registry| && r.registry[..|reg|] == reg
    ensures forall k :: |reg| <= k < |r.registry| ==>
      !r.registry[k].removable && (r.registry[k].kind.BlasterKind? || r.registry[k].kind.SuitKind?)
    ensures r.ok ==> r.player == SetPosition(player, Vector(0.0, r.world.position.y as real, player.position.z))
    ensures !r.ok ==> r.player == player
  {
    var sized := Viewport(files);
    match LoadCollisionMap(mode, sized, files.collision, files.windowHeight)
    case Err(_) => Level(false, CollisionMapWorld(mode, sized, files.collision, files.windowHeight), reg, player)
    case Ok(w) =>
      if !files.texturesLoad then Level(false, w, reg, player)
      else
        var spawned := LoadEntityMap(mode, w, files.entities, reg, nextAddress, files.media);
        if !spawned.ok then Level(false, w, spawned.registry, player)
        else Level(true, w, spawned.registry, SetPosition(player, Vector(0.0, w.position.y as real, player.position.z)))
  }

  /** A level that loaded, with positive block sizes and a window of
      non-negative size, has a valid world: `width * height` blocks. */
  lemma {:induction false} LoadedLevelIsValid(mode: Reading, files: LevelFiles, reg: Registry, nextAddress: int, player: Entity)
    requires 0 < files.blockWidth && 0 < files.blockHeight && 0 <= files.windowWidth && 0 <= files.windowHeight
    requires LoadLevel(mode, files, reg, nextAddress, player).ok
    ensures Valid(LoadLevel(mode, files, reg, nextAddress, player).world)
  {
    var m := LoadCollisionMap(mode, Viewport(files), files.collision, files.windowHeight).value;
    assert 0 <= m.width && 0 <= m.height;
    assert Nat(m.width) * Nat(m.height) == m.width * m.height;
  }
}
